=== FILE: README.md ===
# Element graph bookkeeping — a Dafny model

Element is a modular audio host. Its user builds a graph of nodes and arcs:
plugins, internal utility nodes, and the audio and MIDI IO nodes. This
project models the sequential bookkeeping and decision logic around that
graph. The processor that renders audio is left as an oracle.

Each module follows one source file.

- **`Common`** holds the shared vocabulary:
  - `Option` and `Result`;
  - port kinds and ports;
  - MIDI messages;
  - the plugin description;
  - the "keep the newest N" log trim;
  - generic filter and count helpers.
- **`GraphNodeModel`** (`GraphNode.h`) is the node's parameter record:
  - key range and transpose offset;
  - the gain shadow values;
  - the RMS meter lookups;
  - the flag setters;
  - the name guard and latency;
  - the special parameter indices.
- **`GraphManagerModel`** (`GraphManager.cpp`) is the graph model kept beside the processor:
  - node id allocation;
  - the guards of `addNode`/`addFilter`;
  - `removeFilter` and `disconnectFilter`;
  - restoring arcs on load, and rebuilding the arc list when the processor's connections change;
  - the IO-node enforcer;
  - port reconciliation in `setupNode`.
- **`MidiMonitor`** (`MidiMonitorNode.h/.cpp`) is the MIDI monitor node:
  - fixed ports and description;
  - render-thread queueing and sample accounting;
  - the timer that logs messages, skipping clock ticks, into a bounded log.
- **`OscSender`** (`OSCSenderNode.cpp`) is the OSC sender node:
  - connect/disconnect/pause state;
  - state save and restore with port clamping;
  - render gating;
  - the sender loop's bounded log and its drain.
- **`AudioFilePlayer`** (`AudioFilePlayerNode.cpp`) is the audio file player:
  - how a block is split into sub-blocks at MIDI event frames;
  - the MIDI start/stop/continue state machine;
  - suspend/resume of the transport;
  - the bus layout predicate;
  - state save and restore with defaults.
- **`PluginManagerModel`** (`PluginManager.cpp`) is the plugin scanner protocol:
  - the `type:message` framing and its parse;
  - the `scan:` request;
  - the master's state machine;
  - default format selection and the unverified-plugin filter;
  - the internal-format gate of `createGraphNode`;
  - the purge and rescan of internal plugins.
- **`GraphEditor`** (`GraphEditorComponent.cpp`) holds the pure decisions of the graph editor:
  - the can-change-IO predicate;
  - the "gather nodes" clamp;
  - completing a dragged connector from a pin;
  - pin counting;
  - connector pruning.

Collaborators whose code is not part of this model are parameters. The
processor's `addConnection` is an acceptance oracle; its `removeNode`,
process launch, the OSC socket, the file reader and the plugin instance
factory are booleans handed in by the caller.

## Model

| member | source | states |
|---|---|---|
| GraphNodeModel.SpecialParameterFor | src/engine/GraphNode.h:38-46 | an index maps to a special parameter exactly when it lies in the range from MuteParameter (-4) to NoParameter (-1) |
| GraphNodeModel.SpecialParameterIndexRoundTrip | src/engine/GraphNode.h:38-46 | Enabled is -2, Bypass is -3 and Mute is -4, and each index maps back to its parameter |
| GraphNodeModel.NewNode | src/engine/GraphNode.h:365-373 | a new node has key range (0, 127), transpose 0, is enabled, unmuted, not muting inputs, has both MIDI-program flags off and reports latency 0 |
| GraphNodeModel.SetKeyRange | src/engine/GraphNode.h:205-215 | with 0 <= low <= high < 128 the getter returns exactly (low, high); no other field changes |
| GraphNodeModel.KeyRangeLastSetWins | src/engine/GraphNode.h:205-215 | after any sequence of valid key range sets, the getter returns the last pair set |
| GraphNodeModel.SetTransposeOffset | src/engine/GraphNode.h:218-224 | with a value in [-24, 24] the getter returns that value; no other field changes |
| GraphNodeModel.UpdateGain | src/engine/GraphNode.h:168-174 | after the update, lastGain equals gain and lastInputGain equals inputGain; gain and inputGain are unchanged |
| GraphNodeModel.UpdateGainIdempotent | src/engine/GraphNode.h:168-174 | a second gain update changes nothing |
| GraphNodeModel.RmsLookupIsSafe | src/engine/GraphNode.h:189-191 | for every channel the corrected lookup returns 0 outside the meters, and the meter value inside them |
| GraphNodeModel.RmsGuardAdmitsNegativeChannel | src/engine/GraphNode.h:189 | the guard as written accepts channel -1, which is not a valid meter index |
| GraphNodeModel.SetMuteInput | src/engine/GraphNode.h:316-317 | the mute-input getter returns the value set; the other flags are unchanged |
| GraphNodeModel.SetUseGlobalMidiPrograms | src/engine/GraphNode.h:233-236 | the getter returns the value set; the other flags are unchanged |
| GraphNodeModel.SetMidiProgramsEnabled | src/engine/GraphNode.h:240-243 | the getter returns the value set; the other flags are unchanged |
| GraphNodeModel.FlagSettersAreIndependent | src/engine/GraphNode.h:233-317 | the three flag setters commute, and each getter sees only its own setter |
| GraphNodeModel.SetName | src/engine/GraphNode.h:341-346 | an empty name leaves the node unchanged; a non-empty name is stored |
| GraphNodeModel.SetLatencySamples | src/engine/GraphNode.h:155 | the stored latency becomes the value set, whether or not it differed; no other field changes |
| GraphNodeModel.RoundToInt | src/engine/GraphNode.h:152 | the result is within one half of the input, and an exact half goes to the even neighbour, as the rounding the getter uses does |
| GraphNodeModel.RoundToIntUnique | src/engine/GraphNode.h:152 | any integer within one half of the input that is even on a tie is the rounded value, so the rounding is fully determined |
| GraphNodeModel.RoundToIntTies | src/engine/GraphNode.h:152 | 0.5 and -0.5 round to 0, 1.5 and 2.5 to 2, -1.5 to -2 |
| GraphNodeModel.LatencyRoundTrip | src/engine/GraphNode.h:152-155 | after a set, the reported latency is the value set plus the rounded oversampling latency, and exactly the value set when there is none |
| GraphManagerModel.NextUID | src/controllers/GraphManager.cpp:178-181 | the next id is the previous counter + 1, wrapping to 0 past the 32-bit range |
| GraphManagerModel.AllocatedIdsIncrease | src/controllers/GraphManager.cpp:178-181 | while the counter does not wrap, successive calls hand out consecutive, strictly increasing ids |
| GraphManagerModel.AddNode | src/controllers/GraphManager.cpp:243-283 | an invalid node or a failed instantiation gives no id and leaves the model unchanged; otherwise a copy of the node is appended to model and processor under its new id, keeping its name and missing flag, with relative position and window properties removed; arcs, connections and the last id untouched, so the model and processor stay in step and live arcs still match the connections |
| GraphManagerModel.AddFilter | src/controllers/GraphManager.cpp:285-360 | a missing description or a failed instantiation gives no id and leaves the model unchanged; otherwise a node named after the description is appended to model and processor at the given relative position, with no window properties; arcs, connections and the last id untouched, and live arcs still match the connections |
| GraphManagerModel.AddThenRemoveRestoresNodes | src/controllers/GraphManager.cpp:243-387 | adding a node under a fresh id and then removing that id gives back the node list and the processor's nodes from before |
| GraphManagerModel.RemoveEntriesAsWrittenIsExact | src/controllers/GraphManager.cpp:362-387 | with unique ids, the model-side removal loop deletes exactly the entries with the id |
| GraphManagerModel.RemoveEntriesAsWrittenSkipsNeighbour | src/controllers/GraphManager.cpp:362-387 | with the id duplicated in adjacent entries, the loop keeps the second copy |
| GraphManagerModel.RemoveFilter | src/controllers/GraphManager.cpp:362-387 | a refused removal changes nothing; otherwise the node list is the old one without the entries with the id, in order, every other entry is kept, and the model and processor counts stay equal; the processor keeps every connection not touching the node, in order, followed only by retried missing connections; every missing arc is still an arc afterwards; the last id is kept |
| GraphManagerModel.Rebuild | src/controllers/GraphManager.cpp:587-617 | on the whole controller: nodes untouched, the processor keeps its connections in front and gains only connections of arcs that were missing, no new missing arc appears, every missing arc is retried and either stays missing or is appended to the processor, every connection and missing arc is still an arc, and the live arcs equal the processor's connections |
| GraphManagerModel.RebuildKeepsMissing | src/controllers/GraphManager.cpp:593-609 | each missing arc is copied into the new arc list, so it stays missing or its connection is now the processor's |
| GraphManagerModel.RemoveConnectionAt | src/controllers/GraphManager.cpp:459-463 | the processor loses exactly the connection at the index, keeps the others in order, and gains only retried missing connections behind them; no missing arc is lost; the arcs are then rebuilt to match |
| GraphManagerModel.RemoveSelected | src/controllers/GraphManager.cpp:389-411 | the backward walk, rebuilding after each removal: the processor's connections are the unselected ones in order followed by previously missing ones, and every arc missing at the start is still missing or among those; it reports a removal if and only if some connection was selected, and otherwise leaves the controller unchanged |
| GraphManagerModel.DisconnectFilter | src/controllers/GraphManager.cpp:389-415 | the unselected connections stay in front, in order, followed only by previously missing connections the rebuilds restored, and exactly them when nothing was missing; a change is reported if and only if a connection was selected; the arcs then match the processor; with no change the controller is untouched; every arc missing before the call is still missing or restored behind the unselected connections |
| GraphManagerModel.SurvivorsAreExact | src/controllers/GraphManager.cpp:389-415 | a connection survives if and only if the request does not name it, and something is dropped if and only if the request names some connection |
| GraphManagerModel.LoadNodes | src/controllers/GraphManager.cpp:482-510 | the model keeps, in their stored order, exactly the nodes that were created or stood in for by a placeholder, and a placeholder is marked missing |
| GraphManagerModel.LoadNodesKeepsExactlyTheLoaded | src/controllers/GraphManager.cpp:482-510 | every node that loaded is in the model and every model node is a loaded stored node; with unique stored ids no failed node's id remains |
| GraphManagerModel.RestoreArcs | src/controllers/GraphManager.cpp:515-544 | for each stored arc in turn, offered to the processor as the earlier arcs left it: accepted gives a live arc, refused with both end nodes in the model gives a missing arc, otherwise the arc fails; the processor ends with exactly the live arcs' connections appended |
| GraphManagerModel.DiscardFailed | src/controllers/GraphManager.cpp:546-549 | an arc survives the purge if and only if it was kept, and nothing is added |
| GraphManagerModel.LoadedArcsFromStored | src/controllers/GraphManager.cpp:515-549 | every arc kept and every connection the processor gains comes from the stored list, and every stored arc whose two end nodes are in the model is kept |
| GraphManagerModel.RestoredArcsMatchProcessor | src/controllers/GraphManager.cpp:515-552 | the arcs restored without the missing flag are exactly the connections the processor holds afterwards |
| GraphManagerModel.LoadArcCountAssertionFails | src/controllers/GraphManager.cpp:552 | a load with one missing arc breaks the count assertion as written |
| GraphManagerModel.RetryMissing | src/controllers/GraphManager.cpp:593-610 | each previously missing arc is retried in order against the processor as the earlier retries left it; it stays missing if and only if that processor refuses it, and the processor gains exactly the accepted ones |
| GraphManagerModel.ArcsChanged | src/controllers/GraphManager.cpp:587-617 | the rebuilt list is the processor's connections in order, followed by the missing arcs each retried against the processor as the earlier retries left it, missing again if and only if refused; the live arcs equal the processor's connections afterwards |
| GraphManagerModel.ArcsChangedOnlyRestoresMissing | src/controllers/GraphManager.cpp:587-617 | a rebuild keeps the processor's connections in front, adds only connections of arcs that were missing, and marks no connection missing that was not missing before |
| GraphManagerModel.RebuiltArcsFromStored | src/controllers/GraphManager.cpp:587-617 | when the arcs and the processor's connections all come from a stored list, so does every rebuilt arc |
| GraphManagerModel.RebuildKeepsLoadedArcs | src/controllers/GraphManager.cpp:515-556 | a stored arc between two model nodes survives the restore, the purge and the final rebuild |
| GraphManagerModel.SetNodeModel | src/controllers/GraphManager.cpp:472-557 | the model nodes are exactly the loaded stored nodes in order, model and processor list the same nodes, the live arcs equal the processor's connections, every arc comes from the stored list, and every stored arc between two model nodes is in the result |
| GraphManagerModel.DecideIO | src/controllers/GraphManager.cpp:93-160 | an existing IO node is removed if and only if it is not wanted; a missing one is added if and only if it is wanted, at its fixed position |
| GraphManagerModel.EnforceIONodes | src/controllers/GraphManager.cpp:129-151 | over the four IO types, an addition is decided exactly for the wanted missing nodes, and the ids removed are exactly the unwanted existing ones |
| GraphManagerModel.SetupNodePorts | src/controllers/GraphManager.cpp:619-663 | when the processor's channel counts differ from the model's audio ports, the model's layout is applied if supported; the model ports are kept if and only if there was no mismatch, no sub-graph and no port-count difference, and are otherwise reset to the processor's ports |
| MidiMonitor.DescriptionIsMidiOnly | src/engine/nodes/MidiMonitorNode.h:37-50 | the description has zero audio inputs and outputs, is internal and is not an instrument |
| MidiMonitor.CreatePorts | src/engine/nodes/MidiMonitorNode.h:75-84 | the first call yields two MIDI ports, input `midi_in` "MIDI In" at 0 and output `midi_out` "MIDI Out" at 1; later calls change nothing |
| MidiMonitor.CreatePortsIdempotent | src/engine/nodes/MidiMonitorNode.h:77-83 | creating ports twice is the same as once |
| MidiMonitor.PrepareToRender | src/engine/nodes/MidiMonitorNode.cpp:40-46 | the queue is emptied and the pending sample count reset; the log, the log limit, the ports and whether they were created are kept |
| MidiMonitor.Render | src/engine/nodes/MidiMonitorNode.cpp:53-74 | an empty block changes nothing; otherwise every event is queued after the old queue, in order, the count grows by nframes, and nothing else changes |
| MidiMonitor.GetMessages | src/engine/nodes/MidiMonitorNode.cpp:76-83 | with no pending samples nothing is drained; otherwise the whole queue is drained and the count reset; nothing else changes |
| MidiMonitor.ClearMessages | src/engine/nodes/MidiMonitorNode.cpp:85-92 | the log and queue are emptied and the count reset; nothing else changes |
| MidiMonitor.LogText | src/engine/nodes/MidiMonitorNode.cpp:105-121 | a clock tick gives no line; Start, Stop and Continue give those words; any other message gives its description |
| MidiMonitor.LogLinesSkipClock | src/engine/nodes/MidiMonitorNode.cpp:105-121 | the lines are those of the non-clock messages, one each, in order |
| MidiMonitor.TimerCallback | src/engine/nodes/MidiMonitorNode.cpp:94-128 | the queue is drained as by getMessages, which resets the pending count; the new lines are appended and the log is trimmed to its newest maxLoggedMessages lines; nothing else changes |
| MidiMonitor.RenderedMessagesAreLogged | src/engine/nodes/MidiMonitorNode.cpp:53-128 | messages rendered in a block are logged at the next tick, after what was queued before |
| MidiMonitor.ClearedMonitorLogsNothing | src/engine/nodes/MidiMonitorNode.cpp:85-128 | after a clear, a timer tick leaves the log empty |
| OscSender.CreatePorts | src/engine/nodes/OSCSenderNode.cpp:135-144 | the first call creates one MIDI input `midi_in` at index 0; later calls change nothing |
| OscSender.Connect | src/engine/nodes/OSCSenderNode.cpp:182-192 | already connected on the same port returns true and changes nothing; otherwise the result is the new connected flag; socket and flag keep agreeing |
| OscSender.Disconnect | src/engine/nodes/OSCSenderNode.cpp:194-200 | not connected returns true and changes nothing; otherwise the socket is closed, connected ends false and the result is the close result; nothing else changes |
| OscSender.TogglePause | src/engine/nodes/OSCSenderNode.cpp:222-230 | flips paused and returns the new value |
| OscSender.TogglePauseTwice | src/engine/nodes/OSCSenderNode.cpp:222-230 | toggling twice restores the node |
| OscSender.ClampPort | src/engine/nodes/OSCSenderNode.cpp:50 | the port lies in [1, 65536], and a port already in range is kept |
| OscSender.Decode | src/engine/nodes/OSCSenderNode.cpp:49-52 | absent fields default to host "", port 9001, not connected and not paused |
| OscSender.GetState | src/engine/nodes/OSCSenderNode.cpp:67-81 | the saved state holds the current host, port, connected and paused |
| OscSender.SetStateAsWritten | src/engine/nodes/OSCSenderNode.cpp:43-62 | without data nothing changes; otherwise host, port, connected and paused are the decoded values, whatever the socket did |
| OscSender.SetStateAsWrittenLosesSocketAgreement | src/engine/nodes/OSCSenderNode.cpp:54-62 | the restore as written can report connected with no open socket |
| OscSender.SetState | src/engine/nodes/OSCSenderNode.cpp:43-62 | without data nothing changes; after a restore, host, port and paused equal the decoded values, the node is disconnected when the data says so; when the data says connected, it ends connected if the socket opens and, unless it was already connected on that port, not connected if the socket fails; socket and flag keep agreeing; the queue, the OSC log, its limit and the ports are kept |
| OscSender.StateRoundTrip | src/engine/nodes/OSCSenderNode.cpp:43-81 | saving then restoring keeps host, port, connected and paused when the port is in range and the socket opens |
| OscSender.StateRoundTripAsWritten | src/engine/nodes/OSCSenderNode.cpp:43-81 | the restore as written also round-trips the four fields of a saved state |
| OscSender.Render | src/engine/nodes/OSCSenderNode.cpp:154-178 | the MIDI input is always cleared; nothing is queued for an empty block, when disconnected or when paused; otherwise the block's messages are queued, the count grows and the worker is woken; only the queue and the count change |
| OscSender.Cycle | src/engine/nodes/OSCSenderNode.cpp:83-121 | the queue is drained and every queued message is sent; the non-clock ones are appended to the log, which keeps its newest maxOscMessages entries; only the queue, the count and the log change |
| OscSender.Run | src/engine/nodes/OSCSenderNode.cpp:83-121 | the sender loop computes exactly one cycle |
| OscSender.SendAll | src/engine/nodes/OSCSenderNode.cpp:104-113 | the loop sends every drained message in order and appends the non-clock ones to the log |
| OscSender.GetOscMessages | src/engine/nodes/OSCSenderNode.cpp:252-263 | returns the log in order and leaves it empty |
| OscSender.RenderedMessagesReachLog | src/engine/nodes/OSCSenderNode.cpp:83-178 | messages rendered while connected and unpaused are all sent in the next cycle, and the non-clock ones reach the log |
| OscSender.IdleNodeSendsNothing | src/engine/nodes/OSCSenderNode.cpp:154-178 | a paused or disconnected node with an empty queue sends nothing in the next cycle |
| AudioFilePlayer.DescriptionIsStereoSource | src/engine/nodes/AudioFilePlayerNode.cpp:306-319 | the player has no audio input and two audio outputs |
| AudioFilePlayer.SetRespondToStartStopContinue | src/engine/nodes/AudioFilePlayerNode.cpp:296-304 | the getter returns the value set |
| AudioFilePlayer.OpenFile | src/engine/nodes/AudioFilePlayerNode.cpp:329-345 | opening the loaded file or an unreadable one changes nothing; otherwise the file becomes a stopped source at position 0 |
| AudioFilePlayer.ClearPlayer | src/engine/nodes/AudioFilePlayerNode.cpp:321-327 | reader and source are dropped, the transport stops, and the parameter follows it to false |
| AudioFilePlayer.SetPlayingParam | src/engine/nodes/AudioFilePlayerNode.cpp:513-525 | assigning the value the parameter holds changes nothing; a change starts the transport (when it has a source) or stops it; only the parameter and playing change |
| AudioFilePlayer.ReleaseResources | src/engine/nodes/AudioFilePlayerNode.cpp:372-382 | position and playing are remembered, the transport stops and loses its source, which rewinds it; nothing else changes |
| AudioFilePlayer.PrepareToPlay | src/engine/nodes/AudioFilePlayerNode.cpp:347-370 | with a reader, the source is re-attached at the remembered position, never before 0, and plays if it played; without one the player is cleared |
| AudioFilePlayer.GetStateInformation | src/engine/nodes/AudioFilePlayerNode.cpp:487-497 | the saved state holds the file, the parameter, slave, loop and whether the node responds to transport messages |
| AudioFilePlayer.SuspendResumeRestoresTransport | src/engine/nodes/AudioFilePlayerNode.cpp:347-382 | release records position and playing, and the next prepare with a reader restores them |
| AudioFilePlayer.RenderSchedule | src/engine/nodes/AudioFilePlayerNode.cpp:399-438 | without start/stop/continue there is one block [0, nframes); otherwise each event ends a block that starts where the previous one ended; with event frames inside the block the sub-blocks tile [0, nframes) |
| AudioFilePlayer.LastCommand | src/engine/nodes/AudioFilePlayerNode.cpp:413-427 | a block with no Start, Stop or Continue keeps the pending state; otherwise the state is the last such command in the block, whatever other messages follow it |
| AudioFilePlayer.ProcessBlock | src/engine/nodes/AudioFilePlayerNode.cpp:384-441 | outputs start silent and the MIDI buffer ends empty; the sub-blocks tile the block; when responding, the pending state is the block's last Start, Stop or Continue whatever follows it, unchanged if there is none, and an update is requested if there was one |
| AudioFilePlayer.HandleAsyncUpdate | src/engine/nodes/AudioFilePlayerNode.cpp:454-480 | Start rewinds and plays, Continue plays in place, Stop stops; the pending state always ends None, and only position, playing and the pending state change |
| AudioFilePlayer.StartMessagePlaysFromTop | src/engine/nodes/AudioFilePlayerNode.cpp:384-480 | a block whose last transport message is Start, then the async update, plays a loaded file from position 0 |
| AudioFilePlayer.BusesLayoutSupportedIff | src/engine/nodes/AudioFilePlayerNode.cpp:552-559 | supported if and only if there is no input bus, at most one output bus, and the main output is mono or stereo |
| AudioFilePlayer.SetStateInformation | src/engine/nodes/AudioFilePlayerNode.cpp:499-511 | absent fields default to not playing, not slaved, looping and not responding; a reopened file plays exactly when the saved flag says so; otherwise the transport is untouched when the saved flag equals the parameter, and started or stopped when it differs |
| AudioFilePlayer.RestoreAfterMidiStopStaysStopped | src/engine/nodes/AudioFilePlayerNode.cpp:499-525 | a player stopped by MIDI with its parameter still set stays stopped when its own state is restored |
| AudioFilePlayer.StateRoundTrip | src/engine/nodes/AudioFilePlayerNode.cpp:487-511 | the saved playing, slave, loop and start/stop/continue values are restored; the file comes back when its path is absolute and readable, and then plays as saved |
| PluginManagerModel.Trim | src/session/PluginManager.cpp:356-361 | the result has no whitespace at either end, and a string without whitespace is kept |
| PluginManagerModel.FrameParseRoundTrip | src/session/PluginManager.cpp:356-361 | parsing a frame gives back its type and its trimmed message whenever the type has no ':' |
| PluginManagerModel.FrameParseNeedsColonFreeType | src/session/PluginManager.cpp:78-80 | a type containing ':' is split at its own first colon |
| PluginManagerModel.ScanRequestParse | src/session/PluginManager.cpp:242-260 | the slave reads back exactly the format names the master put in a scan request |
| PluginManagerModel.ScanRequestRoundTrip | src/session/PluginManager.cpp:242-260 | the child scans exactly the plain format names the master put in a scan request |
| PluginManagerModel.SplitJoin | src/session/PluginManager.cpp:256 | the child's quote-aware tokeniser splits the comma-joined plain names back into the names |
| PluginManagerModel.QuotedCommaStaysInToken | src/session/PluginManager.cpp:256 | a comma between single quotes does not split, and the quotes stay in the token |
| PluginManagerModel.SlaveHandleMessage | src/session/PluginManager.cpp:242-260 | quit if and only if the type is "quit"; a scan request if and only if the type is "scan" |
| PluginManagerModel.ReadyHandshakeScansRequestedFormats | src/session/PluginManager.cpp:54-167 | starting a scan, the child's ready state and the update lead the child to scan exactly the requested formats |
| PluginManagerModel.StartScanning | src/session/PluginManager.cpp:54-74 | while running, returns true and changes nothing; otherwise running is the launch result |
| PluginManagerModel.Launch | src/session/PluginManager.cpp:206-228 | launching resets the plugin name and progress and sets running to the launch result, keeping state, outbox and notices |
| PluginManagerModel.HandleMessageFromSlave | src/session/PluginManager.cpp:76-106 | a state message replaces the state and triggers an update only when it changed; a name message records the trimmed plugin name and notifies; a progress message records the progress and notifies; each changes only those fields, and other messages change nothing |
| PluginManagerModel.RepeatedStateTriggersOnce | src/session/PluginManager.cpp:82-92 | the same state twice triggers one update |
| PluginManagerModel.HandleConnectionLost | src/session/PluginManager.cpp:108-117 | a lost connection leaves the master not running with an update pending |
| PluginManagerModel.HandleAsyncUpdate | src/session/PluginManager.cpp:119-167 | ready while running sends the scan request; finished stops the master, sets idle and notifies; scanning or waiting while stopped relaunches, resetting the plugin name and progress and keeping the formats, notices and outbox; finished keeps everything else; the pending flag always ends cleared |
| PluginManagerModel.CrashedScanIsRequestedAgain | src/session/PluginManager.cpp:108-167 | after a crash mid-scan, the relaunch and the new child's ready state make the master send the same scan request again |
| PluginManagerModel.SendQuitMessage | src/session/PluginManager.cpp:187-192 | returns false and changes nothing when not running; otherwise `quit` is sent |
| PluginManagerModel.FormatsToScan | src/session/PluginManager.cpp:594-598 | with no names, every format that can scan except "Element"; otherwise the names given |
| PluginManagerModel.GetPlugins | src/session/PluginManager.cpp:485-500 | lists only files not already known, each one of the files found for the requested format and tagged with that format |
| PluginManagerModel.CreateGraphNode | src/session/PluginManager.cpp:722-752 | the error is "Invalid format" exactly for a non-internal format; in the full build each of the four internal identifiers gives its own node, and only those succeed; otherwise "<name> not found." |
| PluginManagerModel.PurgeInternal | src/session/PluginManager.cpp:842-844 | removes exactly the internal descriptions and keeps the rest in order |
| PluginManagerModel.ScanInternalPlugins | src/session/PluginManager.cpp:832-855 | with no internal format the list is unchanged; otherwise it becomes the external entries followed by the scanned internal ones |
| GraphEditor.FormatDecidesFixedIO | src/gui/GraphEditorComponent.cpp:48-67 | the mixer identifier fixes a node's IO only in the "Element" format and the MIDI device identifiers only in "Internal"; a node of any other format may change IO whatever its identifier |
| GraphEditor.IONodesAndGraphsKeepIO | src/gui/GraphEditorComponent.cpp:61-67 | an IO node or a graph never changes IO |
| GraphEditor.GatherCoordinate | src/gui/GraphEditorComponent.cpp:1237-1271 | below 0 goes to 0.05, above 1 goes to 0.95, in range is kept |
| GraphEditor.GatherNodes | src/gui/GraphEditorComponent.cpp:1237-1271 | every node ends on the canvas, nodes on it are untouched, and the change count is the number of nodes that were off it |
| GraphEditor.GatherTwiceMovesNothing | src/gui/GraphEditorComponent.cpp:1237-1271 | gathering is idempotent: a second gather returns the same positions and counts no change |
| GraphEditor.EndDrag | src/gui/GraphEditorComponent.cpp:1553-1573 | an unset source and an input pin make no connection, as do a set source and an output pin; otherwise the open end is filled from the pin |
| GraphEditor.DragOver | src/gui/GraphEditorComponent.cpp:1482-1491 | only an unset end is filled, only by a pin of the matching direction |
| GraphEditor.ReleaseMatchesPreview | src/gui/GraphEditorComponent.cpp:1482-1573 | with one end open, releasing makes the connection the drag was showing |
| GraphEditor.CountPins | src/gui/GraphEditorComponent.cpp:727-739 | the pins are the non-control ports, split into inputs and outputs |
| GraphEditor.UpdateConnectors | src/gui/GraphEditorComponent.cpp:1376-1396 | every connector left is the dragged one or has an arc, and every connector with an arc is kept |

## Left out

- Processor internals. The processor's `addConnection`, `canConnect`,
  `removeNode`, `removeIllegalConnections` and render order are not part of
  this model.
  - `addConnection` is an acceptance oracle. When it accepts, the new
    connection is taken to be appended to the processor's list.
  - `removeNode` is a boolean result. `ProcessorRemoveNode` also assumes
    that a removal the processor agrees to deletes the node and every
    connection touching it, and nothing else.
  - `removeConnection (int)` is taken to delete exactly the connection at
    that index.
- Threads, locks, timers and async updaters. Each async step is an explicit
  transition that the caller invokes.
- The MIDI message collector is drained whole. Its timestamps and sample
  positions are not modelled.
- Floating-point DSP.
  - Gains, RMS values and positions are plain `real`s that are copied or
    compared.
  - Decibel conversion, oversampling filters and audio buffer contents are
    not modelled.
  - `Silence` only records which channels are cleared.
- Serialisation. ValueTree, XML and GZIP byte formats, file I/O and network
  sends are not modelled; saved state is a record of optional fields.
- The audio transport.
  - Its source, start and stop are modelled by the behaviour the player
    relies on: setting a source stops and rewinds, and start needs a source.
  - The resampling source and the file reader are not modelled.
- The OSC conversion of a MIDI message is not modelled. `OscMessage` wraps
  the source message.
- Plugin scanning.
  - The slave's scanning loop, the dead-plugin file and the reload of the
    known list in `updateListAndLaunchSlave` are not modelled.
  - The scan progress number is read through a `progressOf` oracle.
  - `findDescriptionFor`, `addToKnownPlugins`, `searchForPlugins` and the
    unverified-plugin search thread are not modelled.
  - The known list is a sequence. Its ordering, duplicate checks and file
    bookkeeping are not modelled.
- Internal plugin identifiers. The `EL_INTERNAL_ID_*` macros are a symbolic
  `Identifier` datatype. The internal format name is taken to be
  `"Element"`.
- Graph editor arcs. A connector's arc lookup, `Node::connectionExists`, is
  an `arcExists` oracle.
- Graph editor UI. `dragConnector`'s `canConnect` check and tooltip, and all
  painting, layout and mouse code, are not modelled.
- GraphManagerModel.SetNodeModel: the IO-node enforcer that runs before
  the final rebuild is not applied. Its decision is `EnforceIONodes`;
  carrying it out is `addFilter`/`removeFilter`, which need instantiation
  outcomes that a load does not supply.
- GraphManagerModel.AddFilter: the window properties copied from the
  processor's metadata are taken to be absent. The sub-graph load,
  stereo-layout attempt and port reset on a new node are not modelled.
- AudioFilePlayer.SetPlayingParam: no longer promises that the transport
  follows the parameter on every assignment. A boolean parameter notifies
  its listener only when its value changes, so assigning the value it
  already holds leaves the transport as it is.
- Debug-only preconditions. The `requires` of GraphNodeModel.SetKeyRange,
  GraphNodeModel.SetTransposeOffset and GraphManagerModel.DisconnectFilter
  are the source's `jassert`s. Release builds accept any value; the model
  takes them as the API's stated preconditions.
- OscSender.Connect: as in the source, an already connected node on the same
  port returns true even when the host name differs.
- Application plumbing is not modelled: the application controller, the
  content view, the device manager, startup, and the scripting sources.

## Findings

| source | as written | input that shows it | evidently intended | confidence | as-written member | corrected member |
|---|---|---|---|---|---|---|
| src/engine/GraphNode.h:189-191 | `getInputRMS`/`getOutputRMS` guard with `chan < size` only | channel -1 passes the guard and indexes before the first meter | 0 for every channel outside `[0, size)` | not executed | GraphNodeModel.RmsGuardAdmitsNegativeChannel | GraphNodeModel.RmsLookupIsSafe |
| src/controllers/GraphManager.cpp:552 | asserts that the restored arc count equals the processor's connection count | a stored arc the processor refuses while both endpoints exist is kept as missing, so the arc list is one longer than the connections | only the arcs without the missing flag match the processor | not executed | GraphManagerModel.LoadArcCountAssertionFails | GraphManagerModel.RestoredArcsMatchProcessor |
| src/engine/nodes/OSCSenderNode.cpp:56-61 | after restoring, `connected` is set to the saved flag whatever `connect` returned | a saved state that is connected, with a socket that fails to open, leaves the node connected with no socket | connected reflects the socket's result | not executed | OscSender.SetStateAsWrittenLosesSocketAgreement | OscSender.SetState |

=== FILE: audio_file_player.dfy ===
/** The audio file player node. The audio itself comes from a transport
    source outside this model; what is modelled is when and on which
    sub-blocks the transport is asked to render, how MIDI Start, Stop and
    Continue reach the transport, and the node's state across suspend,
    resume, save and restore. */
module AudioFilePlayer {
  import opened Common

  /** The transport command pending from MIDI; `NoCommand` is the idle
      value. */
  datatype PlayState = NoCommand | StartCommand | StopCommand | ContinueCommand

  datatype Player = Player(
    audioFile: string,
    hasReader: bool,
    sourceSet: bool,
    position: real,
    playing: bool,
    playingParam: bool,
    slave: bool,
    looping: bool,
    midiStartStopContinue: int,
    midiPlayState: PlayState,
    asyncPending: bool,
    lastTransportPos: real,
    wasPlaying: bool)

  /** The transport plays only with a source. */
  predicate TransportOk(p: Player)
  {
    p.playing ==> p.sourceSet
  }

  // The transport operations the node calls. A transport without a source
  // does not start; setting a source stops it and rewinds it.

  function TransportStart(p: Player): (r: Player)
    ensures p.sourceSet ==> r.playing && r.(playing := p.playing) == p
    ensures !p.sourceSet ==> r == p
  {
    if p.sourceSet then p.(playing := true) else p
  }

  function TransportStop(p: Player): (r: Player)
    ensures !r.playing && r.(playing := p.playing) == p
  {
    p.(playing := false)
  }

  function TransportSetSource(p: Player, present: bool): (r: Player)
    ensures r.sourceSet == present && !r.playing && r.position == 0.0
  {
    p.(sourceSet := present, playing := false, position := 0.0)
  }

  /** Assigning the "playing" parameter. A boolean parameter notifies its
      listener only when the value changes, so an assignment of the value it
      already holds does nothing; a change starts or stops the transport. */
  function SetPlayingParam(p: Player, value: bool): (r: Player)
    ensures r.playingParam == value
    ensures value == p.playingParam ==> r == p
    ensures value != p.playingParam ==> r.playing == (value && (p.sourceSet || p.playing))
    ensures value != p.playingParam && TransportOk(p) ==> r.playing == (value && p.sourceSet)
    ensures TransportOk(p) ==> TransportOk(r)
    ensures r.(playingParam := p.playingParam, playing := p.playing) == p
  {
    if value == p.playingParam then p
    else
      var q := p.(playingParam := value);
      if value then TransportStart(q) else TransportStop(q)
  }

  function Description(name: string): (d: PluginDescription)
  {
    PluginDescription(name, "A single audio file player", AudioFilePlayerId, InternalFormatName,
                      "Element", "1.0.0", 0, 2, false, false)
  }

  /** The player is a stereo source with no inputs, of the internal format. */
  lemma DescriptionIsStereoSource(name: string)
    ensures Description(name).numInputChannels == 0 && Description(name).numOutputChannels == 2
    ensures Description(name).name == name && Description(name).fileOrIdentifier == AudioFilePlayerId
    ensures Description(name).pluginFormatName == InternalFormatName
  {
  }

  // ------------------------------------------------- start/stop/continue flag

  function SetRespondToStartStopContinue(p: Player, respond: bool): (r: Player)
    ensures RespondsToStartStopContinue(r) == respond
    ensures r.(midiStartStopContinue := p.midiStartStopContinue) == p
  {
    p.(midiStartStopContinue := if respond then 1 else 0)
  }

  function RespondsToStartStopContinue(p: Player): bool
  {
    p.midiStartStopContinue == 1
  }

  // --------------------------------------------------------------- file I/O

  /** Drops the source and the reader; the "playing" parameter follows the
      now stopped transport. */
  function ClearPlayer(p: Player): (r: Player)
    ensures !r.hasReader && !r.sourceSet && !r.playing && !r.playingParam
    ensures r.audioFile == p.audioFile && TransportOk(r)
  {
    var q := TransportSetSource(p, false).(hasReader := false);
    SetPlayingParam(q, q.playing)
  }

  /** Opens a file. The file already open is a no-op, and so is a file for
      which no reader can be made (`readerOk` false); otherwise the old
      source is cleared and the new file becomes the stopped, rewound source. */
  function OpenFile(p: Player, file: string, readerOk: bool): (r: Player)
    ensures file == p.audioFile || !readerOk ==> r == p
    ensures file != p.audioFile && readerOk ==>
      r.audioFile == file && r.hasReader && r.sourceSet && !r.playing && !r.playingParam && r.position == 0.0
    ensures TransportOk(p) ==> TransportOk(r)
    ensures r.looping == p.looping && r.slave == p.slave && r.midiStartStopContinue == p.midiStartStopContinue
  {
    if file == p.audioFile || !readerOk then p
    else TransportSetSource(ClearPlayer(p).(hasReader := true, audioFile := file), true)
  }

  /** Suspending remembers where the transport was and whether it played,
      then stops it and drops its source. */
  function ReleaseResources(p: Player): (r: Player)
    ensures r.lastTransportPos == p.position && r.wasPlaying == p.playing
    ensures !r.playing && !r.sourceSet && r.position == 0.0
    ensures r.(lastTransportPos := p.lastTransportPos, wasPlaying := p.wasPlaying,
               playing := p.playing, sourceSet := p.sourceSet, position := p.position) == p
  {
    var q := TransportStop(p.(lastTransportPos := p.position, wasPlaying := p.playing));
    TransportSetSource(q, false)
  }

  /** Resuming re-attaches the reader, seeks to the remembered position (never
      before the start) and restarts if it was playing; without a reader the
      player is cleared. */
  function PrepareToPlay(p: Player): (r: Player)
    ensures p.hasReader ==> r.sourceSet && r.position == (if p.lastTransportPos < 0.0 then 0.0 else p.lastTransportPos)
    ensures p.hasReader ==> r.playing == p.wasPlaying
    ensures !p.hasReader ==> !r.sourceSet && !r.playing && !r.playingParam
    ensures TransportOk(r)
  {
    if p.hasReader then
      var q := TransportSetSource(p, true);
      var q2 := q.(position := if p.lastTransportPos < 0.0 then 0.0 else p.lastTransportPos);
      if p.wasPlaying then TransportStart(q2) else q2
    else ClearPlayer(p)
  }

  /** Suspend then resume puts the transport back where it was, playing if
      it played; a position before the start comes back as the start. */
  lemma SuspendResumeRestoresTransport(p: Player)
    requires p.hasReader && TransportOk(p)
    ensures PrepareToPlay(ReleaseResources(p)).playing == p.playing
    ensures PrepareToPlay(ReleaseResources(p)).position == (if p.position < 0.0 then 0.0 else p.position)
    ensures PrepareToPlay(ReleaseResources(p)).audioFile == p.audioFile
  {
  }

  // ------------------------------------------------------------ audio block

  /** A sub-block the transport is asked to render. */
  datatype SubBlock = SubBlock(start: int, numSamples: int)

  /** `blocks` render, back to back, every sample from `from` up to `to`. */
  predicate TilesFrom(blocks: seq<SubBlock>, from: int, to: int)
    decreases |blocks|
  {
    if blocks == [] then from == to
    else blocks[0].start == from && blocks[0].numSamples >= 0
         && TilesFrom(blocks[1..], from + blocks[0].numSamples, to)
  }

  lemma {:induction false} TilesExtend(blocks: seq<SubBlock>, from: int, mid: int, to: int)
    requires TilesFrom(blocks, from, mid) && mid <= to
    ensures TilesFrom(blocks + [SubBlock(mid, to - mid)], from, to)
    decreases |blocks|
  {
    if blocks == [] {
      assert TilesFrom([SubBlock(mid, to - mid)][1..], to, to);
    } else {
      TilesExtend(blocks[1..], from + blocks[0].numSamples, mid, to);
      assert (blocks + [SubBlock(mid, to - mid)])[1..] == blocks[1..] + [SubBlock(mid, to - mid)];
    }
  }

  /** Event frames inside the block, in time order, as a MIDI buffer
      delivers them. */
  predicate FramesWithin(events: seq<MidiEvent>, nframes: int)
  {
    && (forall i :: 0 <= i < |events| ==> 0 <= events[i].frame <= nframes)
    && (forall i, j :: 0 <= i < j < |events| ==> events[i].frame <= events[j].frame)
  }

  /** The transport command a message asks for, if any. */
  function PlayCommand(msg: MidiMessage): (r: PlayState)
    ensures r == NoCommand <==> !(msg.Start? || msg.Stop? || msg.Continue?)
  {
    match msg
    case Start => StartCommand
    case Continue => ContinueCommand
    case Stop => StopCommand
    case _ => NoCommand
  }

  /** Event `i` is the block's last transport message: a command, and no
      command follows it. */
  predicate LastCommandAt(events: seq<MidiEvent>, i: int)
  {
    && 0 <= i < |events|
    && PlayCommand(events[i].message) != NoCommand
    && forall j :: i < j < |events| ==> PlayCommand(events[j].message) == NoCommand
  }

  /** The pending command after `events`, starting from `state`: the last
      transport message wins, whatever follows it, and other messages change
      nothing. */
  function LastCommand(events: seq<MidiEvent>, state: PlayState): (r: PlayState)
    ensures (forall i :: 0 <= i < |events| ==> PlayCommand(events[i].message) == NoCommand) ==> r == state
    ensures forall i :: LastCommandAt(events, i) ==> r == PlayCommand(events[i].message)
    ensures r != state ==> r != NoCommand
    decreases |events|
  {
    if events == [] then state
    else
      var c := PlayCommand(events[0].message);
      LastCommandShift(events);
      LastCommand(events[1..], if c != NoCommand then c else state)
  }

  /** How `LastCommandAt` moves when the first event is dropped. */
  lemma LastCommandShift(events: seq<MidiEvent>)
    requires events != []
    ensures forall i :: 0 < i < |events| && LastCommandAt(events, i) ==> LastCommandAt(events[1..], i - 1)
    ensures LastCommandAt(events, 0) ==> forall j :: 0 <= j < |events[1..]| ==> PlayCommand(events[1..][j].message) == NoCommand
    ensures (forall i :: 0 <= i < |events| ==> PlayCommand(events[i].message) == NoCommand) ==>
              forall j :: 0 <= j < |events[1..]| ==> PlayCommand(events[1..][j].message) == NoCommand
  {
    forall i | 0 < i < |events| && LastCommandAt(events, i)
      ensures LastCommandAt(events[1..], i - 1)
    {
      forall j | i - 1 < j < |events[1..]|
        ensures PlayCommand(events[1..][j].message) == NoCommand
      {
        assert events[1..][j] == events[j + 1];
      }
    }
    if LastCommandAt(events, 0) {
      forall j | 0 <= j < |events[1..]|
        ensures PlayCommand(events[1..][j].message) == NoCommand
      {
        assert events[1..][j] == events[j + 1];
      }
    }
  }

  predicate HasPlayCommand(events: seq<MidiEvent>)
  {
    exists i :: 0 <= i < |events| && PlayCommand(events[i].message) != NoCommand
  }

  /** The sub-blocks the transport renders in one callback. When the node
      responds to Start/Stop/Continue it renders up to each event in turn;
      whatever is left of the block is rendered last. */
  method RenderSchedule(events: seq<MidiEvent>, nframes: nat, respond: bool) returns (blocks: seq<SubBlock>)
    ensures !respond ==> blocks == (if nframes > 0 then [SubBlock(0, nframes)] else [])
    ensures respond ==> |events| <= |blocks| <= |events| + 1
    ensures respond ==> forall k :: 0 <= k < |events| ==>
              blocks[k] == SubBlock(EventStart(events, k), events[k].frame - EventStart(events, k))
    ensures FramesWithin(events, nframes) || !respond ==> TilesFrom(blocks, 0, nframes)
  {
    blocks := [];
    var start := 0;
    if respond {
      blocks, start := RenderUpToEvents(events, nframes);
    }
    if start < nframes {
      if FramesWithin(events, nframes) || !respond {
        TilesExtend(blocks, 0, start, nframes);
      }
      blocks := blocks + [SubBlock(start, nframes - start)];
    }
  }

  /** The sub-blocks up to each event in turn, and where the last one ends. */
  method RenderUpToEvents(events: seq<MidiEvent>, nframes: nat) returns (blocks: seq<SubBlock>, start: int)
    ensures |blocks| == |events|
    ensures start == (if events == [] then 0 else events[|events| - 1].frame)
    ensures forall k :: 0 <= k < |events| ==>
              blocks[k] == SubBlock(EventStart(events, k), events[k].frame - EventStart(events, k))
    ensures FramesWithin(events, nframes) ==> TilesFrom(blocks, 0, start) && 0 <= start <= nframes
  {
    blocks := [];
    start := 0;
    var i := 0;
    while i < |events|
      invariant 0 <= i <= |events|
      invariant |blocks| == i
      invariant start == (if i == 0 then 0 else events[i - 1].frame)
      invariant forall k :: 0 <= k < i ==>
                  blocks[k] == SubBlock(EventStart(events, k), events[k].frame - EventStart(events, k))
    {
      var frame := events[i].frame;
      assert start == EventStart(events, i);
      ghost var before := blocks;
      blocks := blocks + [SubBlock(start, frame - start)];
      assert forall k :: 0 <= k < i ==> blocks[k] == before[k];
      start := frame;
      i := i + 1;
    }
    if FramesWithin(events, nframes) {
      EventBlocksTile(events, nframes, blocks);
    }
  }

  /** The sub-blocks ending at the first events tile the block up to the
      last of those events' frames. */
  lemma {:induction false} EventBlocksTile(events: seq<MidiEvent>, nframes: int, blocks: seq<SubBlock>)
    requires FramesWithin(events, nframes) && |blocks| <= |events|
    requires forall k :: 0 <= k < |blocks| ==>
               blocks[k] == SubBlock(EventStart(events, k), events[k].frame - EventStart(events, k))
    ensures TilesFrom(blocks, 0, if blocks == [] then 0 else events[|blocks| - 1].frame)
    ensures blocks != [] ==> 0 <= events[|blocks| - 1].frame <= nframes
    decreases |blocks|
  {
    if blocks != [] {
      var n := |blocks| - 1;
      var init := blocks[..n];
      EventBlocksTile(events, nframes, init);
      FrameAfterStart(events, nframes, n);
      TilesExtend(init, 0, EventStart(events, n), events[n].frame);
      assert init + [blocks[n]] == blocks;
    }
  }

  lemma FrameAfterStart(events: seq<MidiEvent>, nframes: int, i: nat)
    requires FramesWithin(events, nframes) && i < |events|
    ensures 0 <= EventStart(events, i) <= events[i].frame <= nframes
  {
    if i > 0 {
      assert events[i - 1].frame <= events[i].frame;
    }
  }

  /** Where the sub-block ending at event `k` starts: the block start for
      the first event, the previous event's frame after that. */
  function EventStart(events: seq<MidiEvent>, k: nat): int
    requires k < |events|
  {
    if k == 0 then 0 else events[k - 1].frame
  }

  /** Walks the block's events in order: each transport message becomes the
      pending command and asks for an asynchronous update. */
  method TakePlayCommands(p: Player, events: seq<MidiEvent>) returns (r: Player)
    ensures r.midiPlayState == LastCommand(events, p.midiPlayState)
    ensures r.asyncPending == (p.asyncPending || HasPlayCommand(events))
    ensures r.(midiPlayState := p.midiPlayState, asyncPending := p.asyncPending) == p
  {
    var state := p.midiPlayState;
    var pending := p.asyncPending;
    var i := 0;
    while i < |events|
      invariant 0 <= i <= |events|
      invariant LastCommand(events[i..], state) == LastCommand(events, p.midiPlayState)
      invariant pending == (p.asyncPending || HasPlayCommand(events[..i]))
    {
      var c := PlayCommand(events[i].message);
      TakeStep(events, i, state, pending, LastCommand(events, p.midiPlayState), p.asyncPending);
      if c != NoCommand {
        state := c;
        pending := true;
      }
      i := i + 1;
    }
    TakeEnd(events, i, state, pending, LastCommand(events, p.midiPlayState), p.asyncPending);
    r := WithCommand(p, state, pending);
  }

  /** The player with a new pending command and update request. */
  function WithCommand(p: Player, state: PlayState, pending: bool): (r: Player)
    ensures r.midiPlayState == state && r.asyncPending == pending
    ensures r.(midiPlayState := p.midiPlayState, asyncPending := p.asyncPending) == p
  {
    p.(midiPlayState := state, asyncPending := pending)
  }

  /** One event of the walk keeps the walk's invariant. */
  lemma TakeStep(events: seq<MidiEvent>, i: nat, state: PlayState, pending: bool, target: PlayState, pendingBefore: bool)
    requires i < |events|
    requires LastCommand(events[i..], state) == target
    requires pending == (pendingBefore || HasPlayCommand(events[..i]))
    ensures var c := PlayCommand(events[i].message);
      LastCommand(events[i + 1..], if c != NoCommand then c else state) == target
    ensures var c := PlayCommand(events[i].message);
      (pending || c != NoCommand) == (pendingBefore || HasPlayCommand(events[..i + 1]))
  {
    LastCommandStep(events, i, state);
    assert events[..i + 1] == events[..i] + [events[i]];
    PlayCommandsAppend(events[..i], events[i]);
  }

  /** At the end of the walk the invariant gives the results. */
  lemma TakeEnd(events: seq<MidiEvent>, i: nat, state: PlayState, pending: bool, target: PlayState, pendingBefore: bool)
    requires i == |events|
    requires LastCommand(events[i..], state) == target
    requires pending == (pendingBefore || HasPlayCommand(events[..i]))
    ensures state == target && pending == (pendingBefore || HasPlayCommand(events))
  {
    assert events[i..] == [];
    assert events[..i] == events;
  }

  /** `numChannels` channels of `nframes` zero samples. */
  function Silence(numChannels: nat, nframes: nat): (r: seq<seq<real>>)
    ensures |r| == numChannels
    ensures forall c :: 0 <= c < numChannels ==> |r[c]| == nframes
    ensures forall c, k :: 0 <= c < numChannels && 0 <= k < nframes ==> r[c][k] == 0.0
  {
    seq(numChannels, c => seq(nframes, k => 0.0))
  }

  /** The audio callback: the output is silenced, the transport renders the
      scheduled sub-blocks, the transport messages are taken when the node
      responds to them, and the MIDI buffer is consumed. */
  method ProcessBlock(p: Player, events: seq<MidiEvent>, nframes: nat, numChannels: nat)
    returns (r: Player, blocks: seq<SubBlock>, silenced: seq<seq<real>>, midiOut: seq<MidiEvent>)
    ensures midiOut == [] && silenced == Silence(numChannels, nframes)
    ensures !RespondsToStartStopContinue(p) ==> r == p
    ensures RespondsToStartStopContinue(p) ==>
      && r.midiPlayState == LastCommand(events, p.midiPlayState)
      && r.asyncPending == (p.asyncPending || HasPlayCommand(events))
      && r.(midiPlayState := p.midiPlayState, asyncPending := p.asyncPending) == p
    ensures RespondsToStartStopContinue(p) ==>
      forall i :: LastCommandAt(events, i) ==> r.midiPlayState == PlayCommand(events[i].message)
    ensures RespondsToStartStopContinue(p) && !HasPlayCommand(events) ==> r.midiPlayState == p.midiPlayState
    ensures FramesWithin(events, nframes) || !RespondsToStartStopContinue(p) ==> TilesFrom(blocks, 0, nframes)
  {
    silenced := Silence(numChannels, nframes);
    midiOut := [];
    var respond := p.midiStartStopContinue == 1;
    blocks := RenderSchedule(events, nframes, respond);
    if respond {
      r := TakePlayCommands(p, events);
    } else {
      r := p;
    }
  }

  /** `LastCommand` taken from position `i` consumes the event there. */
  lemma LastCommandStep(events: seq<MidiEvent>, i: nat, state: PlayState)
    requires i < |events|
    ensures LastCommand(events[i..], state)
            == LastCommand(events[i + 1..], if PlayCommand(events[i].message) != NoCommand
                                             then PlayCommand(events[i].message) else state)
  {
    assert events[i..][1..] == events[i + 1..];
  }

  lemma PlayCommandsAppend(events: seq<MidiEvent>, e: MidiEvent)
    ensures HasPlayCommand(events + [e]) == (HasPlayCommand(events) || PlayCommand(e.message) != NoCommand)
  {
    if HasPlayCommand(events) {
      var i :| 0 <= i < |events| && PlayCommand(events[i].message) != NoCommand;
      assert (events + [e])[i] == events[i];
    }
    if PlayCommand(e.message) != NoCommand {
      assert (events + [e])[|events|] == e;
    }
  }

  /** The message-thread half: carry out the pending command and clear it. */
  function HandleAsyncUpdate(p: Player): (r: Player)
    ensures r.midiPlayState == NoCommand
    ensures p.midiPlayState == StartCommand ==> r.position == 0.0 && r.playing == (p.sourceSet || p.playing)
    ensures p.midiPlayState == ContinueCommand ==> r.position == p.position && r.playing == (p.sourceSet || p.playing)
    ensures p.midiPlayState == StopCommand ==> r.position == p.position && !r.playing
    ensures p.midiPlayState == NoCommand ==> r.position == p.position && r.playing == p.playing
    ensures r.(position := p.position, playing := p.playing, midiPlayState := p.midiPlayState) == p
    ensures TransportOk(p) ==> TransportOk(r)
  {
    PerformCommand(p.midiPlayState, p).(midiPlayState := NoCommand)
  }

  /** The transport call a pending command stands for; only the position
      and the playing flag can change. */
  function PerformCommand(cmd: PlayState, p: Player): (r: Player)
    ensures cmd == StartCommand ==> r.position == 0.0 && r.playing == (p.sourceSet || p.playing)
    ensures cmd == ContinueCommand ==> r.position == p.position && r.playing == (p.sourceSet || p.playing)
    ensures cmd == StopCommand ==> r.position == p.position && !r.playing
    ensures cmd == NoCommand ==> r == p
    ensures r.(position := p.position, playing := p.playing) == p
  {
    match cmd
    case StartCommand => StartFromTop(p)
    case StopCommand => TransportStop(p)
    case ContinueCommand => TransportStart(p)
    case NoCommand => p
  }

  /** Rewind, then start the transport. */
  function StartFromTop(p: Player): (r: Player)
    ensures r.position == 0.0 && r.playing == (p.sourceSet || p.playing) && r.sourceSet == p.sourceSet
    ensures r.(position := p.position, playing := p.playing) == p
  {
    TransportStart(p.(position := 0.0))
  }

  /** A block whose last transport message is a MIDI Start, whatever
      non-transport messages follow it, with the node responding to transport
      messages and a file loaded, leaves the transport playing from the top
      once the pending command is handled. */
  method StartMessagePlaysFromTop(p: Player, events: seq<MidiEvent>, nframes: nat)
    returns (r: Player)
    requires RespondsToStartStopContinue(p) && p.sourceSet
    requires exists i :: LastCommandAt(events, i) && events[i].message == Start
    ensures r.playing && r.position == 0.0 && r.midiPlayState == NoCommand
  {
    var processed, blocks, silenced, midiOut := ProcessBlock(p, events, nframes, 2);
    r := HandleAsyncUpdate(processed);
  }

  // ----------------------------------------------------------- bus layouts

  datatype ChannelSet = Disabled | Mono | Stereo | Discrete(channels: nat)

  datatype BusesLayout = BusesLayout(inputBuses: seq<ChannelSet>, outputBuses: seq<ChannelSet>)

  function MainOutputChannelSet(layout: BusesLayout): ChannelSet
  {
    if |layout.outputBuses| > 0 then layout.outputBuses[0] else Disabled
  }

  function IsBusesLayoutSupported(layout: BusesLayout): bool
  {
    if |layout.inputBuses| > 0 || |layout.outputBuses| > 1 then false
    else MainOutputChannelSet(layout) == Stereo || MainOutputChannelSet(layout) == Mono
  }

  /** Exactly one layout shape is accepted: no inputs and a single mono or
      stereo output. */
  lemma BusesLayoutSupportedIff(layout: BusesLayout)
    ensures IsBusesLayoutSupported(layout) <==>
      |layout.inputBuses| == 0 && |layout.outputBuses| == 1
      && (layout.outputBuses[0] == Mono || layout.outputBuses[0] == Stereo)
  {
  }

  // ------------------------------------------------------------------ state

  /** The saved properties; `None` is a property the saved tree lacks. */
  datatype SavedState = SavedState(
    audioFile: Option<string>,
    playing: Option<bool>,
    slave: Option<bool>,
    loop: Option<bool>,
    midiStartStopContinue: Option<bool>)

  function GetStateInformation(p: Player): (s: SavedState)
    ensures s.audioFile == Some(p.audioFile) && s.playing == Some(p.playingParam)
    ensures s.slave == Some(p.slave) && s.loop == Some(p.looping)
    ensures s.midiStartStopContinue == Some(RespondsToStartStopContinue(p))
  {
    SavedState(Some(p.audioFile), Some(p.playingParam), Some(p.slave), Some(p.looping),
               Some(RespondsToStartStopContinue(p)))
  }

  /** Restoring `s` opens a different file: its path is absolute, it is not
      the file already open, and a reader can be made for it. */
  predicate ReopensFile(p: Player, s: SavedState, isAbsolute: string -> bool, readerOk: bool)
  {
    isAbsolute(GetOr(s.audioFile, "")) && GetOr(s.audioFile, "") != p.audioFile && readerOk
  }

  /** Restores a saved state; `None` is data that does not parse and changes
      nothing. The file is reopened only when the saved path is absolute
      (`isAbsolute` decides); missing flags default to not playing, not
      slaved, looping, and not responding to transport messages. */
  function SetStateInformation(p: Player, data: Option<SavedState>, isAbsolute: string -> bool, readerOk: bool)
    : (r: Player)
    ensures data.None? ==> r == p
    ensures data.Some? ==>
      && r.playingParam == GetOr(data.value.playing, false)
      && r.slave == GetOr(data.value.slave, false)
      && r.looping == GetOr(data.value.loop, true)
      && RespondsToStartStopContinue(r) == GetOr(data.value.midiStartStopContinue, false)
    ensures data.Some? && !isAbsolute(GetOr(data.value.audioFile, "")) ==> r.audioFile == p.audioFile
    ensures data.Some? && ReopensFile(p, data.value, isAbsolute, readerOk) ==>
      r.sourceSet && r.position == 0.0 && r.playing == GetOr(data.value.playing, false)
    ensures data.Some? && !ReopensFile(p, data.value, isAbsolute, readerOk)
            && GetOr(data.value.playing, false) == p.playingParam ==>
      r.playing == p.playing && r.position == p.position && r.audioFile == p.audioFile
    ensures data.Some? && !ReopensFile(p, data.value, isAbsolute, readerOk)
            && GetOr(data.value.playing, false) != p.playingParam ==>
      r.playing == (GetOr(data.value.playing, false) && (p.sourceSet || p.playing)) && r.position == p.position
    ensures TransportOk(p) ==> TransportOk(r)
  {
    if data.None? then p
    else
      var s := data.value;
      var path := GetOr(s.audioFile, "");
      var withFile := if isAbsolute(path) then OpenFile(p, path, readerOk) else p;
      var played := SetPlayingParam(withFile, GetOr(s.playing, false));
      played.(slave := GetOr(s.slave, false), looping := GetOr(s.loop, true),
              midiStartStopContinue := if GetOr(s.midiStartStopContinue, false) then 1 else 0)
  }

  /** Saving and restoring gives back every saved setting; the file comes
      back when its path is absolute and it can be read (or is the one
      already open), and the transport then plays exactly when the saved
      "playing" flag says so. */
  lemma StateRoundTrip(p: Player, q: Player, isAbsolute: string -> bool, readerOk: bool)
    requires TransportOk(q)
    ensures var r := SetStateInformation(q, Some(GetStateInformation(p)), isAbsolute, readerOk);
      && r.playingParam == p.playingParam && r.slave == p.slave && r.looping == p.looping
      && RespondsToStartStopContinue(r) == RespondsToStartStopContinue(p)
    ensures var r := SetStateInformation(q, Some(GetStateInformation(p)), isAbsolute, readerOk);
      isAbsolute(p.audioFile) && (readerOk || q.audioFile == p.audioFile) ==> r.audioFile == p.audioFile
    ensures var r := SetStateInformation(q, Some(GetStateInformation(p)), isAbsolute, readerOk);
      isAbsolute(p.audioFile) && readerOk && q.audioFile != p.audioFile ==> r.playing == p.playingParam
  {
  }

  /** A player stopped by a MIDI Stop keeps its "playing" parameter set;
      restoring its own saved state then leaves the transport stopped, since
      the parameter does not change and the file is the one already open. */
  lemma RestoreAfterMidiStopStaysStopped(p: Player, isAbsolute: string -> bool, readerOk: bool)
    requires p.playingParam && !p.playing
    ensures !SetStateInformation(p, Some(GetStateInformation(p)), isAbsolute, readerOk).playing
  {
    assert !ReopensFile(p, GetStateInformation(p), isAbsolute, readerOk);
  }
}

=== FILE: common.dfy ===
/** Shared vocabulary of the model: optional values, port types, the MIDI
    messages the nodes look at, and the bounded-log trim that both message
    logs (MIDI monitor, OSC sender) apply. */
module Common {

  datatype Option<T> = None | Some(value: T)

  datatype Result<T> = Ok(value: T) | Err(message: string)

  /** A saved property's value, or the default used when it is absent. */
  function GetOr<T>(o: Option<T>, default: T): (r: T)
    ensures o.Some? ==> r == o.value
    ensures o.None? ==> r == default
  {
    if o.Some? then o.value else default
  }

  /** The three kinds of port a node exposes. */
  datatype PortType = Audio | Control | Midi

  /** A port as the nodes create it: type, raw index, symbol and flow. */
  datatype Port = Port(portType: PortType, index: nat, symbol: string, name: string, isInput: bool)

  /** Plugin identifiers. The internal node identifiers are macros whose
      values are not part of this model, so they are symbolic here and differ
      from every `Named` identifier. */
  datatype Identifier =
    | MidiMonitorId | OscSenderId | AudioFilePlayerId | MidiChannelSplitterId
    | MidiProgramMapId | AudioRouterId | GraphId
    | Named(text: string)

  /** The fields of a plugin description the core reads or fills in. */
  datatype PluginDescription = PluginDescription(
    name: string,
    descriptiveName: string,
    fileOrIdentifier: Identifier,
    pluginFormatName: string,
    manufacturerName: string,
    version: string,
    numInputChannels: nat,
    numOutputChannels: nat,
    hasSharedContainer: bool,
    isInstrument: bool)

  /** The format name of Element's own nodes. */
  const InternalFormatName: string := "Element"

  /** The MIDI messages the core distinguishes. Everything the core does not
      branch on is an `Other` message carrying its printable description. */
  datatype MidiMessage = Clock | Start | Stop | Continue | Other(description: string)

  /** A MIDI event in a block: a message at a sample frame. */
  datatype MidiEvent = MidiEvent(message: MidiMessage, frame: int)

  function IsNotClock(msg: MidiMessage): bool
  {
    !msg.Clock?
  }

  function Messages(events: seq<MidiEvent>): (r: seq<MidiMessage>)
    ensures |r| == |events|
    ensures forall i :: 0 <= i < |events| ==> r[i] == events[i].message
  {
    if events == [] then [] else [events[0].message] + Messages(events[1..])
  }

  /** The newest `max` entries of `log`; when the log is longer the oldest
      entries are the ones dropped. */
  function KeepNewest<T>(log: seq<T>, max: nat): (r: seq<T>)
    ensures |r| == if |log| <= max then |log| else max
    ensures forall i :: 0 <= i < |r| ==> r[i] == log[|log| - |r| + i]
  {
    if |log| > max then log[|log| - max..] else log
  }

  /** Dropping the oldest entry of an over-long log one at a time, as a loop
      that erases the front while the log is too long, ends with exactly the
      newest `max` entries. */
  method DropOldestWhileTooLong<T>(log: seq<T>, max: nat) returns (r: seq<T>)
    ensures r == KeepNewest(log, max)
  {
    r := log;
    var dropped := 0;
    while |r| > max
      invariant 0 <= dropped <= |log|
      invariant r == log[dropped..]
      invariant |log| > max ==> dropped <= |log| - max
      invariant |log| <= max ==> dropped == 0
    {
      r := r[1..];
      dropped := dropped + 1;
    }
  }

  /** Number of elements of `s` satisfying `p`. */
  function CountWhere<T>(s: seq<T>, p: T -> bool): (n: nat)
    ensures n <= |s|
  {
    if s == [] then 0 else (if p(s[0]) then 1 else 0) + CountWhere(s[1..], p)
  }

  /** Some element fails `p` exactly when fewer than all elements satisfy it. */
  lemma {:induction false} CountWhereBelowLength<T>(s: seq<T>, p: T -> bool)
    ensures CountWhere(s, p) < |s| <==> exists i :: 0 <= i < |s| && !p(s[i])
  {
    if s != [] {
      CountWhereBelowLength(s[1..], p);
      if exists i :: 0 <= i < |s[1..]| && !p(s[1..][i]) {
        var i :| 0 <= i < |s[1..]| && !p(s[1..][i]);
        assert s[i + 1] == s[1..][i];
      }
      if exists i :: 0 <= i < |s| && !p(s[i]) {
        var i :| 0 <= i < |s| && !p(s[i]);
        if i > 0 {
          assert s[1..][i - 1] == s[i];
        }
      }
    }
  }

  lemma {:induction false} CountWhereConcat<T>(a: seq<T>, b: seq<T>, p: T -> bool)
    ensures CountWhere(a + b, p) == CountWhere(a, p) + CountWhere(b, p)
  {
    if a == [] {
      assert a + b == b;
    } else {
      assert (a + b)[1..] == a[1..] + b;
      CountWhereConcat(a[1..], b, p);
    }
  }

  /** The elements of `s` satisfying `p`, in order. */
  function Filter<T>(s: seq<T>, p: T -> bool): (r: seq<T>)
    ensures |r| == CountWhere(s, p)
  {
    if s == [] then [] else (if p(s[0]) then [s[0]] else []) + Filter(s[1..], p)
  }

  /** A sequence drawn from a set has its first element in that set. */
  lemma FirstIsMember<T>(s: seq<T>, within: set<T>)
    requires forall x :: x in s ==> x in within
    ensures |s| > 0 ==> s[0] in within
  {
    if |s| > 0 {
      assert s[0] in s;
    }
  }

  /** One step of `Filter` taken at position `i` of `s`. */
  lemma FilterFrom<T>(s: seq<T>, i: nat, p: T -> bool)
    requires i < |s|
    ensures Filter(s[i..], p) == (if p(s[i]) then [s[i]] else []) + Filter(s[i + 1..], p)
    ensures CountWhere(s[i..], p) == (if p(s[i]) then 1 else 0) + CountWhere(s[i + 1..], p)
  {
    assert s[i..][1..] == s[i + 1..];
  }

  /** One step of a loop that walks `s` from the back and erases, in place,
      each element `p` rejects: with `r` filtered from position `i + 1` on,
      keeping or erasing `r[i]` leaves it filtered from position `i` on. */
  lemma BackwardRemoveStep<T>(s: seq<T>, i: nat, r: seq<T>, p: T -> bool)
    requires i < |s| && r == s[..i + 1] + Filter(s[i + 1..], p)
    ensures i < |r| && r[i] == s[i]
    ensures p(s[i]) ==> r == s[..i] + Filter(s[i..], p)
    ensures !p(s[i]) ==> r[..i] + r[i + 1..] == s[..i] + Filter(s[i..], p)
  {
    FilterFrom(s, i, p);
    var tail := Filter(s[i + 1..], p);
    assert s[..i + 1] == s[..i] + [s[i]];
    assert r == s[..i] + [s[i]] + tail;
    if p(s[i]) {
      assert r == s[..i] + ([s[i]] + tail);
    } else {
      assert r[..i] == s[..i];
      assert r[i + 1..] == tail;
    }
  }

  /** `Filter` keeps exactly the elements satisfying `p`. */
  lemma {:induction false} FilterMembership<T>(s: seq<T>, p: T -> bool)
    ensures forall i :: 0 <= i < |Filter(s, p)| ==> Filter(s, p)[i] in s && p(Filter(s, p)[i])
    ensures forall i :: 0 <= i < |s| && p(s[i]) ==> s[i] in Filter(s, p)
  {
    if s != [] {
      FilterMembership(s[1..], p);
      var head := if p(s[0]) then [s[0]] else [];
      assert Filter(s, p) == head + Filter(s[1..], p);
      forall i | 0 <= i < |s| && p(s[i])
        ensures s[i] in Filter(s, p)
      {
        if i > 0 {
          assert s[1..][i - 1] == s[i];
        }
      }
    }
  }

  lemma {:induction false} FilterConcat<T>(a: seq<T>, b: seq<T>, p: T -> bool)
    ensures Filter(a + b, p) == Filter(a, p) + Filter(b, p)
  {
    if a == [] {
      assert a + b == b;
    } else {
      assert (a + b)[1..] == a[1..] + b;
      FilterConcat(a[1..], b, p);
    }
  }
}

=== FILE: graph_editor.dfy ===
/** The decision logic inside the graph editor: which nodes may change
    their IO, the "gather nodes" command that pulls stray nodes back onto
    the canvas, how a dragged connector's open end is completed from a pin,
    how a node box counts its pins, and which connectors survive a graph
    change. */
module GraphEditor {
  import opened Common

  // ------------------------------------------------------------- node kinds

  /** What the editor reads of a node to decide whether it may change IO. */
  datatype NodeInfo = NodeInfo(format: string, identifier: string, isIONode: bool, isGraph: bool)

  predicate IsAudioMixer(n: NodeInfo)
  {
    n.format == "Element" && n.identifier == "element.audioMixer"
  }

  predicate IsMidiDevice(n: NodeInfo)
  {
    n.format == "Internal"
    && (n.identifier == "element.midiInputDevice" || n.identifier == "element.midiOutputDevice")
  }

  predicate CanChangeIO(n: NodeInfo)
  {
    !n.isIONode && !n.isGraph && !IsAudioMixer(n) && !IsMidiDevice(n)
  }

  /** For an ordinary node (not an IO node, not a graph) the format decides:
      the mixer identifier pins the IO only in the "Element" format, the MIDI
      device identifiers only in the "Internal" format, and a node of any
      other format may always change its IO, whatever its identifier. */
  lemma FormatDecidesFixedIO(n: NodeInfo)
    requires !n.isIONode && !n.isGraph
    ensures n.identifier == "element.audioMixer" ==> (CanChangeIO(n) <==> n.format != "Element")
    ensures n.identifier == "element.midiInputDevice" ==> (CanChangeIO(n) <==> n.format != "Internal")
    ensures n.identifier == "element.midiOutputDevice" ==> (CanChangeIO(n) <==> n.format != "Internal")
    ensures n.format != "Element" && n.format != "Internal" ==> CanChangeIO(n)
  {
  }

  /** IO nodes and graphs never change their IO, whatever their format. */
  lemma IONodesAndGraphsKeepIO(n: NodeInfo)
    requires n.isIONode || n.isGraph
    ensures !CanChangeIO(n)
  {
  }

  // ------------------------------------------------------------ gather nodes

  /** One coordinate pulled back onto the canvas: below 0 goes to 0.05,
      above 1 to 0.95, anything in between stays. */
  function GatherCoordinate(v: real): (r: real)
    ensures 0.0 <= r <= 1.0
    ensures 0.0 <= v <= 1.0 ==> r == v
    ensures v < 0.0 ==> r == 0.05
    ensures v > 1.0 ==> r == 0.95
  {
    if v < 0.0 then 0.05 else if v > 1.0 then 0.95 else v
  }

  datatype Position = Position(x: real, y: real)

  predicate OffCanvas(p: Position)
  {
    p.x < 0.0 || p.x > 1.0 || p.y < 0.0 || p.y > 1.0
  }

  function Gather(p: Position): (r: Position)
    ensures !OffCanvas(r)
    ensures !OffCanvas(p) <==> r == p
  {
    Position(GatherCoordinate(p.x), GatherCoordinate(p.y))
  }

  /** The gather command: every node's position is pulled onto the canvas
      and the number of nodes that moved is counted. */
  method GatherNodes(positions: seq<Position>) returns (r: seq<Position>, numChanges: nat)
    ensures |r| == |positions|
    ensures forall i :: 0 <= i < |r| ==> !OffCanvas(r[i])
    ensures forall i :: 0 <= i < |r| ==> (r[i] == positions[i] <==> !OffCanvas(positions[i]))
    ensures forall i :: 0 <= i < |r| && OffCanvas(positions[i]) ==> r[i] == Gather(positions[i])
    ensures numChanges == CountWhere(positions, OffCanvas)
  {
    r := [];
    numChanges := 0;
    var i := 0;
    while i < |positions|
      invariant 0 <= i <= |positions|
      invariant |r| == i
      invariant forall k :: 0 <= k < i ==> r[k] == Gather(positions[k])
      invariant numChanges == CountWhere(positions[..i], OffCanvas)
    {
      var p := positions[i];
      var x := p.x;
      var y := p.y;
      var changed := false;
      if x < 0.0 {
        changed := true;
        x := 0.05;
      } else if x > 1.0 {
        changed := true;
        x := 0.95;
      }
      if y < 0.0 {
        changed := true;
        y := 0.05;
      } else if y > 1.0 {
        changed := true;
        y := 0.95;
      }
      assert changed == OffCanvas(p) && Position(x, y) == Gather(p);
      assert positions[..i + 1] == positions[..i] + [p];
      CountWhereConcat(positions[..i], [p], OffCanvas);
      if changed {
        numChanges := numChanges + 1;
      }
      r := r + [Position(x, y)];
      i := i + 1;
    }
    assert positions[..i] == positions;
  }

  /** Gathering is idempotent: a second gather moves nothing. */
  method GatherTwiceMovesNothing(positions: seq<Position>)
    returns (once: seq<Position>, again: seq<Position>, numChanges: nat)
    ensures numChanges == 0
    ensures again == once && |again| == |positions|
    ensures forall i :: 0 <= i < |again| ==> !OffCanvas(again[i])
  {
    var n1;
    once, n1 := GatherNodes(positions);
    again, numChanges := GatherNodes(once);
    CountWhereNone(once, OffCanvas);
  }

  lemma {:induction false} CountWhereNone<T>(s: seq<T>, p: T -> bool)
    requires forall i :: 0 <= i < |s| ==> !p(s[i])
    ensures CountWhere(s, p) == 0
  {
    if s != [] {
      assert forall i :: 0 <= i < |s[1..]| ==> s[1..][i] == s[i + 1];
      CountWhereNone(s[1..], p);
    }
  }

  // --------------------------------------------------------- connector drag

  /** A pin under the mouse: its node, port and direction. */
  datatype Pin = Pin(filterId: nat, port: int, isInput: bool)

  /** A dragged connector's two ends; node id 0 marks the open end. */
  datatype Ends = Ends(sourceFilter: nat, sourceChannel: int, destFilter: nat, destChannel: int)

  /** The connection the drag asks for when the mouse is released: an open
      source end takes an output pin, otherwise the destination end takes an
      input pin; a pin of the wrong direction, or no pin, asks for nothing. */
  function EndDrag(ends: Ends, pin: Option<Pin>): (r: Option<Ends>)
    ensures pin.None? ==> r.None?
    ensures pin.Some? && ends.sourceFilter == 0 ==>
      (r.None? <==> pin.value.isInput)
    ensures pin.Some? && ends.sourceFilter != 0 ==>
      (r.None? <==> !pin.value.isInput)
    ensures r.Some? && ends.sourceFilter == 0 ==>
      r.value == ends.(sourceFilter := pin.value.filterId, sourceChannel := pin.value.port)
    ensures r.Some? && ends.sourceFilter != 0 ==>
      r.value == ends.(destFilter := pin.value.filterId, destChannel := pin.value.port)
  {
    if pin.None? then None
    else
      var p := pin.value;
      if ends.sourceFilter == 0 then
        if p.isInput then None else Some(ends.(sourceFilter := p.filterId, sourceChannel := p.port))
      else
        if !p.isInput then None else Some(ends.(destFilter := p.filterId, destChannel := p.port))
  }

  /** The ends shown while dragging over a pin: only an open end is filled,
      and only by a pin of the matching direction. */
  function DragOver(ends: Ends, pin: Pin): (r: Ends)
    ensures r == ends
      || (ends.sourceFilter == 0 && !pin.isInput && r == ends.(sourceFilter := pin.filterId, sourceChannel := pin.port))
      || (ends.destFilter == 0 && pin.isInput && r == ends.(destFilter := pin.filterId, destChannel := pin.port))
    ensures ends.sourceFilter != 0 ==> r.sourceFilter == ends.sourceFilter && r.sourceChannel == ends.sourceChannel
    ensures ends.destFilter != 0 ==> r.destFilter == ends.destFilter && r.destChannel == ends.destChannel
  {
    if ends.sourceFilter == 0 && !pin.isInput then ends.(sourceFilter := pin.filterId, sourceChannel := pin.port)
    else if ends.destFilter == 0 && pin.isInput then ends.(destFilter := pin.filterId, destChannel := pin.port)
    else ends
  }

  /** With exactly one end open, releasing over a pin makes the connection
      the drag was showing, and releasing over a pin of the wrong direction
      makes none. */
  lemma ReleaseMatchesPreview(ends: Ends, pin: Pin)
    requires (ends.sourceFilter == 0) != (ends.destFilter == 0)
    ensures EndDrag(ends, Some(pin)).Some? <==> (ends.sourceFilter == 0) != pin.isInput
    ensures EndDrag(ends, Some(pin)).Some? ==> EndDrag(ends, Some(pin)).value == DragOver(ends, pin)
  {
  }

  // -------------------------------------------------------------- pin count

  predicate IsShownInput(p: Port)
  {
    p.portType != Control && p.isInput
  }

  predicate IsShownOutput(p: Port)
  {
    p.portType != Control && !p.isInput
  }

  predicate IsShown(p: Port)
  {
    p.portType != Control
  }

  /** Counts a node's pins: control ports get none; the rest split into
      inputs and outputs. */
  method CountPins(ports: seq<Port>) returns (numIns: nat, numOuts: nat)
    ensures numIns == CountWhere(ports, IsShownInput)
    ensures numOuts == CountWhere(ports, IsShownOutput)
    ensures numIns + numOuts == CountWhere(ports, IsShown)
  {
    numIns := 0;
    numOuts := 0;
    var i := 0;
    while i < |ports|
      invariant 0 <= i <= |ports|
      invariant numIns == CountWhere(ports[..i], IsShownInput)
      invariant numOuts == CountWhere(ports[..i], IsShownOutput)
    {
      var port := ports[i];
      assert ports[..i + 1] == ports[..i] + [port];
      CountWhereConcat(ports[..i], [port], IsShownInput);
      CountWhereConcat(ports[..i], [port], IsShownOutput);
      if port.portType == Control {
        i := i + 1;
        continue;
      }
      if port.isInput {
        numIns := numIns + 1;
      } else {
        numOuts := numOuts + 1;
      }
      i := i + 1;
    }
    assert ports[..i] == ports;
    ShownSplits(ports);
  }

  lemma {:induction false} ShownSplits(ports: seq<Port>)
    ensures CountWhere(ports, IsShownInput) + CountWhere(ports, IsShownOutput) == CountWhere(ports, IsShown)
  {
    if ports != [] {
      ShownSplits(ports[1..]);
    }
  }

  // ------------------------------------------------------ connector pruning

  /** A connector on the canvas: its component identity and endpoints. */
  datatype Connector = Connector(id: nat, sourceFilter: nat, sourceChannel: int, destFilter: nat, destChannel: int)

  function Survives(dragging: Option<nat>, arcExists: Connector -> bool): Connector -> bool
  {
    (c: Connector) => (dragging.Some? && c.id == dragging.value) || arcExists(c)
  }

  /** After a graph change, every connector whose arc is gone is deleted,
      walking the children from the back; the one being dragged stays.
      `arcExists` is the lookup of a connector's endpoints in the arc list. */
  method UpdateConnectors(children: seq<Connector>, dragging: Option<nat>, arcExists: Connector -> bool)
    returns (r: seq<Connector>)
    ensures r == Filter(children, Survives(dragging, arcExists))
    ensures forall i :: 0 <= i < |r| ==> (dragging.Some? && r[i].id == dragging.value) || arcExists(r[i])
    ensures forall i :: 0 <= i < |children| && arcExists(children[i]) ==> children[i] in r
  {
    var keep := Survives(dragging, arcExists);
    r := children;
    var j := |children|;
    while j > 0
      invariant 0 <= j <= |children|
      invariant r == children[..j] + Filter(children[j..], keep)
    {
      j := j - 1;
      BackwardRemoveStep(children, j, r, keep);
      var cc := children[j];
      if !((dragging.Some? && cc.id == dragging.value) || arcExists(cc)) {
        r := r[..j] + r[j + 1..];
      }
    }
    assert children[0..] == children;
    FilterMembership(children, keep);
  }
}

=== FILE: graph_manager.dfy ===
/** The graph controller's bookkeeping: the model's node and arc lists kept
    in step with the graph processor. The processor itself is an oracle: its
    node ids and connection list are plain data, and whether it accepts a
    connection or agrees to remove a node is decided by parameters. */
module GraphManagerModel {
  import opened Common

  // ------------------------------------------------------------------ ids

  /** Node ids are 32-bit unsigned integers. */
  const UidLimit: nat := 0x1_0000_0000

  /** Pre-increment of the 32-bit id counter: the new counter value, which is
      also the id handed out. */
  function NextUID(lastUID: nat): (r: nat)
    requires lastUID < UidLimit
    ensures r < UidLimit
    ensures lastUID + 1 < UidLimit ==> r == lastUID + 1 && r > lastUID
    ensures lastUID + 1 == UidLimit ==> r == 0
  {
    (lastUID + 1) % UidLimit
  }

  /** The ids handed out by `count` successive calls. */
  function AllocateIds(lastUID: nat, count: nat): seq<nat>
    requires lastUID < UidLimit
    decreases count
  {
    if count == 0 then [] else [NextUID(lastUID)] + AllocateIds(NextUID(lastUID), count - 1)
  }

  /** As long as the counter does not wrap, successive ids are consecutive,
      so strictly increasing and never handed out twice. */
  lemma {:induction false} AllocatedIdsIncrease(lastUID: nat, count: nat)
    requires lastUID + count < UidLimit
    ensures |AllocateIds(lastUID, count)| == count
    ensures forall i :: 0 <= i < count ==> AllocateIds(lastUID, count)[i] == lastUID + 1 + i
    ensures forall i, j :: 0 <= i < j < count ==> AllocateIds(lastUID, count)[i] < AllocateIds(lastUID, count)[j]
    decreases count
  {
    if count > 0 {
      AllocatedIdsIncrease(lastUID + 1, count - 1);
    }
  }

  // ------------------------------------------------------------ the model

  datatype Connection = Connection(sourceNode: nat, sourcePort: nat, destNode: nat, destPort: nat)

  /** An arc in the model; `missing` marks one the processor refused but
      whose end nodes are still in the model. */
  datatype Arc = Arc(conn: Connection, missing: bool)

  /** Where the editor shows a node and its window; an absent property is
      `None`. */
  datatype Placement = Placement(relativeX: Option<real>, relativeY: Option<real>,
                                 windowX: Option<int>, windowY: Option<int>, windowVisible: Option<bool>)

  const Unplaced := Placement(None, None, None, None, None)

  datatype ModelNode = ModelNode(nodeId: nat, name: string, placement: Placement, missing: bool)

  /** The processor side, as far as the controller can observe it. */
  datatype Processor = Processor(nodes: seq<nat>, connections: seq<Connection>)

  datatype Manager = Manager(lastUID: nat, nodes: seq<ModelNode>, arcs: seq<Arc>, proc: Processor)

  function Ids(nodes: seq<ModelNode>): (r: seq<nat>)
    ensures |r| == |nodes|
    ensures forall i :: 0 <= i < |nodes| ==> r[i] == nodes[i].nodeId
  {
    if nodes == [] then [] else [nodes[0].nodeId] + Ids(nodes[1..])
  }

  predicate UniqueIds(nodes: seq<ModelNode>)
  {
    forall i, j :: 0 <= i < j < |nodes| ==> nodes[i].nodeId != nodes[j].nodeId
  }

  /** The model lists exactly the processor's nodes, in the same order. */
  predicate Synced(m: Manager)
  {
    Ids(m.nodes) == m.proc.nodes
  }

  function MakeArcs(conns: seq<Connection>): (r: seq<Arc>)
    ensures |r| == |conns|
    ensures forall i :: 0 <= i < |conns| ==> r[i] == Arc(conns[i], false)
  {
    if conns == [] then [] else [Arc(conns[0], false)] + MakeArcs(conns[1..])
  }

  /** The connections of the arcs that are not marked missing, in order. */
  function LiveConnections(arcs: seq<Arc>): seq<Connection>
  {
    if arcs == [] then []
    else (if arcs[0].missing then [] else [arcs[0].conn]) + LiveConnections(arcs[1..])
  }

  function MissingArcs(arcs: seq<Arc>): (r: seq<Arc>)
    ensures forall a :: a in r ==> a in arcs && a.missing
  {
    if arcs == [] then []
    else (if arcs[0].missing then [arcs[0]] else []) + MissingArcs(arcs[1..])
  }

  function ArcConnections(arcs: seq<Arc>): (r: seq<Connection>)
    ensures |r| == |arcs|
    ensures forall i :: 0 <= i < |arcs| ==> r[i] == arcs[i].conn
  {
    if arcs == [] then [] else [arcs[0].conn] + ArcConnections(arcs[1..])
  }

  lemma {:induction false} LiveConnectionsAppend(a: seq<Arc>, b: seq<Arc>)
    ensures LiveConnections(a + b) == LiveConnections(a) + LiveConnections(b)
  {
    if a == [] {
      assert a + b == b;
    } else {
      assert (a + b)[1..] == a[1..] + b;
      LiveConnectionsAppend(a[1..], b);
    }
  }

  lemma {:induction false} LiveConnectionsOfMadeArcs(conns: seq<Connection>)
    ensures LiveConnections(MakeArcs(conns)) == conns
  {
    if conns != [] {
      assert MakeArcs(conns)[1..] == MakeArcs(conns[1..]);
      LiveConnectionsOfMadeArcs(conns[1..]);
    }
  }

  /** The corrected load invariant: the live arcs of the model are exactly
      the processor's connections. */
  predicate ArcsMatchProcessor(arcs: seq<Arc>, proc: Processor)
  {
    LiveConnections(arcs) == proc.connections
  }

  /** The processor's answer to `addConnection`; an accepted connection is
      appended to its list. */
  type AcceptOracle = (Processor, Connection) -> bool

  // ---------------------------------------------------- addNode / addFilter

  /** The node list and the processor both gain the node `n`. */
  function AppendNode(m: Manager, n: ModelNode): (r: Manager)
    ensures r.nodes == m.nodes + [n] && r.proc.nodes == m.proc.nodes + [n.nodeId]
    ensures r.arcs == m.arcs && r.lastUID == m.lastUID && r.proc.connections == m.proc.connections
    ensures Synced(m) ==> Synced(r)
  {
    IdsAppend(m.nodes, n);
    m.(nodes := m.nodes + [n], proc := m.proc.(nodes := m.proc.nodes + [n.nodeId]))
  }

  /** `addNode`: an invalid node (`None`) is refused with the invalid id and
      no change; otherwise the node is instantiated (`instantiated` is the id
      the processor gave it, or `None` when instantiation failed) and a copy
      of its data is added under that id, with its position and window
      properties removed. */
  function AddNode(m: Manager, newNode: Option<ModelNode>, instantiated: Option<nat>): (r: (Manager, Option<nat>))
    ensures newNode.None? ==> r == (m, None)
    ensures instantiated.None? ==> r == (m, None)
    ensures newNode.Some? && instantiated.Some? ==>
      && r.1 == instantiated
      && |r.0.nodes| == |m.nodes| + 1
      && r.0.nodes[..|m.nodes|] == m.nodes
      && r.0.nodes[|m.nodes|].nodeId == instantiated.value
      && r.0.nodes[|m.nodes|].name == newNode.value.name
      && r.0.nodes[|m.nodes|].missing == newNode.value.missing
      && r.0.nodes[|m.nodes|].placement == Placement(None, None, None, None, None)
      && r.0.proc.nodes == m.proc.nodes + [instantiated.value]
      && r.0.arcs == m.arcs
    ensures r.0.proc.connections == m.proc.connections && r.0.lastUID == m.lastUID
    ensures ArcsMatchProcessor(m.arcs, m.proc) ==> ArcsMatchProcessor(r.0.arcs, r.0.proc)
    ensures Synced(m) ==> Synced(r.0)
  {
    if newNode.None? || instantiated.None? then (m, None)
    else
      var m' := AppendNode(m, newNode.value.(nodeId := instantiated.value, placement := Unplaced));
      assert m'.nodes[..|m.nodes|] == m.nodes;
      (m', instantiated)
  }

  /** `addFilter`: a missing description is refused with the invalid id and
      no change; otherwise a node named after the description is added at the
      given relative position, with no window properties. */
  function AddFilter(m: Manager, descName: Option<string>, rx: real, ry: real, instantiated: Option<nat>): (r: (Manager, Option<nat>))
    ensures descName.None? ==> r == (m, None)
    ensures instantiated.None? ==> r == (m, None)
    ensures descName.Some? && instantiated.Some? ==>
      && r.1 == instantiated
      && r.0.nodes == m.nodes + [ModelNode(instantiated.value, descName.value,
                                           Placement(Some(rx), Some(ry), None, None, None), false)]
      && r.0.proc.nodes == m.proc.nodes + [instantiated.value]
      && r.0.arcs == m.arcs
    ensures r.0.proc.connections == m.proc.connections && r.0.lastUID == m.lastUID
    ensures ArcsMatchProcessor(m.arcs, m.proc) ==> ArcsMatchProcessor(r.0.arcs, r.0.proc)
    ensures Synced(m) ==> Synced(r.0)
  {
    if descName.None? || instantiated.None? then (m, None)
    else
      var placed := Placement(Some(rx), Some(ry), None, None, None);
      (AppendNode(m, ModelNode(instantiated.value, descName.value, placed, false)), instantiated)
  }

  lemma {:induction false} IdsAppend(nodes: seq<ModelNode>, n: ModelNode)
    ensures Ids(nodes + [n]) == Ids(nodes) + [n.nodeId]
  {
  }

  // ------------------------------------------------------------ removeFilter

  /** The model-side loop of `removeFilter` as written: it walks the node list
      by index, and after removing entry `i` it still advances `i`, so the
      entry that slid into slot `i` is not looked at. */
  function RemoveEntriesAsWritten(nodes: seq<ModelNode>, uid: nat): seq<ModelNode>
    decreases |nodes|
  {
    if nodes == [] then []
    else if nodes[0].nodeId == uid then
      (if |nodes| == 1 then [] else [nodes[1]] + RemoveEntriesAsWritten(nodes[2..], uid))
    else [nodes[0]] + RemoveEntriesAsWritten(nodes[1..], uid)
  }

  function WithoutId(nodes: seq<ModelNode>, uid: nat): (r: seq<ModelNode>)
    ensures forall i :: 0 <= i < |r| ==> r[i].nodeId != uid && r[i] in nodes
    ensures forall i :: 0 <= i < |nodes| && nodes[i].nodeId != uid ==> nodes[i] in r
  {
    if nodes == [] then []
    else (if nodes[0].nodeId == uid then [] else [nodes[0]]) + WithoutId(nodes[1..], uid)
  }

  lemma {:induction false} NoIdMeansUnchanged(nodes: seq<ModelNode>, uid: nat)
    requires forall i :: 0 <= i < |nodes| ==> nodes[i].nodeId != uid
    ensures RemoveEntriesAsWritten(nodes, uid) == nodes
    ensures WithoutId(nodes, uid) == nodes
    decreases |nodes|
  {
    if nodes != [] {
      NoIdMeansUnchanged(nodes[1..], uid);
    }
  }

  /** Because ids are unique in the model, the skipping loop removes exactly
      the entries with that id. */
  lemma {:induction false} RemoveEntriesAsWrittenIsExact(nodes: seq<ModelNode>, uid: nat)
    requires UniqueIds(nodes)
    ensures RemoveEntriesAsWritten(nodes, uid) == WithoutId(nodes, uid)
    decreases |nodes|
  {
    if nodes == [] {
    } else if nodes[0].nodeId == uid {
      assert forall i :: 0 <= i < |nodes[1..]| ==> nodes[1..][i].nodeId != uid by {
        forall i | 0 <= i < |nodes[1..]|
          ensures nodes[1..][i].nodeId != uid
        {
          assert nodes[1..][i] == nodes[i + 1];
        }
      }
      NoIdMeansUnchanged(nodes[1..], uid);
      if |nodes| > 1 {
        NoIdMeansUnchanged(nodes[2..], uid);
        assert nodes[1..] == [nodes[1]] + nodes[2..];
      }
    } else {
      RemoveEntriesAsWrittenIsExact(nodes[1..], uid);
    }
  }

  /** With a duplicated id the loop as written leaves the second copy. */
  lemma RemoveEntriesAsWrittenSkipsNeighbour(n: ModelNode)
    ensures RemoveEntriesAsWritten([n, n], n.nodeId) == [n]
  {
  }

  lemma {:induction false} IdsWithoutId(nodes: seq<ModelNode>, uid: nat)
    ensures Ids(WithoutId(nodes, uid)) == RemoveId(Ids(nodes), uid)
  {
    if nodes != [] {
      IdsWithoutId(nodes[1..], uid);
      assert Ids(nodes)[1..] == Ids(nodes[1..]);
      IdsAppendSeq((if nodes[0].nodeId == uid then [] else [nodes[0]]), WithoutId(nodes[1..], uid));
    }
  }

  lemma {:induction false} IdsAppendSeq(a: seq<ModelNode>, b: seq<ModelNode>)
    ensures Ids(a + b) == Ids(a) + Ids(b)
  {
  }

  function RemoveId(ids: seq<nat>, uid: nat): (r: seq<nat>)
    ensures uid !in r
  {
    if ids == [] then [] else (if ids[0] == uid then [] else [ids[0]]) + RemoveId(ids[1..], uid)
  }

  function TouchesNode(c: Connection, uid: nat): bool
  {
    c.sourceNode == uid || c.destNode == uid
  }

  function DropConnectionsOf(conns: seq<Connection>, uid: nat): (r: seq<Connection>)
    ensures forall c :: c in r ==> c in conns && !TouchesNode(c, uid)
  {
    if conns == [] then []
    else (if TouchesNode(conns[0], uid) then [] else [conns[0]]) + DropConnectionsOf(conns[1..], uid)
  }

  /** The processor's `removeNode` when it agrees: the node and every
      connection touching it go. */
  function ProcessorRemoveNode(p: Processor, uid: nat): Processor
  {
    Processor(RemoveId(p.nodes, uid), DropConnectionsOf(p.connections, uid))
  }

  /** `removeFilter`: if the processor refuses, nothing changes; otherwise the
      model loses the entries with that id, the node counts stay equal and the
      arc list is rebuilt from the processor. */
  function RemoveFilter(m: Manager, uid: nat, processorAgrees: bool, accept: AcceptOracle): (r: Manager)
    requires Synced(m) && UniqueIds(m.nodes)
    ensures !processorAgrees ==> r == m
    ensures processorAgrees ==>
      && r.nodes == WithoutId(m.nodes, uid)
      && (forall i :: 0 <= i < |r.nodes| ==> r.nodes[i].nodeId != uid)
      && (forall i :: 0 <= i < |m.nodes| && m.nodes[i].nodeId != uid ==> m.nodes[i] in r.nodes)
      && uid !in r.proc.nodes
      && ArcsMatchProcessor(r.arcs, r.proc)
    ensures processorAgrees ==> var kept := DropConnectionsOf(m.proc.connections, uid);
      && |kept| <= |r.proc.connections|
      && r.proc.connections[..|kept|] == kept
      && (forall c :: c in r.proc.connections[|kept|..] ==> c in MissingConns(m.arcs))
    ensures forall c :: c in MissingConns(m.arcs) ==> c in ArcConnections(r.arcs)
    ensures r.lastUID == m.lastUID
    ensures Synced(r) && |r.nodes| == |r.proc.nodes|
  {
    if !processorAgrees then
      MissingConnsAreArcs(m.arcs);
      m
    else
      var proc := ProcessorRemoveNode(m.proc, uid);
      RemoveEntriesAsWrittenIsExact(m.nodes, uid);
      IdsWithoutId(m.nodes, uid);
      var nodes := RemoveEntriesAsWritten(m.nodes, uid);
      var rebuilt := ArcsChanged(m.arcs, proc, accept);
      ArcsChangedOnlyRestoresMissing(m.arcs, proc, accept);
      RebuildKeepsMissing(m.arcs, proc, rebuilt.0, rebuilt.1);
      Manager(m.lastUID, nodes, rebuilt.0, rebuilt.1)
  }

  /** Removing a node just added under a fresh id gives back the node list
      and processor nodes from before the addition. */
  lemma AddThenRemoveRestoresNodes(m: Manager, newNode: ModelNode, id: nat, accept: AcceptOracle)
    requires Synced(m) && UniqueIds(m.nodes)
    requires forall i :: 0 <= i < |m.nodes| ==> m.nodes[i].nodeId != id
    ensures Synced(AddNode(m, Some(newNode), Some(id)).0)
    ensures UniqueIds(AddNode(m, Some(newNode), Some(id)).0.nodes)
    ensures RemoveFilter(AddNode(m, Some(newNode), Some(id)).0, id, true, accept).nodes == m.nodes
    ensures RemoveFilter(AddNode(m, Some(newNode), Some(id)).0, id, true, accept).proc.nodes == m.proc.nodes
  {
    var added := AddNode(m, Some(newNode), Some(id)).0;
    var n := added.nodes[|m.nodes|];
    assert added.nodes == m.nodes + [n];
    FreshIdKeepsUnique(m.nodes, n);
    WithoutIdDropsLast(m.nodes, n);
    NoIdMeansUnchanged(m.nodes, id);
    var r := RemoveFilter(added, id, true, accept);
    assert r.nodes == m.nodes;
  }

  lemma FreshIdKeepsUnique(nodes: seq<ModelNode>, n: ModelNode)
    requires UniqueIds(nodes)
    requires forall i :: 0 <= i < |nodes| ==> nodes[i].nodeId != n.nodeId
    ensures UniqueIds(nodes + [n])
  {
    var all := nodes + [n];
    forall i, j | 0 <= i < j < |all|
      ensures all[i].nodeId != all[j].nodeId
    {
      assert all[i] == nodes[i];
    }
  }

  lemma {:induction false} WithoutIdDropsLast(nodes: seq<ModelNode>, n: ModelNode)
    ensures WithoutId(nodes + [n], n.nodeId) == WithoutId(nodes, n.nodeId)
  {
    if nodes == [] {
      assert nodes + [n] == [n];
    } else {
      assert (nodes + [n])[1..] == nodes[1..] + [n];
      WithoutIdDropsLast(nodes[1..], n);
    }
  }

  // -------------------------------------------------------- disconnectFilter

  datatype DisconnectRequest = DisconnectRequest(nodeId: nat, inputs: bool, outputs: bool, audio: bool, midi: bool)

  /** The type of a port, looked up through the processor's node. */
  type PortTypeOracle = (nat, nat) -> PortType

  /** A connection `disconnectFilter` removes: it touches the node in a
      requested direction and both its ends are of a requested port type. */
  predicate Disconnects(c: Connection, q: DisconnectRequest, portType: PortTypeOracle)
  {
    && ((q.outputs && c.sourceNode == q.nodeId) || (q.inputs && c.destNode == q.nodeId))
    && ((q.audio && portType(c.sourceNode, c.sourcePort) == Audio && portType(c.destNode, c.destPort) == Audio)
        || (q.midi && portType(c.sourceNode, c.sourcePort) == Midi && portType(c.destNode, c.destPort) == Midi))
  }

  function Survives(q: DisconnectRequest, portType: PortTypeOracle): Connection -> bool
  {
    c => !Disconnects(c, q, portType)
  }

  /** `processorArcsChanged` on the whole controller: the arcs are rebuilt
      from the processor, which keeps its connections and may gain retried
      missing arcs at the end. */
  method Rebuild(m: Manager, accept: AcceptOracle) returns (r: Manager)
    ensures r.lastUID == m.lastUID && r.nodes == m.nodes && r.proc.nodes == m.proc.nodes
    ensures |m.proc.connections| <= |r.proc.connections|
    ensures r.proc.connections[..|m.proc.connections|] == m.proc.connections
    ensures forall c :: c in r.proc.connections[|m.proc.connections|..] ==> c in MissingConns(m.arcs)
    ensures MissingConns(r.arcs) <= MissingConns(m.arcs)
    ensures forall c :: c in MissingConns(m.arcs) ==> c in MissingConns(r.arcs) || c in r.proc.connections[|m.proc.connections|..]
    ensures forall c :: c in MissingConns(m.arcs) ==> c in ArcConnections(r.arcs)
    ensures forall c :: c in m.proc.connections ==> c in ArcConnections(r.arcs)
    ensures ArcsMatchProcessor(r.arcs, r.proc)
  {
    var rebuilt := ArcsChanged(m.arcs, m.proc, accept);
    ArcsChangedOnlyRestoresMissing(m.arcs, m.proc, accept);
    RebuildKeepsMissing(m.arcs, m.proc, rebuilt.0, rebuilt.1);
    r := Manager(m.lastUID, m.nodes, rebuilt.0, rebuilt.1);
  }

  /** `removeConnection (int)`: the processor drops the connection at
      `index`, then the arcs are rebuilt. */
  method RemoveConnectionAt(m: Manager, index: nat, accept: AcceptOracle) returns (r: Manager)
    requires index < |m.proc.connections|
    ensures r.lastUID == m.lastUID && r.nodes == m.nodes && r.proc.nodes == m.proc.nodes
    ensures |m.proc.connections| - 1 <= |r.proc.connections|
    ensures r.proc.connections[..|m.proc.connections| - 1]
            == m.proc.connections[..index] + m.proc.connections[index + 1..]
    ensures forall c :: c in r.proc.connections[|m.proc.connections| - 1..] ==> c in MissingConns(m.arcs)
    ensures MissingConns(r.arcs) <= MissingConns(m.arcs)
    ensures forall c :: c in MissingConns(m.arcs) ==> c in MissingConns(r.arcs) || c in r.proc.connections[|m.proc.connections| - 1..]
    ensures forall c :: c in MissingConns(m.arcs) ==> c in ArcConnections(r.arcs)
    ensures ArcsMatchProcessor(r.arcs, r.proc)
  {
    var proc := m.proc.(connections := m.proc.connections[..index] + m.proc.connections[index + 1..]);
    r := Rebuild(m.(proc := proc), accept);
  }

  /** `disconnectFilter`: walks the processor's connections from the last to
      the first and removes each one the request selects, rebuilding the
      arcs after every removal and once more at the end if anything was
      removed. A rebuild may append retried missing arcs; the walk never
      reaches them, since they land after the position it has passed. */
  method DisconnectFilter(m: Manager, q: DisconnectRequest, portType: PortTypeOracle, accept: AcceptOracle)
    returns (r: Manager, doneAnything: bool)
    requires q.inputs || q.outputs
    ensures r.lastUID == m.lastUID && r.nodes == m.nodes && r.proc.nodes == m.proc.nodes
    ensures doneAnything <==> exists i :: 0 <= i < |m.proc.connections| && Disconnects(m.proc.connections[i], q, portType)
    ensures !doneAnything ==> r == m
    ensures doneAnything ==> ArcsMatchProcessor(r.arcs, r.proc)
    ensures var kept := Filter(m.proc.connections, Survives(q, portType));
      && |kept| <= |r.proc.connections|
      && r.proc.connections[..|kept|] == kept
      && forall c :: c in r.proc.connections[|kept|..] ==> c in MissingConns(m.arcs)
    ensures MissingConns(r.arcs) <= MissingConns(m.arcs)
    ensures MissingConns(m.arcs) == {} ==> r.proc.connections == Filter(m.proc.connections, Survives(q, portType))
    ensures forall c :: c in MissingConns(m.arcs) ==>
              c in MissingConns(r.arcs) || c in r.proc.connections[|Filter(m.proc.connections, Survives(q, portType))|..]
    ensures forall c :: c in MissingConns(m.arcs) ==> c in ArcConnections(r.arcs)
  {
    var walked;
    ghost var extra;
    walked, doneAnything, extra := RemoveSelected(m, q, portType, accept);
    r := walked;
    if doneAnything {
      r := Rebuild(walked, accept);
      FinalRebuildKeepsWalk(m, walked, r, Filter(m.proc.connections, Survives(q, portType)), extra);
    } else {
      MissingConnsAreArcs(m.arcs);
    }
    var kept := Filter(m.proc.connections, Survives(q, portType));
    if MissingConns(m.arcs) == {} {
      var tail := r.proc.connections[|kept|..];
      FirstIsMember(tail, MissingConns(m.arcs));
      assert r.proc.connections == r.proc.connections[..|kept|] + tail;
    }
  }

  /** The walk of `disconnectFilter` up to its final rebuild: the selected
      connections are gone, the others keep their order in front, and behind
      them sit only connections that were missing arcs before the walk. */
  method RemoveSelected(m: Manager, q: DisconnectRequest, portType: PortTypeOracle, accept: AcceptOracle)
    returns (r: Manager, doneAnything: bool, ghost extra: seq<Connection>)
    requires q.inputs || q.outputs
    ensures r.lastUID == m.lastUID && r.nodes == m.nodes && r.proc.nodes == m.proc.nodes
    ensures r.proc.connections == Filter(m.proc.connections, Survives(q, portType)) + extra
    ensures forall c :: c in extra ==> c in MissingConns(m.arcs)
    ensures MissingConns(r.arcs) <= MissingConns(m.arcs)
    ensures forall c :: c in MissingConns(m.arcs) ==> c in MissingConns(r.arcs) || c in extra
    ensures doneAnything <==> exists i :: 0 <= i < |m.proc.connections| && Disconnects(m.proc.connections[i], q, portType)
    ensures !doneAnything ==> r == m && extra == []
    ensures doneAnything ==> ArcsMatchProcessor(r.arcs, r.proc)
  {
    var conns := m.proc.connections;
    var keep := Survives(q, portType);
    r := m;
    doneAnything := false;
    extra := [];
    var i := |conns|;
    while i > 0
      invariant 0 <= i <= |conns|
      invariant r.lastUID == m.lastUID && r.nodes == m.nodes && r.proc.nodes == m.proc.nodes
      invariant r.proc.connections == conns[..i] + Filter(conns[i..], keep) + extra
      invariant forall c :: c in extra ==> c in MissingConns(m.arcs)
      invariant MissingConns(r.arcs) <= MissingConns(m.arcs)
      invariant forall c :: c in MissingConns(m.arcs) ==> c in MissingConns(r.arcs) || c in extra
      invariant doneAnything <==> CountWhere(conns[i..], keep) < |conns| - i
      invariant !doneAnything ==> r == m && extra == []
      invariant doneAnything ==> ArcsMatchProcessor(r.arcs, r.proc)
    {
      i := i - 1;
      FilterFrom(conns, i, keep);
      ghost var before := conns[..i + 1] + Filter(conns[i + 1..], keep);
      BackwardRemoveStep(conns, i, before, keep);
      if !keep(conns[i]) {
        ghost var prev := r;
        r := RemoveConnectionAt(r, i, accept);
        extra := RemovalKeepsWalk(m, prev, r, before, extra, i);
        doneAnything := true;
      } else {
        assert before == conns[..i] + Filter(conns[i..], keep);
      }
    }
    WalkEnd(conns, q, portType, r.proc.connections, extra);
  }

  lemma WalkEnd(conns: seq<Connection>, q: DisconnectRequest, portType: PortTypeOracle,
                walked: seq<Connection>, extra: seq<Connection>)
    requires walked == conns[..0] + Filter(conns[0..], Survives(q, portType)) + extra
    ensures walked == Filter(conns, Survives(q, portType)) + extra
    ensures CountWhere(conns[0..], Survives(q, portType)) < |conns| - 0
      <==> exists i :: 0 <= i < |conns| && Disconnects(conns[i], q, portType)
  {
    assert conns[0..] == conns;
    assert conns[..0] == [];
    SurvivorsAreExact(conns, q, portType);
  }

  /** The bookkeeping of one removal: with the walked list split into the
      filtered part and the appended extras, removing position `i` of the
      filtered part and appending retried connections keeps that split, and
      every extra was missing when the walk began. */
  lemma RemovalKeepsWalk(m: Manager, cur: Manager, r: Manager, walked: seq<Connection>, extra: seq<Connection>, i: nat)
    returns (e: seq<Connection>)
    requires i < |walked| && cur.proc.connections == walked + extra
    requires forall c :: c in extra ==> c in MissingConns(m.arcs)
    requires MissingConns(cur.arcs) <= MissingConns(m.arcs)
    requires |cur.proc.connections| - 1 <= |r.proc.connections|
    requires r.proc.connections[..|cur.proc.connections| - 1]
             == cur.proc.connections[..i] + cur.proc.connections[i + 1..]
    requires forall c :: c in r.proc.connections[|cur.proc.connections| - 1..] ==> c in MissingConns(cur.arcs)
    requires MissingConns(r.arcs) <= MissingConns(cur.arcs)
    requires forall c :: c in MissingConns(m.arcs) ==> c in MissingConns(cur.arcs) || c in extra
    requires forall c :: c in MissingConns(cur.arcs) ==>
               c in MissingConns(r.arcs) || c in r.proc.connections[|cur.proc.connections| - 1..]
    ensures r.proc.connections == walked[..i] + walked[i + 1..] + e
    ensures forall c :: c in e ==> c in MissingConns(m.arcs)
    ensures MissingConns(r.arcs) <= MissingConns(m.arcs)
    ensures forall c :: c in MissingConns(m.arcs) ==> c in MissingConns(r.arcs) || c in e
  {
    var cur := cur.proc.connections;
    var next := r.proc.connections;
    e := extra + next[|cur| - 1..];
    assert cur[..i] == walked[..i];
    assert cur[i + 1..] == walked[i + 1..] + extra;
    assert next == next[..|cur| - 1] + next[|cur| - 1..];
  }

  /** The final rebuild keeps the filtered connections in front and appends
      only connections that were missing at the start of the walk. */
  lemma FinalRebuildKeepsWalk(m: Manager, cur: Manager, r: Manager, kept: seq<Connection>, extra: seq<Connection>)
    requires cur.proc.connections == kept + extra
    requires forall c :: c in extra ==> c in MissingConns(m.arcs)
    requires MissingConns(cur.arcs) <= MissingConns(m.arcs)
    requires |cur.proc.connections| <= |r.proc.connections|
    requires r.proc.connections[..|cur.proc.connections|] == cur.proc.connections
    requires forall c :: c in r.proc.connections[|cur.proc.connections|..] ==> c in MissingConns(cur.arcs)
    requires MissingConns(r.arcs) <= MissingConns(cur.arcs)
    requires forall c :: c in MissingConns(m.arcs) ==> c in MissingConns(cur.arcs) || c in extra
    requires forall c :: c in MissingConns(cur.arcs) ==>
               c in MissingConns(r.arcs) || c in r.proc.connections[|cur.proc.connections|..]
    requires forall c :: c in MissingConns(cur.arcs) ==> c in ArcConnections(r.arcs)
    requires forall c :: c in cur.proc.connections ==> c in ArcConnections(r.arcs)
    ensures |kept| <= |r.proc.connections|
    ensures r.proc.connections[..|kept|] == kept
    ensures forall c :: c in r.proc.connections[|kept|..] ==> c in MissingConns(m.arcs)
    ensures MissingConns(r.arcs) <= MissingConns(m.arcs)
    ensures forall c :: c in MissingConns(m.arcs) ==> c in MissingConns(r.arcs) || c in r.proc.connections[|kept|..]
    ensures forall c :: c in MissingConns(m.arcs) ==> c in ArcConnections(r.arcs)
  {
    var next := r.proc.connections;
    var n := |cur.proc.connections|;
    assert next == cur.proc.connections + next[n..];
    assert next[|kept|..] == extra + next[n..];
  }

  /** Every missing arc's connection is among the arcs' connections. */
  lemma MissingConnsAreArcs(arcs: seq<Arc>)
    ensures forall c :: c in MissingConns(arcs) ==> c in ArcConnections(arcs)
  {
    forall c | c in MissingConns(arcs)
      ensures c in ArcConnections(arcs)
    {
      var a :| a in arcs && a.missing && a.conn == c;
      var k :| 0 <= k < |arcs| && arcs[k] == a;
      assert ArcConnections(arcs)[k] == c;
    }
  }

  /** The connections `Filter` keeps for a request are exactly those it does
      not select, and something is dropped exactly when one is selected. */
  lemma SurvivorsAreExact(conns: seq<Connection>, q: DisconnectRequest, portType: PortTypeOracle)
    ensures var r := Filter(conns, Survives(q, portType));
      && (forall i :: 0 <= i < |r| ==> !Disconnects(r[i], q, portType) && r[i] in conns)
      && (forall i :: 0 <= i < |conns| && !Disconnects(conns[i], q, portType) ==> conns[i] in r)
    ensures CountWhere(conns, Survives(q, portType)) < |conns|
      <==> exists i :: 0 <= i < |conns| && Disconnects(conns[i], q, portType)
  {
    FilterMembership(conns, Survives(q, portType));
    CountWhereBelowLength(conns, Survives(q, portType));
  }

  // --------------------------------------------------------- load and rebuild

  predicate EndpointsExist(c: Connection, modelIds: set<nat>)
  {
    c.sourceNode in modelIds && c.destNode in modelIds
  }

  /** The processor after the arcs `offered` have been offered live: their
      connections are appended in order. */
  function Offered(proc: Processor, offered: seq<Arc>): (p: Processor)
    ensures p.nodes == proc.nodes
  {
    proc.(connections := proc.connections + LiveConnections(offered))
  }

  lemma OfferedAppend(proc: Processor, a: seq<Arc>, b: seq<Arc>)
    ensures Offered(proc, a + b) == Offered(Offered(proc, a), b)
    ensures Offered(proc, []) == proc
  {
    LiveConnectionsAppend(a, b);
    assert LiveConnections([]) == [];
    assert proc.connections + [] == proc.connections;
  }

  /** Offering a growing list of arcs: the state before the arc after `head`
      is the state after `head`, followed by the same walk over the rest. */
  lemma OfferedShift(proc: Processor, head: Arc, rest: seq<Arc>)
    ensures Offered(proc, ([head] + rest)[..0]) == proc
    ensures forall i :: 0 < i <= |rest| + 1 ==>
              Offered(proc, ([head] + rest)[..i]) == Offered(Offered(proc, [head]), rest[..i - 1])
  {
    OfferedAppend(proc, [], []);
    assert ([head] + rest)[..0] == [];
    forall i | 0 < i <= |rest| + 1
      ensures Offered(proc, ([head] + rest)[..i]) == Offered(Offered(proc, [head]), rest[..i - 1])
    {
      assert ([head] + rest)[..i] == [head] + rest[..i - 1];
      OfferedAppend(proc, [head], rest[..i - 1]);
    }
  }

  /** The arcs the restore loop did not mark as failed, in order: the purge
      that follows the loop. `None` is an arc marked failed. */
  function DiscardFailed(fates: seq<Option<Arc>>): (r: seq<Arc>)
    ensures |r| <= |fates|
    ensures forall a :: a in r <==> Some(a) in fates
  {
    if fates == [] then []
    else
      assert fates == [fates[0]] + fates[1..];
      (if fates[0].Some? then [fates[0].value] else []) + DiscardFailed(fates[1..])
  }

  /** The processor as the restore loop finds it at stored arc `i`: the
      connections restored live before it, appended in order. */
  function Before(proc: Processor, fates: seq<Option<Arc>>, i: nat): Processor
    requires i <= |fates|
  {
    Offered(proc, DiscardFailed(fates[..i]))
  }

  /** What the restore loop makes of stored connection `c` when the
      processor is in state `p`: accepted, it is kept with its missing mark
      cleared; refused, it is kept marked missing when both its end nodes
      are in the model, and marked failed otherwise. */
  predicate FateAt(c: Connection, p: Processor, accept: AcceptOracle, modelIds: set<nat>, fate: Option<Arc>)
  {
    if accept(p, c) then fate == Some(Arc(c, false))
    else if EndpointsExist(c, modelIds) then fate == Some(Arc(c, true))
    else fate == None
  }

  /** The arc loop of `setNodeModel`: each stored arc is offered in turn to
      the processor as the earlier arcs left it. */
  function RestoreArcs(arcs: seq<Arc>, proc: Processor, accept: AcceptOracle, modelIds: set<nat>): (r: (seq<Option<Arc>>, Processor))
    ensures |r.0| == |arcs|
    ensures forall i :: 0 <= i < |arcs| ==> FateAt(arcs[i].conn, Before(proc, r.0, i), accept, modelIds, r.0[i])
    ensures r.1 == Before(proc, r.0, |arcs|)
    decreases |arcs|
  {
    if arcs == [] then
      OfferedAppend(proc, [], []);
      ([], proc)
    else
      var c := arcs[0].conn;
      var head := if accept(proc, c) then Some(Arc(c, false))
                  else if EndpointsExist(c, modelIds) then Some(Arc(c, true))
                  else None;
      var next := Offered(proc, DiscardFailed([head]));
      var rest := RestoreArcs(arcs[1..], next, accept, modelIds);
      RestoreStep(arcs, proc, accept, modelIds, head, rest.0);
      ([head] + rest.0, rest.1)
  }

  /** How the restore states of the whole list relate to those of the rest
      after the first arc. */
  lemma BeforeShift(proc: Processor, head: Option<Arc>, rest: seq<Option<Arc>>)
    ensures Before(proc, [head] + rest, 0) == proc
    ensures forall i :: 0 < i <= |rest| + 1 ==>
              Before(proc, [head] + rest, i) == Before(Offered(proc, DiscardFailed([head])), rest, i - 1)
  {
    assert ([head] + rest)[..0] == [];
    OfferedAppend(proc, [], []);
    forall i | 0 < i <= |rest| + 1
      ensures Before(proc, [head] + rest, i) == Before(Offered(proc, DiscardFailed([head])), rest, i - 1)
    {
      var pre := ([head] + rest)[..i];
      assert pre == [head] + rest[..i - 1];
      assert pre[1..] == rest[..i - 1];
      assert [head][1..] == [];
      assert DiscardFailed(pre) == DiscardFailed([head]) + DiscardFailed(rest[..i - 1]);
      OfferedAppend(proc, DiscardFailed([head]), DiscardFailed(rest[..i - 1]));
    }
  }

  /** One step of the restore loop: the first arc's fate followed by the
      rest's fates is the fate list of the whole stored list. */
  lemma RestoreStep(arcs: seq<Arc>, proc: Processor, accept: AcceptOracle, modelIds: set<nat>,
                    head: Option<Arc>, rest: seq<Option<Arc>>)
    requires arcs != [] && |rest| == |arcs| - 1
    requires FateAt(arcs[0].conn, proc, accept, modelIds, head)
    requires forall j :: 0 <= j < |rest| ==>
               FateAt(arcs[1..][j].conn, Before(Offered(proc, DiscardFailed([head])), rest, j), accept, modelIds, rest[j])
    ensures forall i :: 0 <= i < |arcs| ==> FateAt(arcs[i].conn, Before(proc, [head] + rest, i), accept, modelIds, ([head] + rest)[i])
    ensures Before(proc, [head] + rest, |arcs|) == Before(Offered(proc, DiscardFailed([head])), rest, |rest|)
  {
    BeforeShift(proc, head, rest);
    forall i | 0 < i < |arcs|
      ensures FateAt(arcs[i].conn, Before(proc, [head] + rest, i), accept, modelIds, ([head] + rest)[i])
    {
      assert arcs[1..][i - 1] == arcs[i];
      assert ([head] + rest)[i] == rest[i - 1];
    }
  }

  /** The retry half of `processorArcsChanged`: every missing arc is offered
      again, in order, to the processor as the earlier retries left it; it is
      kept either way, unmarked exactly when accepted. */
  function RetryMissing(missing: seq<Arc>, proc: Processor, accept: AcceptOracle): (r: (seq<Arc>, Processor))
    ensures |r.0| == |missing|
    ensures ArcConnections(r.0) == ArcConnections(missing)
    ensures forall i :: 0 <= i < |missing| ==> r.0[i].missing == !accept(Offered(proc, r.0[..i]), missing[i].conn)
    ensures r.1 == Offered(proc, r.0)
    decreases |missing|
  {
    if missing == [] then
      OfferedAppend(proc, [], []);
      ([], proc)
    else
      var c := missing[0].conn;
      var head := Arc(c, !accept(proc, c));
      var rest := RetryMissing(missing[1..], Offered(proc, [head]), accept);
      RetryStep(missing, proc, accept, head, rest.0);
      ([head] + rest.0, rest.1)
  }

  lemma RetryStep(missing: seq<Arc>, proc: Processor, accept: AcceptOracle, head: Arc, rest: seq<Arc>)
    requires missing != [] && |rest| == |missing| - 1
    requires head == Arc(missing[0].conn, !accept(proc, missing[0].conn))
    requires ArcConnections(rest) == ArcConnections(missing[1..])
    requires forall j :: 0 <= j < |rest| ==> rest[j].missing == !accept(Offered(Offered(proc, [head]), rest[..j]), missing[1..][j].conn)
    ensures ArcConnections([head] + rest) == ArcConnections(missing)
    ensures forall i :: 0 <= i < |missing| ==>
              ([head] + rest)[i].missing == !accept(Offered(proc, ([head] + rest)[..i]), missing[i].conn)
    ensures Offered(Offered(proc, [head]), rest) == Offered(proc, [head] + rest)
  {
    OfferedShift(proc, head, rest);
    OfferedAppend(proc, [head], rest);
    assert ([head] + rest)[1..] == rest;
    assert ArcConnections(missing) == [missing[0].conn] + ArcConnections(missing[1..]);
    forall i | 0 < i < |missing|
      ensures ([head] + rest)[i].missing == !accept(Offered(proc, ([head] + rest)[..i]), missing[i].conn)
    {
      assert missing[1..][i - 1] == missing[i];
      assert ([head] + rest)[i] == rest[i - 1];
    }
  }

  /** The connections of the arcs marked missing. */
  function MissingConns(arcs: seq<Arc>): set<Connection>
  {
    set a | a in arcs && a.missing :: a.conn
  }

  /** `processorArcsChanged`: the arc list becomes the processor's connections
      in index order followed by every previously missing arc, retried in
      order against the processor as the earlier retries left it. */
  function ArcsChanged(arcs: seq<Arc>, proc: Processor, accept: AcceptOracle): (r: (seq<Arc>, Processor))
    ensures |r.0| == |proc.connections| + |MissingArcs(arcs)|
    ensures r.0[..|proc.connections|] == MakeArcs(proc.connections)
    ensures ArcConnections(r.0[|proc.connections|..]) == ArcConnections(MissingArcs(arcs))
    ensures forall i :: 0 <= i < |MissingArcs(arcs)| ==>
              r.0[|proc.connections| + i].missing
              == !accept(Offered(proc, r.0[|proc.connections|..|proc.connections| + i]), MissingArcs(arcs)[i].conn)
    ensures r.1 == Offered(proc, r.0[|proc.connections|..])
    ensures ArcsMatchProcessor(r.0, r.1)
  {
    var retried := RetryMissing(MissingArcs(arcs), proc, accept);
    var made := MakeArcs(proc.connections);
    RetriedTail(made, retried.0, MissingArcs(arcs), proc, accept);
    RebuiltMatches(made, retried.0, proc);
    (made + retried.0, retried.1)
  }

  lemma RebuiltMatches(made: seq<Arc>, t: seq<Arc>, proc: Processor)
    requires made == MakeArcs(proc.connections)
    ensures LiveConnections(made + t) == Offered(proc, t).connections
  {
    LiveConnectionsAppend(made, t);
    LiveConnectionsOfMadeArcs(proc.connections);
  }

  /** The retried arcs placed after the processor's own connections. */
  lemma RetriedTail(made: seq<Arc>, t: seq<Arc>, miss: seq<Arc>, proc: Processor, accept: AcceptOracle)
    requires |made| == |proc.connections| && |t| == |miss|
    requires forall i :: 0 <= i < |miss| ==> t[i].missing == !accept(Offered(proc, t[..i]), miss[i].conn)
    ensures (made + t)[..|proc.connections|] == made && (made + t)[|proc.connections|..] == t
    ensures forall i :: 0 <= i < |miss| ==>
              (made + t)[|proc.connections| + i].missing
              == !accept(Offered(proc, (made + t)[|proc.connections|..|proc.connections| + i]), miss[i].conn)
  {
    var n := |proc.connections|;
    assert (made + t)[..n] == made;
    assert (made + t)[n..] == t;
    forall i | 0 <= i < |miss|
      ensures (made + t)[n + i].missing == !accept(Offered(proc, (made + t)[n..n + i]), miss[i].conn)
    {
      assert (made + t)[n..n + i] == t[..i];
      assert (made + t)[n + i] == t[i];
    }
  }

  /** The rebuild marks nothing missing that was not missing before, and the
      connections it restores come from arcs that were missing. */
  lemma ArcsChangedOnlyRestoresMissing(arcs: seq<Arc>, proc: Processor, accept: AcceptOracle)
    ensures var r := ArcsChanged(arcs, proc, accept);
      && MissingConns(r.0) <= MissingConns(arcs)
      && |proc.connections| <= |r.1.connections|
      && r.1.connections[..|proc.connections|] == proc.connections
      && forall c :: c in r.1.connections[|proc.connections|..] ==> c in MissingConns(arcs)
  {
    var r := ArcsChanged(arcs, proc, accept);
    RebuiltFromMissing(arcs, proc, r.0, r.1);
  }

  lemma RebuiltFromMissing(arcs: seq<Arc>, proc: Processor, r0: seq<Arc>, r1: Processor)
    requires |r0| == |proc.connections| + |MissingArcs(arcs)|
    requires r0[..|proc.connections|] == MakeArcs(proc.connections)
    requires ArcConnections(r0[|proc.connections|..]) == ArcConnections(MissingArcs(arcs))
    requires r1 == Offered(proc, r0[|proc.connections|..])
    ensures MissingConns(r0) <= MissingConns(arcs)
    ensures |proc.connections| <= |r1.connections| && r1.connections[..|proc.connections|] == proc.connections
    ensures forall c :: c in r1.connections[|proc.connections|..] ==> c in MissingConns(arcs)
  {
    var n := |proc.connections|;
    var tail := r0[n..];
    assert r1.connections == proc.connections + LiveConnections(tail);
    assert r1.connections[n..] == LiveConnections(tail);
    LiveConnectionsMembership(tail);
    TailArcsFromMissing(tail, arcs);
    MadeArcsNotMissing(r0, proc.connections);
    forall a | a in r0 && a.missing
      ensures a.conn in MissingConns(arcs)
    {
      var k :| 0 <= k < |r0| && r0[k] == a;
      assert tail[k - n] == a;
    }
  }

  /** No missing arc is lost by the rebuild: each is retried, and it either
      stays missing or its connection is appended to the processor; the
      processor's own connections all reappear as arcs. */
  lemma RebuildKeepsMissing(arcs: seq<Arc>, proc: Processor, r0: seq<Arc>, r1: Processor)
    requires |r0| == |proc.connections| + |MissingArcs(arcs)|
    requires r0[..|proc.connections|] == MakeArcs(proc.connections)
    requires ArcConnections(r0[|proc.connections|..]) == ArcConnections(MissingArcs(arcs))
    requires r1 == Offered(proc, r0[|proc.connections|..])
    ensures forall c :: c in MissingConns(arcs) ==> c in MissingConns(r0) || c in r1.connections[|proc.connections|..]
    ensures forall c :: c in MissingConns(arcs) ==> c in ArcConnections(r0)
    ensures forall c :: c in proc.connections ==> c in ArcConnections(r0)
  {
    var n := |proc.connections|;
    assert r1.connections[n..] == LiveConnections(r0[n..]);
    RetriedArcsKept(arcs, n, r0);
    forall c | c in proc.connections
      ensures c in ArcConnections(r0)
    {
      var k :| 0 <= k < n && proc.connections[k] == c;
      assert r0[..n][k] == r0[k];
      assert ArcConnections(r0)[k] == c;
    }
  }

  /** Each missing arc reappears in the retried tail starting at `n`, either
      still missing or live. */
  lemma RetriedArcsKept(arcs: seq<Arc>, n: nat, r0: seq<Arc>)
    requires n <= |r0|
    requires ArcConnections(r0[n..]) == ArcConnections(MissingArcs(arcs))
    ensures forall c :: c in MissingConns(arcs) ==> c in MissingConns(r0) || c in LiveConnections(r0[n..])
    ensures forall c :: c in MissingConns(arcs) ==> c in ArcConnections(r0)
  {
    var tail := r0[n..];
    var miss := MissingArcs(arcs);
    LiveConnectionsMembership(tail);
    MissingArcsMembership(arcs);
    forall c | c in MissingConns(arcs)
      ensures (c in MissingConns(r0) || c in LiveConnections(tail)) && c in ArcConnections(r0)
    {
      var a :| a in arcs && a.missing && a.conn == c;
      var k :| 0 <= k < |miss| && miss[k] == a;
      assert ArcConnections(tail)[k] == ArcConnections(miss)[k];
      assert tail[k] == r0[n + k];
      assert ArcConnections(r0)[n + k] == c;
    }
  }

  lemma MadeArcsNotMissing(r0: seq<Arc>, conns: seq<Connection>)
    requires |conns| <= |r0| && r0[..|conns|] == MakeArcs(conns)
    ensures forall k :: 0 <= k < |conns| ==> !r0[k].missing
  {
    forall k | 0 <= k < |conns|
      ensures !r0[k].missing
    {
      assert r0[..|conns|][k] == r0[k];
    }
  }

  lemma TailArcsFromMissing(tail: seq<Arc>, arcs: seq<Arc>)
    requires ArcConnections(tail) == ArcConnections(MissingArcs(arcs))
    ensures forall k :: 0 <= k < |tail| ==> tail[k].conn in MissingConns(arcs)
  {
    var miss := MissingArcs(arcs);
    forall k | 0 <= k < |tail|
      ensures tail[k].conn in MissingConns(arcs)
    {
      assert ArcConnections(tail)[k] == ArcConnections(miss)[k];
      assert miss[k] in miss;
    }
  }

  /** An arc not marked missing has its connection among the live ones, and
      every live connection is the connection of one of the arcs. */
  lemma {:induction false} LiveConnectionsMembership(arcs: seq<Arc>)
    ensures forall a :: a in arcs && !a.missing ==> a.conn in LiveConnections(arcs)
    ensures forall c :: c in LiveConnections(arcs) ==> exists k :: 0 <= k < |arcs| && arcs[k].conn == c
  {
    if arcs != [] {
      LiveConnectionsMembership(arcs[1..]);
      assert arcs == [arcs[0]] + arcs[1..];
      forall c | c in LiveConnections(arcs)
        ensures exists k :: 0 <= k < |arcs| && arcs[k].conn == c
      {
        if c !in LiveConnections(arcs[1..]) {
          assert arcs[0].conn == c;
        } else {
          var k :| 0 <= k < |arcs[1..]| && arcs[1..][k].conn == c;
          assert arcs[k + 1].conn == c;
        }
      }
    }
  }

  /** What instantiating a stored node gave on load. */
  datatype NodeOutcome = Created | Placeholder | Failed

  /** A stored node with the outcome of instantiating it. */
  datatype StoredNode = StoredNode(node: ModelNode, outcome: NodeOutcome)

  function Loads(s: StoredNode): bool
  {
    !s.outcome.Failed?
  }

  /** The model entry of a loaded node: a placeholder is marked missing. */
  function Loaded(s: StoredNode): ModelNode
  {
    if s.outcome.Placeholder? then s.node.(missing := true) else s.node
  }

  /** The node loop of `setNodeModel` followed by the purge of failed nodes:
      a node that could be neither created nor stood in for by a placeholder
      leaves the model; the others stay, in order. */
  function LoadNodes(stored: seq<StoredNode>): (r: seq<ModelNode>)
    ensures |r| == |Filter(stored, Loads)|
    ensures forall i :: 0 <= i < |r| ==> r[i] == Loaded(Filter(stored, Loads)[i])
  {
    if stored == [] then []
    else
      var rest := LoadNodes(stored[1..]);
      var head := if Loads(stored[0]) then [Loaded(stored[0])] else [];
      assert Filter(stored, Loads) == (if Loads(stored[0]) then [stored[0]] else []) + Filter(stored[1..], Loads);
      head + rest
  }

  /** Exactly the nodes that loaded are in the model; with unique stored
      ids, no node that failed keeps its id in the model. */
  lemma LoadNodesKeepsExactlyTheLoaded(stored: seq<StoredNode>)
    ensures forall i :: 0 <= i < |stored| && Loads(stored[i]) ==> Loaded(stored[i]) in LoadNodes(stored)
    ensures forall n :: n in LoadNodes(stored) ==> exists i :: 0 <= i < |stored| && Loads(stored[i]) && n == Loaded(stored[i])
    ensures (forall i, j :: 0 <= i < j < |stored| ==> stored[i].node.nodeId != stored[j].node.nodeId) ==>
              forall i :: 0 <= i < |stored| && !Loads(stored[i]) ==> stored[i].node.nodeId !in Ids(LoadNodes(stored))
  {
    LoadedNodesStay(stored);
    KeptNodesLoaded(stored);
    if forall i, j :: 0 <= i < j < |stored| ==> stored[i].node.nodeId != stored[j].node.nodeId {
      FailedIdsLeave(stored);
    }
  }

  lemma LoadedNodesStay(stored: seq<StoredNode>)
    ensures forall i :: 0 <= i < |stored| && Loads(stored[i]) ==> Loaded(stored[i]) in LoadNodes(stored)
  {
    var f := Filter(stored, Loads);
    var r := LoadNodes(stored);
    FilterMembership(stored, Loads);
    forall i | 0 <= i < |stored| && Loads(stored[i])
      ensures Loaded(stored[i]) in r
    {
      var k :| 0 <= k < |f| && f[k] == stored[i];
      assert r[k] == Loaded(stored[i]);
    }
  }

  lemma KeptNodesLoaded(stored: seq<StoredNode>)
    ensures forall n :: n in LoadNodes(stored) ==> exists i :: 0 <= i < |stored| && Loads(stored[i]) && n == Loaded(stored[i])
  {
    var f := Filter(stored, Loads);
    var r := LoadNodes(stored);
    FilterMembership(stored, Loads);
    forall n | n in r
      ensures exists i :: 0 <= i < |stored| && Loads(stored[i]) && n == Loaded(stored[i])
    {
      var k :| 0 <= k < |r| && r[k] == n;
      assert f[k] in stored;
      var i :| 0 <= i < |stored| && stored[i] == f[k];
      assert Loads(stored[i]) && n == Loaded(stored[i]);
    }
  }

  lemma FailedIdsLeave(stored: seq<StoredNode>)
    requires forall i, j :: 0 <= i < j < |stored| ==> stored[i].node.nodeId != stored[j].node.nodeId
    ensures forall i :: 0 <= i < |stored| && !Loads(stored[i]) ==> stored[i].node.nodeId !in Ids(LoadNodes(stored))
  {
    var r := LoadNodes(stored);
    KeptNodesLoaded(stored);
    forall i | 0 <= i < |stored| && !Loads(stored[i])
      ensures stored[i].node.nodeId !in Ids(r)
    {
      forall k | 0 <= k < |r|
        ensures Ids(r)[k] != stored[i].node.nodeId
      {
        assert r[k] in r;
        var j :| 0 <= j < |stored| && Loads(stored[j]) && r[k] == Loaded(stored[j]);
        assert j != i;
        assert Ids(r)[k] == stored[j].node.nodeId;
      }
    }
  }

  function IdSet(nodes: seq<ModelNode>): set<nat>
  {
    set i | 0 <= i < |nodes| :: nodes[i].nodeId
  }

  /** `setNodeModel` up to the IO-node enforcer: the processor is cleared and
      refilled with the nodes that loaded, the stored arcs are restored, the
      failed ones purged, and the arc list is rebuilt from the processor. */
  function SetNodeModel(lastUID: nat, stored: seq<StoredNode>, arcs: seq<Arc>, accept: AcceptOracle): (m: Manager)
    ensures m.lastUID == lastUID
    ensures |m.nodes| == |Filter(stored, Loads)|
    ensures forall i :: 0 <= i < |m.nodes| ==> m.nodes[i] == Loaded(Filter(stored, Loads)[i])
    ensures Synced(m)
    ensures ArcsMatchProcessor(m.arcs, m.proc)
    ensures forall a :: a in m.arcs ==> a.conn in ArcConnections(arcs)
    ensures forall i :: 0 <= i < |arcs| && EndpointsExist(arcs[i].conn, IdSet(m.nodes)) ==>
              arcs[i].conn in ArcConnections(m.arcs)
  {
    var kept := LoadNodes(stored);
    var cleared := Processor(Ids(kept), []);
    var restored := RestoreArcs(arcs, cleared, accept, IdSet(kept));
    var keptArcs := DiscardFailed(restored.0);
    var rebuilt := ArcsChanged(keptArcs, restored.1, accept);
    LoadedArcsFromStored(arcs, cleared, accept, IdSet(kept), restored.0, restored.1);
    RebuiltArcsFromStored(keptArcs, restored.1, accept, arcs);
    RebuildKeepsLoadedArcs(arcs, cleared, accept, IdSet(kept), restored.0, restored.1);
    Manager(lastUID, kept, rebuilt.0, rebuilt.1)
  }

  /** Every arc the restore keeps comes from the stored list, the processor
      it leaves holds only stored connections, and a stored arc between two
      model nodes is kept. */
  lemma LoadedArcsFromStored(arcs: seq<Arc>, cleared: Processor, accept: AcceptOracle, modelIds: set<nat>,
                             fates: seq<Option<Arc>>, proc: Processor)
    requires cleared.connections == []
    requires |fates| == |arcs|
    requires forall i :: 0 <= i < |arcs| ==> FateAt(arcs[i].conn, Before(cleared, fates, i), accept, modelIds, fates[i])
    requires proc == Before(cleared, fates, |arcs|)
    ensures forall a :: a in DiscardFailed(fates) ==> a.conn in ArcConnections(arcs)
    ensures forall c :: c in proc.connections ==> c in ArcConnections(arcs)
    ensures forall i :: 0 <= i < |arcs| && EndpointsExist(arcs[i].conn, modelIds) ==>
              exists a :: a in DiscardFailed(fates) && a.conn == arcs[i].conn
  {
    var kept := DiscardFailed(fates);
    forall i | 0 <= i < |arcs|
      ensures fates[i].Some? ==> fates[i].value.conn == arcs[i].conn
      ensures EndpointsExist(arcs[i].conn, modelIds) ==> fates[i].Some?
    {
      LinkedArcKept(arcs[i].conn, Before(cleared, fates, i), accept, modelIds, fates[i]);
    }
    KeptFatesFromStored(arcs, fates);
    assert fates[..|arcs|] == fates;
    assert proc.connections == LiveConnections(kept);
    LiveConnectionsMembership(kept);
    forall i | 0 <= i < |arcs| && EndpointsExist(arcs[i].conn, modelIds)
      ensures exists a :: a in kept && a.conn == arcs[i].conn
    {
      assert fates[i] in fates;
    }
  }

  lemma KeptFatesFromStored(arcs: seq<Arc>, fates: seq<Option<Arc>>)
    requires |fates| == |arcs|
    requires forall i :: 0 <= i < |arcs| ==> fates[i].Some? ==> fates[i].value.conn == arcs[i].conn
    ensures forall a :: a in DiscardFailed(fates) ==> a.conn in ArcConnections(arcs)
  {
    forall a | a in DiscardFailed(fates)
      ensures a.conn in ArcConnections(arcs)
    {
      var i :| 0 <= i < |fates| && fates[i] == Some(a);
      assert ArcConnections(arcs)[i] == a.conn;
    }
  }

  /** The rebuilt arcs all come from the stored list when the arcs and the
      processor it starts from do. */
  lemma RebuiltArcsFromStored(arcs: seq<Arc>, proc: Processor, accept: AcceptOracle, stored: seq<Arc>)
    requires forall a :: a in arcs ==> a.conn in ArcConnections(stored)
    requires forall c :: c in proc.connections ==> c in ArcConnections(stored)
    ensures forall a :: a in ArcsChanged(arcs, proc, accept).0 ==> a.conn in ArcConnections(stored)
  {
    RebuiltFromSources(arcs, proc.connections, ArcsChanged(arcs, proc, accept).0, stored);
  }

  lemma RebuiltFromSources(arcs: seq<Arc>, conns: seq<Connection>, r: seq<Arc>, stored: seq<Arc>)
    requires forall a :: a in arcs ==> a.conn in ArcConnections(stored)
    requires forall c :: c in conns ==> c in ArcConnections(stored)
    requires |r| == |conns| + |MissingArcs(arcs)|
    requires r[..|conns|] == MakeArcs(conns)
    requires ArcConnections(r[|conns|..]) == ArcConnections(MissingArcs(arcs))
    ensures forall a :: a in r ==> a.conn in ArcConnections(stored)
  {
    MadeArcsFromSources(conns, r, ArcConnections(stored));
    RetriedArcsFromSources(arcs, |conns|, r, ArcConnections(stored));
    forall a | a in r
      ensures a.conn in ArcConnections(stored)
    {
      var k :| 0 <= k < |r| && r[k] == a;
    }
  }

  lemma MadeArcsFromSources(conns: seq<Connection>, r: seq<Arc>, sources: seq<Connection>)
    requires forall c :: c in conns ==> c in sources
    requires |conns| <= |r| && r[..|conns|] == MakeArcs(conns)
    ensures forall k :: 0 <= k < |conns| ==> r[k].conn in sources
  {
    forall k | 0 <= k < |conns|
      ensures r[k].conn in sources
    {
      assert r[..|conns|][k] == r[k];
      assert conns[k] in conns;
    }
  }

  lemma RetriedArcsFromSources(arcs: seq<Arc>, n: nat, r: seq<Arc>, sources: seq<Connection>)
    requires forall a :: a in arcs ==> a.conn in sources
    requires n <= |r| && ArcConnections(r[n..]) == ArcConnections(MissingArcs(arcs))
    ensures forall k :: n <= k < |r| ==> r[k].conn in sources
  {
    var miss := MissingArcs(arcs);
    forall k | n <= k < |r|
      ensures r[k].conn in sources
    {
      assert ArcConnections(r[n..])[k - n] == r[k].conn;
      assert ArcConnections(miss)[k - n] == miss[k - n].conn;
      assert miss[k - n] in miss;
    }
  }

  /** A stored arc the restore keeps is still in the rebuilt arc list: an
      accepted one among the processor's connections, a missing one among
      the retried arcs. */
  lemma RebuildKeepsLoadedArcs(arcs: seq<Arc>, cleared: Processor, accept: AcceptOracle, modelIds: set<nat>,
                               fates: seq<Option<Arc>>, proc: Processor)
    requires cleared.connections == []
    requires |fates| == |arcs|
    requires forall i :: 0 <= i < |arcs| ==> FateAt(arcs[i].conn, Before(cleared, fates, i), accept, modelIds, fates[i])
    requires proc == Before(cleared, fates, |arcs|)
    ensures forall i :: 0 <= i < |arcs| && EndpointsExist(arcs[i].conn, modelIds) ==>
              arcs[i].conn in ArcConnections(ArcsChanged(DiscardFailed(fates), proc, accept).0)
  {
    var kept := DiscardFailed(fates);
    var r := ArcsChanged(kept, proc, accept).0;
    assert fates[..|arcs|] == fates;
    KeptArcsSurviveRebuild(kept, proc.connections, r);
    forall i | 0 <= i < |arcs| && EndpointsExist(arcs[i].conn, modelIds)
      ensures arcs[i].conn in ArcConnections(r)
    {
      LinkedArcKept(arcs[i].conn, Before(cleared, fates, i), accept, modelIds, fates[i]);
      assert fates[i] in fates;
    }
  }

  /** A kept arc carries the stored connection, and a stored arc between two
      model nodes is never discarded. */
  lemma LinkedArcKept(c: Connection, p: Processor, accept: AcceptOracle, modelIds: set<nat>, fate: Option<Arc>)
    requires FateAt(c, p, accept, modelIds, fate)
    ensures fate.Some? ==> fate.value.conn == c
    ensures EndpointsExist(c, modelIds) ==> fate.Some?
  {
  }

  /** Every arc a rebuild starts from has its connection in the rebuilt list. */
  lemma KeptArcsSurviveRebuild(kept: seq<Arc>, conns: seq<Connection>, r: seq<Arc>)
    requires conns == LiveConnections(kept)
    requires |r| == |conns| + |MissingArcs(kept)|
    requires r[..|conns|] == MakeArcs(conns)
    requires ArcConnections(r[|conns|..]) == ArcConnections(MissingArcs(kept))
    ensures forall a :: a in kept ==> a.conn in ArcConnections(r)
  {
    LiveConnectionsMembership(kept);
    MissingArcsMembership(kept);
    forall a | a in kept
      ensures a.conn in ArcConnections(r)
    {
      RebuiltHolds(conns, MissingArcs(kept), r, a);
    }
  }

  /** A rebuilt arc list holds every live connection and every retried arc. */
  lemma RebuiltHolds(conns: seq<Connection>, miss: seq<Arc>, r: seq<Arc>, a: Arc)
    requires |r| == |conns| + |miss|
    requires r[..|conns|] == MakeArcs(conns)
    requires ArcConnections(r[|conns|..]) == ArcConnections(miss)
    requires a.conn in conns || a in miss
    ensures a.conn in ArcConnections(r)
  {
    var n := |conns|;
    if a in miss {
      var k :| 0 <= k < |miss| && miss[k] == a;
      assert ArcConnections(r[n..])[k] == a.conn;
      assert r[n..][k] == r[n + k];
      assert ArcConnections(r)[n + k] == a.conn;
    } else {
      var k :| 0 <= k < n && conns[k] == a.conn;
      assert r[..n][k] == r[k];
      assert ArcConnections(r)[k] == a.conn;
    }
  }

  lemma {:induction false} MissingArcsMembership(arcs: seq<Arc>)
    ensures forall a :: a in arcs && a.missing ==> a in MissingArcs(arcs)
  {
    if arcs != [] {
      MissingArcsMembership(arcs[1..]);
      assert arcs == [arcs[0]] + arcs[1..];
    }
  }

  /** The assertion made right after the arc purge, as written: the model has
      as many arcs as the processor has connections. */
  predicate LoadArcCountAssertionAsWritten(arcs: seq<Arc>, proc: Processor)
  {
    |arcs| == |proc.connections|
  }

  /** One stored arc between two loaded nodes that the processor refuses is
      kept as missing, so the arc count and the connection count differ. */
  lemma LoadArcCountAssertionFails()
    ensures var restored := RestoreArcs([Arc(Connection(1, 0, 2, 0), false)], Processor([1, 2], []),
                                        (p: Processor, c: Connection) => false, {1, 2});
      var kept := DiscardFailed(restored.0);
      && |kept| == 1
      && !LoadArcCountAssertionAsWritten(kept, restored.1)
      && ArcsMatchProcessor(kept, restored.1)
  {
    var arcs := [Arc(Connection(1, 0, 2, 0), false)];
    var restored := RestoreArcs(arcs, Processor([1, 2], []), (p: Processor, c: Connection) => false, {1, 2});
    assert FateAt(arcs[0].conn, Before(Processor([1, 2], []), restored.0, 0), (p: Processor, c: Connection) => false, {1, 2}, restored.0[0]);
    assert restored.0 == [Some(Arc(Connection(1, 0, 2, 0), true))];
    assert restored.0[..1] == restored.0;
    assert DiscardFailed(restored.0) == [Arc(Connection(1, 0, 2, 0), true)];
  }

  /** Restoring into a processor with no connections leaves the live arcs
      equal to the processor's connections: the invariant the count
      assertion stands for. */
  lemma RestoredArcsMatchProcessor(arcs: seq<Arc>, nodeIds: seq<nat>, accept: AcceptOracle, modelIds: set<nat>)
    ensures var restored := RestoreArcs(arcs, Processor(nodeIds, []), accept, modelIds);
      ArcsMatchProcessor(DiscardFailed(restored.0), restored.1)
  {
    var restored := RestoreArcs(arcs, Processor(nodeIds, []), accept, modelIds);
    assert restored.0[..|arcs|] == restored.0;
  }

  // ---------------------------------------------------------- IO enforcer

  datatype IOType = AudioInputNode | AudioOutputNode | MidiInputNode | MidiOutputNode

  /** What the enforcer sees: which IO nodes the graph model has and what the
      processor offers. */
  datatype IOContext = IOContext(
    hasAudioInputNode: bool, hasAudioOutputNode: bool,
    hasMidiInputNode: bool, hasMidiOutputNode: bool,
    totalNumInputChannels: nat, totalNumOutputChannels: nat,
    acceptsMidi: bool, producesMidi: bool)

  predicate Wants(ctx: IOContext, t: IOType)
  {
    match t
    case AudioInputNode => ctx.hasAudioInputNode && ctx.totalNumInputChannels > 0
    case AudioOutputNode => ctx.hasAudioOutputNode && ctx.totalNumOutputChannels > 0
    case MidiInputNode => ctx.hasMidiInputNode && ctx.acceptsMidi
    case MidiOutputNode => ctx.hasMidiOutputNode && ctx.producesMidi
  }

  /** The relative position an added IO node is given. */
  function IOPosition(t: IOType): (real, real)
  {
    match t
    case AudioInputNode => (0.25, 0.25)
    case AudioOutputNode => (0.25, 0.75)
    case MidiInputNode => (0.75, 0.25)
    case MidiOutputNode => (0.75, 0.75)
  }

  function IOIdentifier(t: IOType): string
  {
    match t
    case AudioInputNode => "audio.input"
    case AudioOutputNode => "audio.output"
    case MidiInputNode => "midi.input"
    case MidiOutputNode => "midi.output"
  }

  datatype IOAction = KeepNode | RemoveIONode(nodeId: nat) | AddIONode(identifier: string, x: real, y: real) | NoNode

  /** The enforcer's decision for one IO type, given the id of the existing
      IO node of that type, if any. */
  function DecideIO(ctx: IOContext, t: IOType, existing: Option<nat>): (a: IOAction)
    ensures a.RemoveIONode? <==> existing.Some? && !Wants(ctx, t)
    ensures a.RemoveIONode? ==> a.nodeId == existing.value
    ensures a.AddIONode? <==> existing.None? && Wants(ctx, t)
    ensures a.AddIONode? ==> a.identifier == IOIdentifier(t) && (a.x, a.y) == IOPosition(t)
  {
    if existing.Some? then
      (if !Wants(ctx, t) then RemoveIONode(existing.value) else KeepNode)
    else if !Wants(ctx, t) then NoNode
    else
      var pos := IOPosition(t);
      AddIONode(IOIdentifier(t), pos.0, pos.1)
  }

  const IOTypes: seq<IOType> := [AudioInputNode, AudioOutputNode, MidiInputNode, MidiOutputNode]

  /** `addMissingIONodes`: the decisions for the four IO types in type order,
      applied as additions first and removals after. */
  function EnforceIONodes(ctx: IOContext, existing: IOType -> Option<nat>): (r: (seq<IOAction>, seq<nat>))
    ensures |r.0| == 4
    ensures forall i :: 0 <= i < 4 ==>
      (r.0[i].AddIONode? <==> existing(IOTypes[i]).None? && Wants(ctx, IOTypes[i]))
    ensures forall t: IOType :: existing(t).Some? && !Wants(ctx, t) ==> existing(t).value in r.1
    ensures forall id :: id in r.1 ==> exists t: IOType :: existing(t) == Some(id) && !Wants(ctx, t)
  {
    var actions := seq(4, i requires 0 <= i < 4 => DecideIO(ctx, IOTypes[i], existing(IOTypes[i])));
    var ids := RemovalIds(actions);
    forall t: IOType | existing(t).Some? && !Wants(ctx, t)
      ensures existing(t).value in ids
    {
      var i := IOTypeIndex(t);
      assert actions[i] == RemoveIONode(existing(t).value);
    }
    (actions, ids)
  }

  function IOTypeIndex(t: IOType): (i: nat)
    ensures i < 4 && IOTypes[i] == t
  {
    match t
    case AudioInputNode => 0
    case AudioOutputNode => 1
    case MidiInputNode => 2
    case MidiOutputNode => 3
  }

  function RemovalIds(actions: seq<IOAction>): (r: seq<nat>)
    ensures forall i :: 0 <= i < |actions| && actions[i].RemoveIONode? ==> actions[i].nodeId in r
    ensures forall id :: id in r ==> exists i :: 0 <= i < |actions| && actions[i] == RemoveIONode(id)
  {
    if actions == [] then []
    else
      var rest := RemovalIds(actions[1..]);
      assert forall id :: id in rest ==> exists i :: 0 <= i < |actions| && actions[i] == RemoveIONode(id) by {
        forall id | id in rest
          ensures exists i :: 0 <= i < |actions| && actions[i] == RemoveIONode(id)
        {
          var k :| 0 <= k < |actions[1..]| && actions[1..][k] == RemoveIONode(id);
          assert actions[k + 1] == RemoveIONode(id);
        }
      }
      (if actions[0].RemoveIONode? then [actions[0].nodeId] else []) + rest
  }

  // ------------------------------------------------------------- setupNode

  datatype Layout = Layout(numInputs: nat, numOutputs: nat)

  function CountAudioPorts(ports: seq<Port>, isInput: bool): (n: nat)
    ensures n <= |ports|
  {
    if ports == [] then 0
    else (if ports[0].portType == Audio && ports[0].isInput == isInput then 1 else 0) + CountAudioPorts(ports[1..], isInput)
  }

  /** `setupNode`'s port reconciliation. When the processor's channel counts
      differ from the model's audio ports, the model's layout is tried on the
      processor (it takes effect when supported) and the model ports are
      reset; a sub-graph always resets them, and so does a port-count
      mismatch. `portsFor` gives the node's ports for a processor layout. */
  function SetupNodePorts(modelPorts: seq<Port>, proc: Option<Layout>, layoutSupported: bool, isSubGraph: bool,
                          portsFor: Option<Layout> -> seq<Port>): (r: (Option<Layout>, seq<Port>))
    ensures |r.1| == |portsFor(r.0)|
    ensures proc.None? ==> r.0 == proc
    ensures var want := Layout(CountAudioPorts(modelPorts, true), CountAudioPorts(modelPorts, false));
      && (proc.Some? && proc.value != want && layoutSupported ==> r.0 == Some(want))
      && (proc.Some? && proc.value != want && !layoutSupported ==> r.0 == proc)
      && (proc.Some? && proc.value == want ==> r.0 == proc)
      && (!(proc.Some? && proc.value != want) && !isSubGraph && |modelPorts| == |portsFor(proc)| ==> r.1 == modelPorts)
      && ((proc.Some? && proc.value != want) || isSubGraph || |modelPorts| != |portsFor(r.0)| ==> r.1 == portsFor(r.0))
  {
    var want := Layout(CountAudioPorts(modelPorts, true), CountAudioPorts(modelPorts, false));
    var mismatch := proc.Some? && proc.value != want;
    var layout := if mismatch && layoutSupported then Some(want) else proc;
    var reset := mismatch || isSubGraph || |modelPorts| != |portsFor(layout)|;
    (layout, if reset then portsFor(layout) else modelPorts)
  }
}

=== FILE: graph_node.dfy ===
/** The scalar state of a graph node: key range, transpose, gains with their
    "last value" shadows, the enable/mute/MIDI-program flags (held as 0/1
    integers, as the node stores them), name, latency and the RMS meters. */
module GraphNodeModel {
  import opened Common

  /** Special parameter indexes used when mapping the universal node settings. */
  datatype SpecialParameter = NoParameter | EnabledParameter | BypassParameter | MuteParameter

  function SpecialParameterIndex(p: SpecialParameter): int
  {
    match p
    case NoParameter => -1
    case EnabledParameter => -2
    case BypassParameter => -3
    case MuteParameter => -4
  }

  const SpecialParameterBegin: int := SpecialParameterIndex(MuteParameter)
  const SpecialParameterEnd: int := SpecialParameterIndex(NoParameter)

  /** The special parameter an index denotes, if any. */
  function SpecialParameterFor(index: int): (r: Option<SpecialParameter>)
    ensures r.Some? <==> SpecialParameterBegin <= index <= SpecialParameterEnd
    ensures r.Some? ==> SpecialParameterIndex(r.value) == index
  {
    if index == -1 then Some(NoParameter)
    else if index == -2 then Some(EnabledParameter)
    else if index == -3 then Some(BypassParameter)
    else if index == -4 then Some(MuteParameter)
    else None
  }

  /** Every special parameter has its own index, inside the special range,
      and the index maps back to it. */
  lemma SpecialParameterIndexRoundTrip(p: SpecialParameter, q: SpecialParameter)
    ensures SpecialParameterBegin <= SpecialParameterIndex(p) <= SpecialParameterEnd
    ensures SpecialParameterFor(SpecialParameterIndex(p)) == Some(p)
    ensures SpecialParameterIndex(p) == SpecialParameterIndex(q) ==> p == q
  {
  }

  datatype GraphNode = GraphNode(
    nodeId: nat,
    name: string,
    enabled: int,
    bypassed: int,
    mute: int,
    muteInput: int,
    gain: real,
    lastGain: real,
    inputGain: real,
    lastInputGain: real,
    keyRangeLow: int,
    keyRangeHigh: int,
    transposeOffset: int,
    midiProgram: int,
    midiProgramsEnabled: int,
    globalMidiPrograms: int,
    latencySamples: int,
    osLatency: real,
    inRMS: seq<real>,
    outRMS: seq<real>)

  /** A node with the field initialisers of the class; the gains are given by
      the constructor, which is not part of this model. */
  function NewNode(nodeId: nat, gain: real, inputGain: real): (n: GraphNode)
    ensures GetKeyRange(n) == (0, 127)
    ensures GetTransposeOffset(n) == 0
    ensures IsEnabled(n) && !IsMuted(n) && !IsMutingInputs(n)
    ensures !AreMidiProgramsEnabled(n) && !UseGlobalMidiPrograms(n)
    ensures GetLatencySamples(n) == 0
  {
    GraphNode(nodeId, "", 1, 0, 0, 0, gain, gain, inputGain, inputGain,
              0, 127, 0, 0, 0, 0, 0, 0.0, [], [])
  }

  // ---------------------------------------------------------------- key range

  predicate ValidKeyRange(low: int, high: int)
  {
    0 <= low <= high < 128
  }

  function GetKeyRange(n: GraphNode): (int, int)
  {
    (n.keyRangeLow, n.keyRangeHigh)
  }

  function SetKeyRange(n: GraphNode, low: int, high: int): (r: GraphNode)
    requires ValidKeyRange(low, high)
    ensures GetKeyRange(r) == (low, high)
    ensures r.(keyRangeLow := n.keyRangeLow, keyRangeHigh := n.keyRangeHigh) == n
  {
    n.(keyRangeLow := low, keyRangeHigh := high)
  }

  /** The key range read back is always the last one set, and the range a
      node reports stays a valid MIDI key range across any number of sets. */
  lemma {:induction false} KeyRangeLastSetWins(n: GraphNode, lows: seq<int>, highs: seq<int>)
    requires |lows| == |highs| > 0
    requires forall i :: 0 <= i < |lows| ==> ValidKeyRange(lows[i], highs[i])
    ensures GetKeyRange(SetKeyRanges(n, lows, highs)) == (lows[|lows| - 1], highs[|highs| - 1])
    ensures ValidKeyRange(SetKeyRanges(n, lows, highs).keyRangeLow, SetKeyRanges(n, lows, highs).keyRangeHigh)
    decreases |lows|
  {
    if |lows| == 1 {
    } else {
      KeyRangeLastSetWins(SetKeyRange(n, lows[0], highs[0]), lows[1..], highs[1..]);
    }
  }

  function SetKeyRanges(n: GraphNode, lows: seq<int>, highs: seq<int>): GraphNode
    requires |lows| == |highs|
    requires forall i :: 0 <= i < |lows| ==> ValidKeyRange(lows[i], highs[i])
    decreases |lows|
  {
    if lows == [] then n else SetKeyRanges(SetKeyRange(n, lows[0], highs[0]), lows[1..], highs[1..])
  }

  // ---------------------------------------------------------------- transpose

  function GetTransposeOffset(n: GraphNode): int
  {
    n.transposeOffset
  }

  function SetTransposeOffset(n: GraphNode, value: int): (r: GraphNode)
    requires -24 <= value <= 24
    ensures GetTransposeOffset(r) == value
    ensures -24 <= GetTransposeOffset(r) <= 24
    ensures r.(transposeOffset := n.transposeOffset) == n
  {
    n.(transposeOffset := value)
  }

  // --------------------------------------------------------------------- gain

  /** Copies the current gains into their "last" shadows when they differ. */
  function UpdateGain(n: GraphNode): (r: GraphNode)
    ensures r.lastGain == n.gain && r.lastInputGain == n.inputGain
    ensures r.gain == n.gain && r.inputGain == n.inputGain
    ensures r.(lastGain := n.lastGain, lastInputGain := n.lastInputGain) == n
  {
    var g := if n.lastGain != n.gain then n.(lastGain := n.gain) else n;
    if g.lastInputGain != g.inputGain then g.(lastInputGain := g.inputGain) else g
  }

  /** A second update right after the first changes nothing. */
  lemma UpdateGainIdempotent(n: GraphNode)
    ensures UpdateGain(UpdateGain(n)) == UpdateGain(n)
  {
  }

  // --------------------------------------------------------------------- RMS

  /** Meter lookup that is total: out-of-range channels, on either side, read
      as silence. This is the guard the accessor needs; see
      `RmsGuardAsWritten` for the one in the header. */
  function MeterAt(meters: seq<real>, chan: int): real
  {
    if 0 <= chan < |meters| then meters[chan] else 0.0
  }

  function GetInputRMS(n: GraphNode, chan: int): real
  {
    MeterAt(n.inRMS, chan)
  }

  function GetOutputRMS(n: GraphNode, chan: int): real
  {
    MeterAt(n.outRMS, chan)
  }

  /** Any channel at or past the number of meters reads 0, and a channel
      with a meter reads that meter. */
  lemma RmsLookupIsSafe(n: GraphNode, chan: int)
    ensures chan >= |n.inRMS| ==> GetInputRMS(n, chan) == 0.0
    ensures chan >= |n.outRMS| ==> GetOutputRMS(n, chan) == 0.0
    ensures 0 <= chan < |n.inRMS| ==> GetInputRMS(n, chan) == n.inRMS[chan]
    ensures 0 <= chan < |n.outRMS| ==> GetOutputRMS(n, chan) == n.outRMS[chan]
  {
  }

  /** The header's guard: the meter is read whenever `chan < size`. */
  predicate RmsGuardAsWritten(chan: int, numMeters: nat)
  {
    chan < numMeters
  }

  /** The header's guard lets a negative channel through to the unchecked
      array read, which then indexes before the first meter. */
  lemma RmsGuardAdmitsNegativeChannel(numMeters: nat)
    ensures RmsGuardAsWritten(-1, numMeters)
    ensures !(0 <= -1 < numMeters)
  {
  }

  // -------------------------------------------------------------------- flags

  function Flag(b: bool): int
  {
    if b then 1 else 0
  }

  function IsEnabled(n: GraphNode): bool { n.enabled == 1 }
  function IsMuted(n: GraphNode): bool { n.mute == 1 }
  function IsMutingInputs(n: GraphNode): bool { n.muteInput == 1 }
  function UseGlobalMidiPrograms(n: GraphNode): bool { n.globalMidiPrograms == 1 }
  function AreMidiProgramsEnabled(n: GraphNode): bool { n.midiProgramsEnabled == 1 }

  function SetMuteInput(n: GraphNode, shouldMuteInput: bool): (r: GraphNode)
    ensures IsMutingInputs(r) == shouldMuteInput
    ensures r.(muteInput := n.muteInput) == n
  {
    n.(muteInput := Flag(shouldMuteInput))
  }

  function SetUseGlobalMidiPrograms(n: GraphNode, use: bool): (r: GraphNode)
    ensures UseGlobalMidiPrograms(r) == use
    ensures r.(globalMidiPrograms := n.globalMidiPrograms) == n
  {
    n.(globalMidiPrograms := Flag(use))
  }

  function SetMidiProgramsEnabled(n: GraphNode, enabled: bool): (r: GraphNode)
    ensures AreMidiProgramsEnabled(r) == enabled
    ensures r.(midiProgramsEnabled := n.midiProgramsEnabled) == n
  {
    n.(midiProgramsEnabled := Flag(enabled))
  }

  /** Each flag setter is read back by its own getter and leaves every other
      flag getter's answer alone. */
  lemma FlagSettersAreIndependent(n: GraphNode, a: bool, b: bool, c: bool)
    ensures var r := SetMuteInput(SetUseGlobalMidiPrograms(SetMidiProgramsEnabled(n, a), b), c);
      && AreMidiProgramsEnabled(r) == a
      && UseGlobalMidiPrograms(r) == b
      && IsMutingInputs(r) == c
      && IsEnabled(r) == IsEnabled(n)
      && IsMuted(r) == IsMuted(n)
  {
  }

  // --------------------------------------------------------------------- name

  function SetName(n: GraphNode, newName: string): (r: GraphNode)
    ensures newName == [] ==> r == n
    ensures newName != [] ==> r.name == newName && r.(name := n.name) == n
    ensures r.name != [] || n.name == []
  {
    if newName != [] then n.(name := newName) else n
  }

  // ------------------------------------------------------------------ latency

  /** Round to nearest with ties to even: the rounding the source gets from
      adding 1.5 * 2^52 in double precision under the default rounding mode. */
  function RoundToInt(x: real): (r: int)
    ensures -0.5 <= r as real - x <= 0.5
    ensures (r as real - x == 0.5 || x - r as real == 0.5) ==> r % 2 == 0
  {
    var f := x.Floor;
    var d := x - f as real;
    if d < 0.5 then f
    else if d > 0.5 then f + 1
    else if f % 2 == 0 then f else f + 1
  }

  /** The nearest integer is unique away from ties, and at a tie the even
      neighbour is chosen, so any integer meeting the same two conditions is
      the rounded value. */
  lemma RoundToIntUnique(x: real, n: int)
    requires -0.5 <= n as real - x <= 0.5
    requires (n as real - x == 0.5 || x - n as real == 0.5) ==> n % 2 == 0
    ensures n == RoundToInt(x)
  {
  }

  /** Ties go to the even neighbour in both directions. */
  lemma RoundToIntTies()
    ensures RoundToInt(0.5) == 0 && RoundToInt(1.5) == 2 && RoundToInt(2.5) == 2
    ensures RoundToInt(-0.5) == 0 && RoundToInt(-1.5) == -2
  {
  }

  function GetLatencySamples(n: GraphNode): int
  {
    n.latencySamples + RoundToInt(n.osLatency)
  }

  function SetLatencySamples(n: GraphNode, latency: int): (r: GraphNode)
    ensures r.latencySamples == latency
    ensures r.(latencySamples := n.latencySamples) == n
  {
    if n.latencySamples != latency then n.(latencySamples := latency) else n
  }

  /** The reported latency is the plugin latency plus the rounded
      oversampling latency, so with no oversampling latency it is exactly the
      value last set. */
  lemma LatencyRoundTrip(n: GraphNode, latency: int)
    ensures GetLatencySamples(SetLatencySamples(n, latency)) - latency == RoundToInt(n.osLatency)
    ensures n.osLatency == 0.0 ==> GetLatencySamples(SetLatencySamples(n, latency)) == latency
  {
  }
}

=== FILE: midi_monitor.dfy ===
/** The MIDI monitor node: the render thread queues every incoming message
    of a non-empty block, and a timer drains the queue into a bounded text
    log, skipping clock ticks and naming transport messages by word. */
module MidiMonitor {
  import opened Common

  datatype Monitor = Monitor(
    createdPorts: bool,
    ports: seq<Port>,
    queue: seq<MidiMessage>,
    numSamples: int,
    midiLog: seq<string>,
    maxLoggedMessages: nat)

  /** A monitor as constructed: no ports yet, nothing queued or logged. */
  function NewMonitor(maxLoggedMessages: nat): (m: Monitor)
    ensures !m.createdPorts && m.queue == [] && m.midiLog == [] && m.numSamples == 0
  {
    Monitor(false, [], [], 0, [], maxLoggedMessages)
  }

  function Description(): (d: PluginDescription)
  {
    PluginDescription("MIDI Monitor", "MIDI Monitor", MidiMonitorId, InternalFormatName,
                      "Element", "1.0.0", 0, 0, false, false)
  }

  /** The monitor describes itself as an internal MIDI-only node: no audio
      channels, not an instrument, of the internal format. */
  lemma DescriptionIsMidiOnly()
    ensures Description().numInputChannels == 0 && Description().numOutputChannels == 0
    ensures Description().pluginFormatName == InternalFormatName
    ensures Description().fileOrIdentifier == MidiMonitorId
    ensures !Description().isInstrument && !Description().hasSharedContainer
  {
  }

  function MonitorPorts(): seq<Port>
  {
    [Port(Midi, 0, "midi_in", "MIDI In", true), Port(Midi, 1, "midi_out", "MIDI Out", false)]
  }

  /** Creates the MIDI in/out pair once; later calls keep the ports. */
  function CreatePorts(m: Monitor): (r: Monitor)
    ensures r.createdPorts
    ensures m.createdPorts ==> r == m
    ensures !m.createdPorts ==> |r.ports| == 2
    ensures !m.createdPorts ==> forall i :: 0 <= i < |r.ports| ==> r.ports[i].portType == Midi && r.ports[i].index == i
    ensures !m.createdPorts ==> r.ports[0].isInput && !r.ports[1].isInput
    ensures !m.createdPorts ==> r.ports[0].symbol == "midi_in" && r.ports[1].symbol == "midi_out"
    ensures !m.createdPorts ==> r.ports[0].name == "MIDI In" && r.ports[1].name == "MIDI Out"
    ensures r.queue == m.queue && r.midiLog == m.midiLog && r.numSamples == m.numSamples
  {
    if m.createdPorts then m else m.(ports := MonitorPorts(), createdPorts := true)
  }

  lemma CreatePortsIdempotent(m: Monitor)
    ensures CreatePorts(CreatePorts(m)) == CreatePorts(m)
  {
  }

  /** Preparing resets the collector and the pending sample count. */
  function PrepareToRender(m: Monitor): (r: Monitor)
    ensures r.queue == [] && r.numSamples == 0
    ensures r.midiLog == m.midiLog && r.ports == m.ports
    ensures r.maxLoggedMessages == m.maxLoggedMessages && r.createdPorts == m.createdPorts
  {
    m.(queue := [], numSamples := 0)
  }

  /** An empty block is ignored; otherwise every event of the block is queued
      in order and the block's length is added to the pending count. */
  function Render(m: Monitor, events: seq<MidiEvent>, nframes: nat): (r: Monitor)
    ensures nframes == 0 ==> r == m
    ensures nframes > 0 ==> |r.queue| == |m.queue| + |events|
    ensures nframes > 0 ==> r.queue[..|m.queue|] == m.queue
    ensures nframes > 0 ==> forall i :: 0 <= i < |events| ==> r.queue[|m.queue| + i] == events[i].message
    ensures nframes > 0 ==> r.numSamples == m.numSamples + nframes
    ensures nframes > 0 ==> r.(queue := m.queue, numSamples := m.numSamples) == m
    ensures r.midiLog == m.midiLog
  {
    if nframes == 0 then m
    else m.(queue := m.queue + Messages(events), numSamples := m.numSamples + nframes)
  }

  /** Drains the queue when some samples are pending; with none pending the
      queue is left alone and nothing comes out. */
  function GetMessages(m: Monitor): (r: (Monitor, seq<MidiMessage>))
    ensures m.numSamples <= 0 ==> r.0 == m && r.1 == []
    ensures m.numSamples > 0 ==> r.1 == m.queue && r.0.queue == [] && r.0.numSamples == 0
    ensures r.0.midiLog == m.midiLog && r.0.ports == m.ports
    ensures r.0.(queue := m.queue, numSamples := m.numSamples) == m
    ensures r.1 + r.0.queue == m.queue
  {
    if m.numSamples <= 0 then (m, [])
    else (m.(queue := [], numSamples := 0), m.queue)
  }

  function ClearMessages(m: Monitor): (r: Monitor)
    ensures r.midiLog == [] && r.queue == [] && r.numSamples == 0
    ensures r.ports == m.ports && r.maxLoggedMessages == m.maxLoggedMessages
    ensures r.(midiLog := m.midiLog, queue := m.queue, numSamples := m.numSamples) == m
  {
    m.(midiLog := [], queue := [], numSamples := 0)
  }

  /** The log line of one message: none for a clock tick, a word for the
      three transport messages, the message's description otherwise. */
  function LogText(msg: MidiMessage): (r: Option<string>)
    ensures r.None? <==> msg.Clock?
    ensures msg.Start? ==> r == Some("Start")
    ensures msg.Stop? ==> r == Some("Stop")
    ensures msg.Continue? ==> r == Some("Continue")
    ensures msg.Other? ==> r == Some(msg.description)
  {
    match msg
    case Clock => None
    case Start => Some("Start")
    case Stop => Some("Stop")
    case Continue => Some("Continue")
    case Other(d) => Some(d)
  }

  function LogLines(msgs: seq<MidiMessage>): (r: seq<string>)
    ensures |r| == CountWhere(msgs, IsNotClock)
  {
    if msgs == [] then []
    else
      var head := LogText(msgs[0]);
      (if head.Some? then [head.value] else []) + LogLines(msgs[1..])
  }

  /** Logging is per message: the lines of a concatenation are the lines of
      its parts. */
  lemma {:induction false} LogLinesConcat(a: seq<MidiMessage>, b: seq<MidiMessage>)
    ensures LogLines(a + b) == LogLines(a) + LogLines(b)
  {
    if a == [] {
      assert a + b == b;
    } else {
      assert (a + b)[1..] == a[1..] + b;
      LogLinesConcat(a[1..], b);
    }
  }

  /** Without clock ticks every message gets its own line, at its own
      position. */
  lemma {:induction false} LogLinesOfNonClock(msgs: seq<MidiMessage>)
    requires forall i :: 0 <= i < |msgs| ==> IsNotClock(msgs[i])
    ensures |LogLines(msgs)| == |msgs|
    ensures forall i :: 0 <= i < |msgs| ==> LogText(msgs[i]) == Some(LogLines(msgs)[i])
  {
    if msgs != [] {
      LogLinesOfNonClock(msgs[1..]);
      assert LogLines(msgs) == [LogText(msgs[0]).value] + LogLines(msgs[1..]);
      forall i | 0 < i < |msgs|
        ensures LogText(msgs[i]) == Some(LogLines(msgs)[i])
      {
        assert msgs[i] == msgs[1..][i - 1];
      }
    }
  }

  /** Clock ticks leave no trace: the lines are those of the non-clock
      messages, one each, in order. */
  lemma {:induction false} LogLinesSkipClock(msgs: seq<MidiMessage>)
    ensures LogLines(msgs) == LogLines(Filter(msgs, IsNotClock))
    ensures |LogLines(msgs)| == |Filter(msgs, IsNotClock)|
    ensures forall i :: 0 <= i < |Filter(msgs, IsNotClock)| ==>
              LogText(Filter(msgs, IsNotClock)[i]) == Some(LogLines(msgs)[i])
  {
    FilterMembership(msgs, IsNotClock);
    LogLinesOfNonClock(Filter(msgs, IsNotClock));
    LogLinesSkipClockOnly(msgs);
  }

  lemma {:induction false} LogLinesSkipClockOnly(msgs: seq<MidiMessage>)
    ensures LogLines(msgs) == LogLines(Filter(msgs, IsNotClock))
  {
    if msgs != [] {
      LogLinesSkipClockOnly(msgs[1..]);
      var head := if IsNotClock(msgs[0]) then [msgs[0]] else [];
      assert Filter(msgs, IsNotClock) == head + Filter(msgs[1..], IsNotClock);
      LogLinesConcat(head, Filter(msgs[1..], IsNotClock));
    }
  }

  /** The timer: drain the queue; if anything came out, append its lines to
      the log and trim the log to its newest `maxLoggedMessages` lines. */
  function TimerCallback(m: Monitor): (r: Monitor)
    ensures var drained := GetMessages(m).1;
      drained == [] ==> r.midiLog == m.midiLog
    ensures var drained := GetMessages(m).1;
      drained != [] ==> r.midiLog == KeepNewest(m.midiLog + LogLines(drained), m.maxLoggedMessages)
    ensures |m.midiLog| <= m.maxLoggedMessages ==> |r.midiLog| <= m.maxLoggedMessages
    ensures r.queue == GetMessages(m).0.queue && r.ports == m.ports
    ensures m.numSamples > 0 ==> r.queue == [] && r.numSamples == 0
    ensures r.(midiLog := m.midiLog) == GetMessages(m).0
  {
    var (drainedState, drained) := GetMessages(m);
    if |drained| <= 0 then drainedState
    else drainedState.(midiLog := KeepNewest(m.midiLog + LogLines(drained), m.maxLoggedMessages))
  }

  /** Messages rendered into a block reach the log at the next timer tick,
      after whatever was already queued, with clock ticks skipped. */
  lemma RenderedMessagesAreLogged(m: Monitor, events: seq<MidiEvent>, nframes: nat)
    requires nframes > 0 && m.numSamples >= 0
    requires m.queue + Messages(events) != []
    ensures TimerCallback(Render(m, events, nframes)).midiLog
         == KeepNewest(m.midiLog + LogLines(m.queue) + LogLines(Messages(events)), m.maxLoggedMessages)
    ensures TimerCallback(Render(m, events, nframes)).queue == []
  {
    var rendered := Render(m, events, nframes);
    var drained := m.queue + Messages(events);
    assert rendered.queue == drained && rendered.numSamples > 0;
    assert GetMessages(rendered).1 == drained;
    LogLinesConcat(m.queue, Messages(events));
    assert m.midiLog + LogLines(drained) == m.midiLog + LogLines(m.queue) + LogLines(Messages(events));
  }

  /** After clearing, a timer tick finds nothing and the log stays empty. */
  lemma ClearedMonitorLogsNothing(m: Monitor)
    ensures TimerCallback(ClearMessages(m)).midiLog == []
  {
  }
}

=== FILE: osc_sender.dfy ===
/** The OSC sender node: blocks rendered while connected and not paused are
    queued, a worker turns every queued MIDI message into an OSC message and
    sends it, and the non-clock ones are kept in a bounded log for the
    editor. The node also saves and restores its connection settings. */
module OscSender {
  import opened Common

  /** An OSC message, identified by the MIDI message it was converted from;
      the conversion itself is not part of this model. */
  datatype OscMessage = OscMessage(source: MidiMessage)

  /** The node's state. `socketOpen` is the state of the underlying sender
      socket, which `connected` is meant to mirror. */
  datatype Sender = Sender(
    hostName: string,
    portNumber: int,
    connected: bool,
    socketOpen: bool,
    paused: bool,
    createdPorts: bool,
    ports: seq<Port>,
    queue: seq<MidiMessage>,
    numSamples: int,
    oscLog: seq<OscMessage>,
    maxOscMessages: nat)

  predicate SocketAgrees(s: Sender)
  {
    s.connected == s.socketOpen
  }

  function NewSender(maxOscMessages: nat): (s: Sender)
    ensures !s.connected && !s.paused && SocketAgrees(s)
    ensures s.queue == [] && s.oscLog == []
  {
    Sender("", 0, false, false, false, false, [], [], 0, [], maxOscMessages)
  }

  /** Creates the single MIDI input once. */
  function CreatePorts(s: Sender): (r: Sender)
    ensures r.createdPorts
    ensures s.createdPorts ==> r == s
    ensures !s.createdPorts ==> |r.ports| == 1 && r.ports[0].portType == Midi && r.ports[0].isInput
    ensures !s.createdPorts ==> r.ports[0].index == 0 && r.ports[0].symbol == "midi_in"
  {
    if s.createdPorts then s else s.(ports := [Port(Midi, 0, "midi_in", "MIDI In", true)], createdPorts := true)
  }

  // ------------------------------------------------------------- connection

  /** Connects the socket. A node already connected on the same port number
      answers true and changes nothing, whatever the host; otherwise the
      host and port are recorded and the connection state is the socket's
      answer `socketOk`. */
  function Connect(s: Sender, host: string, port: int, socketOk: bool): (r: (Sender, bool))
    ensures s.connected && s.portNumber == port ==> r.0 == s && r.1
    ensures !(s.connected && s.portNumber == port) ==>
      r.0.hostName == host && r.0.portNumber == port && r.0.connected == socketOk && r.1 == socketOk
    ensures r.1 == r.0.connected
    ensures SocketAgrees(s) ==> SocketAgrees(r.0)
    ensures r.0.paused == s.paused && r.0.queue == s.queue && r.0.oscLog == s.oscLog
  {
    if s.connected && s.portNumber == port then (s, s.connected)
    else (s.(hostName := host, portNumber := port, connected := socketOk, socketOpen := socketOk), socketOk)
  }

  /** Closes the socket. A node that is not connected answers true; otherwise
      the answer is the socket's `closeOk`. */
  function Disconnect(s: Sender, closeOk: bool): (r: (Sender, bool))
    ensures !r.0.connected
    ensures !s.connected ==> r == (s, true)
    ensures s.connected ==> !r.0.socketOpen && r.1 == closeOk
    ensures SocketAgrees(s) ==> SocketAgrees(r.0)
    ensures r.0.hostName == s.hostName && r.0.portNumber == s.portNumber && r.0.paused == s.paused
    ensures r.0.(connected := s.connected, socketOpen := s.socketOpen) == s
  {
    if !s.connected then (s, true)
    else (s.(connected := false, socketOpen := false), closeOk)
  }

  /** Flips the pause flag and answers the new value. */
  function TogglePause(s: Sender): (r: (Sender, bool))
    ensures r.1 == r.0.paused && r.0.paused != s.paused
    ensures r.0.(paused := s.paused) == s
  {
    (s.(paused := !s.paused), !s.paused)
  }

  lemma TogglePauseTwice(s: Sender)
    ensures TogglePause(TogglePause(s).0).0 == s
  {
  }

  // ------------------------------------------------------------------ state

  /** The saved properties; a property the saved tree lacks is `None`. The
      compressed serialisation is not part of this model. */
  datatype StateTree = StateTree(
    hostName: Option<string>,
    portNumber: Option<int>,
    connected: Option<bool>,
    paused: Option<bool>)

  /** The port number clamped into 1..65536. */
  function ClampPort(v: int): (r: int)
    ensures 1 <= r <= 65536
    ensures 1 <= v <= 65536 ==> r == v
    ensures v < 1 ==> r == 1
    ensures v > 65536 ==> r == 65536
  {
    if v < 1 then 1 else if v > 65536 then 65536 else v
  }

  function GetState(s: Sender): (t: StateTree)
    ensures t.hostName == Some(s.hostName) && t.portNumber == Some(s.portNumber)
    ensures t.connected == Some(s.connected) && t.paused == Some(s.paused)
  {
    StateTree(Some(s.hostName), Some(s.portNumber), Some(s.connected), Some(s.paused))
  }

  /** The decoded settings of a tree, with the defaults for missing
      properties and the port clamped. */
  datatype Settings = Settings(hostName: string, portNumber: int, connected: bool, paused: bool)

  function Decode(t: StateTree): (c: Settings)
    ensures 1 <= c.portNumber <= 65536
    ensures t.hostName.None? ==> c.hostName == ""
    ensures t.portNumber.None? ==> c.portNumber == 9001
    ensures t.connected.None? ==> !c.connected
    ensures t.paused.None? ==> !c.paused
  {
    Settings(GetOr(t.hostName, ""), ClampPort(GetOr(t.portNumber, 9001)),
             GetOr(t.connected, false), GetOr(t.paused, false))
  }

  /** The socket work of a restore: disconnect when the endpoint changes,
      then connect when the saved state was connected. */
  function RestoreSocket(s: Sender, c: Settings, socketOk: bool): (r: Sender)
    ensures SocketAgrees(s) ==> SocketAgrees(r)
    ensures c.connected && (socketOk || (s.connected && s.hostName == c.hostName && s.portNumber == c.portNumber))
            ==> r.connected
    ensures c.connected && !socketOk && !(s.connected && s.portNumber == c.portNumber) ==> !r.socketOpen
  {
    var s1 := if c.hostName != s.hostName || c.portNumber != s.portNumber then Disconnect(s, true).0 else s;
    if c.connected then Connect(s1, c.hostName, c.portNumber, socketOk).0 else s1
  }

  /** The restore as written: after the socket work the four settings are
      assigned from the tree, `connected` included, whatever the socket did.
      `None` is a tree that could not be read. */
  function SetStateAsWritten(s: Sender, data: Option<StateTree>, socketOk: bool): (r: Sender)
    ensures data.None? ==> r == s
    ensures data.Some? ==> var c := Decode(data.value);
      r.hostName == c.hostName && r.portNumber == c.portNumber
      && r.connected == c.connected && r.paused == c.paused
  {
    if data.None? then s
    else
      var c := Decode(data.value);
      var s1 := RestoreSocket(s, c, socketOk);
      s1.(hostName := c.hostName, portNumber := c.portNumber, connected := c.connected, paused := c.paused)
  }

  /** As written, a saved "connected" state restored while the socket cannot
      connect leaves the node claiming a connection it does not have; and a
      saved "disconnected" state restored onto a node connected to the same
      endpoint clears the flag but leaves the socket open. */
  lemma SetStateAsWrittenLosesSocketAgreement()
    ensures var s := NewSender(8);
      var r := SetStateAsWritten(s, Some(StateTree(Some("host"), Some(9001), Some(true), None)), false);
      SocketAgrees(s) && r.connected && !r.socketOpen
    ensures var s := NewSender(8).(hostName := "host", portNumber := 9001, connected := true, socketOpen := true);
      var r := SetStateAsWritten(s, Some(StateTree(Some("host"), Some(9001), Some(false), None)), true);
      SocketAgrees(s) && !r.connected && r.socketOpen
  {
  }

  /** The restore with `connected` taken from the socket: a node that wants
      to be disconnected is disconnected, and one that wants a connection
      holds one exactly when the socket gave it. */
  function SetState(s: Sender, data: Option<StateTree>, socketOk: bool): (r: Sender)
    ensures data.None? ==> r == s
    ensures data.Some? ==> var c := Decode(data.value);
      r.hostName == c.hostName && r.portNumber == c.portNumber && r.paused == c.paused
    ensures data.Some? && !Decode(data.value).connected ==> !r.connected
    ensures data.Some? && Decode(data.value).connected && socketOk ==> r.connected
    ensures (data.Some? && Decode(data.value).connected && !socketOk
             && !(s.connected && s.portNumber == Decode(data.value).portNumber)) ==> !r.connected
    ensures SocketAgrees(s) ==> SocketAgrees(r)
    ensures r.queue == s.queue && r.oscLog == s.oscLog && r.maxOscMessages == s.maxOscMessages
    ensures r.ports == s.ports && r.createdPorts == s.createdPorts && r.numSamples == s.numSamples
  {
    if data.None? then s
    else
      var c := Decode(data.value);
      var s1 := RestoreSocket(s, c, socketOk);
      var s2 := if c.connected then s1 else Disconnect(s1, true).0;
      s2.(hostName := c.hostName, portNumber := c.portNumber, paused := c.paused)
  }

  /** Saving and restoring gives back the saved settings, provided the saved
      port is in range and the socket connects when asked. */
  lemma StateRoundTrip(p: Sender, q: Sender)
    requires 1 <= p.portNumber <= 65536
    ensures var r := SetState(q, Some(GetState(p)), true);
      r.hostName == p.hostName && r.portNumber == p.portNumber
      && r.connected == p.connected && r.paused == p.paused
  {
  }

  /** The as-written restore gives back the saved flags too, but only on the
      node's own flags: see `SetStateAsWrittenLosesSocketAgreement`. */
  lemma StateRoundTripAsWritten(p: Sender, q: Sender, socketOk: bool)
    requires 1 <= p.portNumber <= 65536
    ensures var r := SetStateAsWritten(q, Some(GetState(p)), socketOk);
      r.hostName == p.hostName && r.portNumber == p.portNumber
      && r.connected == p.connected && r.paused == p.paused
  {
  }

  // ------------------------------------------------------------ MIDI to OSC

  function ToOsc(msgs: seq<MidiMessage>): (r: seq<OscMessage>)
    ensures |r| == |msgs|
    ensures forall i :: 0 <= i < |msgs| ==> r[i].source == msgs[i]
  {
    if msgs == [] then [] else [OscMessage(msgs[0])] + ToOsc(msgs[1..])
  }

  lemma {:induction false} ToOscConcat(a: seq<MidiMessage>, b: seq<MidiMessage>)
    ensures ToOsc(a + b) == ToOsc(a) + ToOsc(b)
  {
    if a == [] {
      assert a + b == b;
    } else {
      assert (a + b)[1..] == a[1..] + b;
      ToOscConcat(a[1..], b);
    }
  }

  /** The render callback: the MIDI input is always consumed (the returned
      output is empty); the block's messages are queued, and the worker is
      woken, only for a non-empty block while connected and not paused. */
  function Render(s: Sender, events: seq<MidiEvent>, nframes: nat): (r: (Sender, seq<MidiEvent>, bool))
    ensures r.1 == []
    ensures nframes == 0 || !s.connected || s.paused ==> r.0 == s && !r.2
    ensures nframes > 0 && s.connected && !s.paused ==>
      r.2 && r.0.queue == s.queue + Messages(events) && r.0.numSamples == s.numSamples + nframes
    ensures r.0.oscLog == s.oscLog && r.0.connected == s.connected && r.0.paused == s.paused
    ensures r.0.(queue := s.queue, numSamples := s.numSamples) == s
  {
    if nframes == 0 || !s.connected || s.paused then (s, [], false)
    else (s.(queue := s.queue + Messages(events), numSamples := s.numSamples + nframes), [], true)
  }

  /** One pass of the worker: everything queued is converted and sent, in
      order; the non-clock messages are appended to the log, which then keeps
      its newest `maxOscMessages` entries. */
  function Cycle(s: Sender): (r: (Sender, seq<OscMessage>))
    ensures r.1 == ToOsc(s.queue)
    ensures r.0.queue == [] && r.0.numSamples == 0
    ensures r.0.oscLog == KeepNewest(s.oscLog + ToOsc(Filter(s.queue, IsNotClock)), s.maxOscMessages)
    ensures |r.0.oscLog| <= s.maxOscMessages || r.0.oscLog == s.oscLog + ToOsc(Filter(s.queue, IsNotClock))
    ensures r.0.connected == s.connected && r.0.paused == s.paused
    ensures r.0.(queue := s.queue, numSamples := s.numSamples, oscLog := s.oscLog) == s
  {
    (s.(queue := [], numSamples := 0,
        oscLog := KeepNewest(s.oscLog + ToOsc(Filter(s.queue, IsNotClock)), s.maxOscMessages)),
     ToOsc(s.queue))
  }

  /** The worker's pass as a loop over the drained messages, sending each
      and logging the non-clock ones, then erasing from the front of the log
      until it fits. */
  method Run(s: Sender) returns (r: Sender, sent: seq<OscMessage>)
    ensures (r, sent) == Cycle(s)
  {
    var logged;
    sent, logged := SendAll(s.queue, s.oscLog);
    logged := DropOldestWhileTooLong(logged, s.maxOscMessages);
    r := s.(queue := [], numSamples := 0, oscLog := logged);
  }

  /** The loop of the worker's pass: each message is sent, and appended to
      the log unless it is a clock tick. */
  method SendAll(messages: seq<MidiMessage>, log: seq<OscMessage>) returns (sent: seq<OscMessage>, logged: seq<OscMessage>)
    ensures sent == ToOsc(messages)
    ensures logged == log + ToOsc(Filter(messages, IsNotClock))
  {
    logged := log;
    sent := [];
    var i := 0;
    while i < |messages|
      invariant 0 <= i <= |messages|
      invariant sent == ToOsc(messages[..i])
      invariant logged == log + ToOsc(Filter(messages[..i], IsNotClock))
    {
      var msg := messages[i];
      var osc := OscMessage(msg);
      SendStep(messages, i);
      sent := sent + [osc];
      if !msg.Clock? {
        logged := logged + [osc];
      }
      i := i + 1;
    }
    assert messages[..i] == messages;
  }

  /** Sending and logging one more message extends both lists by at most
      that message. */
  lemma SendStep(messages: seq<MidiMessage>, i: nat)
    requires i < |messages|
    ensures ToOsc(messages[..i + 1]) == ToOsc(messages[..i]) + [OscMessage(messages[i])]
    ensures ToOsc(Filter(messages[..i + 1], IsNotClock))
         == ToOsc(Filter(messages[..i], IsNotClock)) + (if messages[i].Clock? then [] else [OscMessage(messages[i])])
  {
    var msg := messages[i];
    assert messages[..i + 1] == messages[..i] + [msg];
    ToOscConcat(messages[..i], [msg]);
    FilterConcat(messages[..i], [msg], IsNotClock);
    ToOscConcat(Filter(messages[..i], IsNotClock), Filter([msg], IsNotClock));
    assert Filter([msg], IsNotClock) == if msg.Clock? then [] else [msg];
  }

  /** Hands the log to the editor and empties it. */
  function GetOscMessages(s: Sender): (r: (Sender, seq<OscMessage>))
    ensures r.1 == s.oscLog && r.0.oscLog == []
    ensures r.0.(oscLog := s.oscLog) == s
  {
    (s.(oscLog := []), s.oscLog)
  }

  /** End to end: the messages of a block rendered while connected and not
      paused reach the editor's log after one worker pass, clock ticks
      skipped, as long as the log has room. */
  lemma RenderedMessagesReachLog(s: Sender, events: seq<MidiEvent>, nframes: nat)
    requires nframes > 0 && s.connected && !s.paused
    requires s.queue == [] && s.oscLog == []
    requires |events| <= s.maxOscMessages
    ensures var rendered := Render(s, events, nframes).0;
      GetOscMessages(Cycle(rendered).0).1 == ToOsc(Filter(Messages(events), IsNotClock))
    ensures var rendered := Render(s, events, nframes).0;
      Cycle(rendered).1 == ToOsc(Messages(events))
  {
    var rendered := Render(s, events, nframes).0;
    assert s.queue + Messages(events) == Messages(events);
    assert rendered.queue == Messages(events) && rendered.oscLog == [];
    var kept := ToOsc(Filter(Messages(events), IsNotClock));
    assert |kept| <= s.maxOscMessages;
    assert [] + kept == kept;
    assert Cycle(rendered).0.oscLog == kept;
  }

  /** A paused or disconnected node queues nothing, so its next pass sends
      nothing new. */
  lemma IdleNodeSendsNothing(s: Sender, events: seq<MidiEvent>, nframes: nat)
    requires !s.connected || s.paused
    requires s.queue == []
    ensures Cycle(Render(s, events, nframes).0).1 == []
  {
  }
}

=== FILE: plugin_manager.dfy ===
/** The plugin manager's scanning protocol and list bookkeeping: the
    `type:message` strings exchanged with the scanner child process, the
    master side's state machine (launching the child is an oracle result),
    the scan request's comma-joined format list, the unverified-plugin
    filter, the internal-node factory gate and the internal-plugin purge. */
module PluginManagerModel {
  import opened Common

  // ---------------------------------------------------------------- strings

  /** The characters a string trim removes: space and tab through carriage
      return. */
  predicate IsWhitespace(c: char)
  {
    c == ' ' || ('\t' <= c <= '\r')
  }

  predicate NoWhitespace(s: string)
  {
    forall i :: 0 <= i < |s| ==> !IsWhitespace(s[i])
  }

  function TrimStart(s: string): (r: string)
    ensures |r| <= |s| && r == s[|s| - |r|..]
    ensures r == [] || !IsWhitespace(r[0])
    ensures forall i :: 0 <= i < |s| - |r| ==> IsWhitespace(s[i])
  {
    if s != [] && IsWhitespace(s[0]) then
      var r := TrimStart(s[1..]);
      assert forall i :: 1 <= i < |s| - |r| ==> s[i] == s[1..][i - 1];
      r
    else s
  }

  function TrimEnd(s: string): (r: string)
    ensures |r| <= |s| && r == s[..|r|]
    ensures r == [] || !IsWhitespace(r[|r| - 1])
    ensures forall i :: |r| <= i < |s| ==> IsWhitespace(s[i])
  {
    if s != [] && IsWhitespace(s[|s| - 1]) then
      var r := TrimEnd(s[..|s| - 1]);
      assert forall i :: |r| <= i < |s| - 1 ==> s[i] == s[..|s| - 1][i];
      r
    else s
  }

  /** The string without leading and trailing whitespace. */
  function Trim(s: string): (r: string)
    ensures |r| <= |s|
    ensures r == [] || (!IsWhitespace(r[0]) && !IsWhitespace(r[|r| - 1]))
    ensures NoWhitespace(s) ==> r == s
  {
    TrimEnd(TrimStart(s))
  }

  lemma TrimIdempotent(s: string)
    ensures Trim(Trim(s)) == Trim(s)
  {
    var r := Trim(s);
    if r != [] {
      assert TrimStart(r) == r;
      assert TrimEnd(r) == r;
    }
  }

  /** The position of the first `c` in `s`, if any. */
  function IndexOf(s: string, c: char): (r: Option<nat>)
    ensures r.None? <==> c !in s
    ensures r.Some? ==> r.value < |s| && s[r.value] == c && c !in s[..r.value]
  {
    if s == [] then None
    else if s[0] == c then Some(0)
    else
      var rest := IndexOf(s[1..], c);
      if rest.None? then None
      else
        assert s[..rest.value + 1] == [s[0]] + s[1..][..rest.value];
        Some(rest.value + 1)
  }

  lemma IndexOfAfterPrefix(a: string, c: char, b: string)
    requires c !in a
    ensures IndexOf(a + [c] + b, c) == Some(|a|)
  {
    var s := a + [c] + b;
    assert s[|a|] == c;
    assert s[..|a|] == a;
  }

  /** The text before the first `c`; all of `s` when there is none. */
  function UpToFirst(s: string, c: char): (r: string)
    ensures c !in r
    ensures c !in s ==> r == s
  {
    var i := IndexOf(s, c);
    if i.Some? then s[..i.value] else s
  }

  /** The text after the first `c`; empty when there is none. */
  function FromFirst(s: string, c: char): (r: string)
    ensures c !in s ==> r == []
    ensures c in s ==> UpToFirst(s, c) + [c] + r == s
  {
    var i := IndexOf(s, c);
    if i.Some? then
      assert s == s[..i.value] + [c] + s[i.value + 1..];
      s[i.value + 1..]
    else []
  }

  // ------------------------------------------------------------ wire format

  /** The string a scanner process sends: the type, a colon, and the trimmed
      message. */
  function Frame(msgType: string, message: string): (data: string)
    ensures |data| > |msgType|
    ensures data[|msgType|] == ':' && data[..|msgType|] == msgType
  {
    msgType + ":" + Trim(message)
  }

  /** The receiving side splits at the first colon. */
  function Parse(data: string): (r: (string, string))
    ensures ':' !in r.0
    ensures ':' in data ==> r.0 + ":" + r.1 == data
    ensures ':' !in data ==> r == (data, [])
  {
    (UpToFirst(data, ':'), FromFirst(data, ':'))
  }

  /** Framing round trip: a type without a colon comes back whole, with the
      message as it was sent, trimmed. */
  lemma FrameParseRoundTrip(msgType: string, message: string)
    requires ':' !in msgType
    ensures Parse(Frame(msgType, message)) == (msgType, Trim(message))
  {
    IndexOfAfterPrefix(msgType, ':', Trim(message));
    assert Frame(msgType, message) == msgType + [':'] + Trim(message);
  }

  /** A type that does contain a colon is cut at it: the round trip needs
      the precondition above. */
  lemma FrameParseNeedsColonFreeType()
    ensures Parse(Frame("a:b", "c")).0 == "a"
  {
    IndexOfAfterPrefix("a", ':', "b:c");
    assert Frame("a:b", "c") == "a" + [':'] + "b:c";
  }

  // ------------------------------------------------------ scan format lists

  /** The names joined with commas, as the scan request carries them. */
  function Join(names: seq<string>): (r: string)
    ensures names == [] ==> r == []
  {
    if names == [] then []
    else if |names| == 1 then names[0]
    else names[0] + "," + Join(names[1..])
  }

  /** The receiving side's tokeniser, with ',' as the separator and '\'' as
      the quote mark: a comma inside quotes does not split, and the quote
      marks stay in the tokens. Empty pieces are kept. */
  function SplitOutsideQuotes(s: string, inQuote: bool): (r: seq<string>)
    ensures |r| >= 1
    decreases |s|
  {
    if s == [] then [[]]
    else if s[0] == ',' && !inQuote then [[]] + SplitOutsideQuotes(s[1..], false)
    else
      var rest := SplitOutsideQuotes(s[1..], if s[0] == '\'' then !inQuote else inQuote);
      [[s[0]] + rest[0]] + rest[1..]
  }

  /** No token at all in an empty string, otherwise the pieces between the
      commas that lie outside quotes. */
  function Tokens(s: string): (r: seq<string>)
    ensures s == [] <==> r == []
  {
    if s == [] then [] else SplitOutsideQuotes(s, false)
  }

  /** A quoted comma does not split: the quotes stay in the token. */
  lemma QuotedCommaStaysInToken()
    ensures Tokens("a,'b,c'") == ["a", "'b,c'"]
  {
    assert SplitOutsideQuotes("", false) == [""];
    assert "'"[1..] == "";
    OneToken("'", true);
    assert "c'"[1..] == "'";
    OneToken("c'", true);
    assert ",c'"[1..] == "c'";
    OneToken(",c'", true);
    assert "b,c'"[1..] == ",c'";
    OneToken("b,c'", true);
    assert "'b,c'"[1..] == "b,c'";
    OneToken("'b,c'", false);
    assert ",'b,c'"[1..] == "'b,c'";
    assert SplitOutsideQuotes(",'b,c'", false) == [""] + ["'b,c'"];
    assert "a,'b,c'"[1..] == ",'b,c'";
    assert ['a'] + "" == "a";
  }

  /** A character that does not split, followed by text that is one token,
      is one token. */
  lemma OneToken(s: string, inQuote: bool)
    requires s != [] && !(s[0] == ',' && !inQuote)
    requires SplitOutsideQuotes(s[1..], if s[0] == '\'' then !inQuote else inQuote) == [s[1..]]
    ensures SplitOutsideQuotes(s, inQuote) == [s]
  {
    assert s == [s[0]] + s[1..];
  }

  /** A format name that survives the trip: non-empty, and free of commas,
      quote marks and whitespace. */
  predicate PlainName(name: string)
  {
    name != [] && ',' !in name && '\'' !in name && NoWhitespace(name)
  }

  /** Text free of commas and quotes joins the first token of whatever
      follows it. */
  lemma {:induction false} SplitPlainPrefix(a: string, tail: string)
    requires ',' !in a && '\'' !in a
    ensures SplitOutsideQuotes(a + tail, false)
         == [a + SplitOutsideQuotes(tail, false)[0]] + SplitOutsideQuotes(tail, false)[1..]
  {
    var t := SplitOutsideQuotes(tail, false);
    if a == [] {
      assert a + tail == tail && a + t[0] == t[0];
      assert t == [t[0]] + t[1..];
    } else {
      assert (a + tail)[0] == a[0] && (a + tail)[1..] == a[1..] + tail;
      SplitPlainPrefix(a[1..], tail);
      assert [a[0]] + (a[1..] + t[0]) == a + t[0];
    }
  }

  /** Splitting the joined names gives back the names. */
  lemma {:induction false} SplitJoin(names: seq<string>)
    requires names != []
    requires forall i :: 0 <= i < |names| ==> PlainName(names[i])
    ensures SplitOutsideQuotes(Join(names), false) == names
    ensures Join(names) != [] && NoWhitespace(Join(names)) && '\'' !in Join(names)
  {
    JoinIsPlain(names);
    if |names| == 1 {
      SplitPlainPrefix(names[0], []);
      assert names[0] + [] == names[0];
    } else {
      SplitJoin(names[1..]);
      var rest := [','] + Join(names[1..]);
      assert Join(names) == names[0] + rest;
      SplitPlainPrefix(names[0], rest);
      assert rest[0] == ',' && rest[1..] == Join(names[1..]);
      assert SplitOutsideQuotes(rest, false) == [[]] + names[1..];
      assert names[0] + [] == names[0];
      assert names == [names[0]] + names[1..];
    }
  }

  /** The joined names are non-empty, with no whitespace and no quote mark. */
  lemma {:induction false} JoinIsPlain(names: seq<string>)
    requires names != []
    requires forall i :: 0 <= i < |names| ==> PlainName(names[i])
    ensures Join(names) != [] && NoWhitespace(Join(names)) && '\'' !in Join(names)
  {
    if |names| > 1 {
      JoinIsPlain(names[1..]);
      var s := Join(names);
      assert s == names[0] + [','] + Join(names[1..]);
      forall i | 0 <= i < |s|
        ensures !IsWhitespace(s[i]) && s[i] != '\''
      {
        if i < |names[0]| {
          assert s[i] == names[0][i];
        } else if i > |names[0]| {
          assert s[i] == Join(names[1..])[i - |names[0]| - 1];
        }
      }
    }
  }

  /** The scan request round trip: the formats the child scans are the
      formats the master was asked for. */
  lemma ScanRequestRoundTrip(names: seq<string>)
    requires forall i :: 0 <= i < |names| ==> PlainName(names[i])
    ensures SlaveHandleMessage(ScanRequest(names)) == ScanFormats(names)
  {
    ScanRequestParse(names);
    if names != [] {
      SplitJoin(names);
    }
  }

  lemma ScanRequestParse(names: seq<string>)
    ensures Parse(ScanRequest(names)) == ("scan", Join(names))
  {
    var data := ScanRequest(names);
    assert ':' !in "scan";
    IndexOfAfterPrefix("scan", ':', Join(names));
    assert data[..4] == "scan";
    assert data[5..] == Join(names);
  }

  // ------------------------------------------------------ scanner: child side

  datatype SlaveAction = QuitSlave | ScanFormats(formats: seq<string>) | IgnoreMessage

  /** What the child does with a message from the master. */
  function SlaveHandleMessage(data: string): (a: SlaveAction)
    ensures Parse(data).0 == "quit" <==> a == QuitSlave
    ensures a.ScanFormats? <==> Parse(data).0 == "scan"
  {
    var (msgType, message) := Parse(data);
    if msgType == "quit" then QuitSlave
    else if msgType == "scan" then ScanFormats(Tokens(Trim(message)))
    else IgnoreMessage
  }

  /** The scan request the master sends. */
  function ScanRequest(names: seq<string>): string
  {
    "scan" + [':'] + Join(names)
  }

  // ----------------------------------------------------- scanner: master side

  /** Notifications to the scanner's listeners. */
  datatype Notice = ScanStarted(plugin: string) | ScanProgress(progress: real) | ScanFinished

  datatype Master = Master(
    running: bool,
    slaveState: string,
    formatNames: seq<string>,
    pluginBeingScanned: string,
    progress: real,
    asyncPending: bool,
    outbox: seq<string>,
    notices: seq<Notice>)

  function NewMaster(): (m: Master)
    ensures !m.running && m.outbox == [] && m.notices == []
  {
    Master(false, "", [], "", 0.0, false, [], [])
  }

  /** Launching the child: the scanner variables are reset and `running`
      becomes the launch result. */
  function Launch(m: Master, launchOk: bool): (r: Master)
    ensures r.running == launchOk && r.pluginBeingScanned == [] && r.progress == -1.0
    ensures r.slaveState == m.slaveState && r.outbox == m.outbox && r.notices == m.notices
  {
    m.(pluginBeingScanned := [], progress := -1.0, running := launchOk)
  }

  /** Starting a scan: a running scanner answers true and changes nothing;
      otherwise the child is launched in the "waiting" state with the given
      formats and the answer is the launch result. */
  function StartScanning(m: Master, names: seq<string>, launchOk: bool): (r: (Master, bool))
    ensures m.running ==> r == (m, true)
    ensures !m.running ==> r.1 == launchOk && r.0.running == launchOk
    ensures !m.running ==> r.0.slaveState == "waiting" && r.0.formatNames == names
  {
    if m.running then (m, true)
    else
      var r := Launch(m.(slaveState := "waiting", running := false, formatNames := names), launchOk);
      (r, r.running)
  }

  /** A message from the child. A state message replaces the child's state
      and asks for an update only when the state changed; a name message
      records the trimmed plugin name and tells the listeners; a progress
      message records the progress, whose text `progressOf` reads as a
      number. Other messages are ignored. */
  function HandleMessageFromSlave(m: Master, data: string, progressOf: string -> real): (r: Master)
    ensures var (t, msg) := Parse(data);
      t == "state" ==> r.slaveState == msg && r.asyncPending == (m.asyncPending || msg != m.slaveState)
    ensures Parse(data).0 == "state" ==> r.(slaveState := m.slaveState, asyncPending := m.asyncPending) == m
    ensures var (t, msg) := Parse(data);
      t == "name" ==> r.pluginBeingScanned == Trim(msg) && r.notices == m.notices + [ScanStarted(Trim(msg))]
    ensures Parse(data).0 == "name" ==> r.(pluginBeingScanned := m.pluginBeingScanned, notices := m.notices) == m
    ensures var (t, msg) := Parse(data);
      t == "progress" ==> r.progress == progressOf(msg) && r.notices == m.notices + [ScanProgress(progressOf(msg))]
    ensures Parse(data).0 == "progress" ==> r.(progress := m.progress, notices := m.notices) == m
    ensures var t := Parse(data).0;
      t != "state" && t != "name" && t != "progress" ==> r == m
    ensures r.running == m.running && r.outbox == m.outbox
  {
    var (msgType, message) := Parse(data);
    if msgType == "state" then
      m.(slaveState := message, asyncPending := m.asyncPending || message != m.slaveState)
    else if msgType == "name" then
      m.(pluginBeingScanned := Trim(message), notices := m.notices + [ScanStarted(Trim(message))])
    else if msgType == "progress" then
      var p := progressOf(message);
      m.(progress := p, notices := m.notices + [ScanProgress(p)])
    else m
  }

  /** Receiving the same state twice asks for one update, not two. */
  lemma RepeatedStateTriggersOnce(m: Master, state: string, progressOf: string -> real)
    requires !m.asyncPending && ':' !in state
    ensures var once := HandleMessageFromSlave(m, Frame("state", state), progressOf);
      var twice := HandleMessageFromSlave(once.(asyncPending := false), Frame("state", state), progressOf);
      once.asyncPending == (Trim(state) != m.slaveState) && !twice.asyncPending
  {
    FrameParseRoundTrip("state", state);
  }

  /** The child went away (usually a crashing plugin). */
  function HandleConnectionLost(m: Master): (r: Master)
    ensures !r.running && r.asyncPending
    ensures r.slaveState == m.slaveState && r.outbox == m.outbox
  {
    m.(running := false, asyncPending := true)
  }

  /** The master's update, by the child's last reported state:
      "ready" while running sends the scan request; "scanning" or "waiting"
      while not running relaunches the child (`launchOk` is the result);
      "finished" stops, goes "idle" and tells the listeners; anything else
      does nothing. */
  function HandleAsyncUpdate(m0: Master, launchOk: bool): (r: Master)
    ensures !r.asyncPending
    ensures var m := m0.(asyncPending := false);
      m.slaveState == "ready" && m.running ==> r == m.(outbox := m.outbox + [ScanRequest(m.formatNames)])
    ensures m0.slaveState == "finished" ==>
      !r.running && r.slaveState == "idle" && r.notices == m0.notices + [ScanFinished]
    ensures m0.slaveState == "finished" ==>
      r.(running := m0.running, slaveState := m0.slaveState, notices := m0.notices) == m0.(asyncPending := false)
    ensures (m0.slaveState == "scanning" || m0.slaveState == "waiting") && !m0.running ==>
      r.running == launchOk && r.slaveState == m0.slaveState
    ensures (m0.slaveState == "scanning" || m0.slaveState == "waiting") && !m0.running ==>
      && r.pluginBeingScanned == "" && r.progress == -1.0
      && r.formatNames == m0.formatNames && r.notices == m0.notices && r.outbox == m0.outbox
    ensures (m0.slaveState == "scanning" || m0.slaveState == "waiting") && m0.running ==>
      r == m0.(asyncPending := false)
    ensures m0.slaveState !in {"ready", "scanning", "waiting", "finished"} ==> r == m0.(asyncPending := false)
    ensures r.outbox == m0.outbox || (m0.slaveState == "ready" && m0.running)
  {
    var m := m0.(asyncPending := false);
    if m.slaveState == "ready" && m.running then
      m.(outbox := m.outbox + [ScanRequest(m.formatNames)])
    else if m.slaveState == "scanning" then
      if !m.running then Launch(m, launchOk) else m
    else if m.slaveState == "finished" then
      m.(running := false, slaveState := "idle", notices := m.notices + [ScanFinished])
    else if m.slaveState == "waiting" then
      if !m.running then Launch(m, launchOk) else m
    else m
  }

  /** Asks a running child to quit; a stopped one is not asked. */
  function SendQuitMessage(m: Master, sendOk: bool): (r: (Master, bool))
    ensures !m.running ==> r == (m, false)
    ensures m.running ==> r.0.outbox == m.outbox + ["quit"] && r.1 == sendOk
  {
    if m.running then (m.(outbox := m.outbox + ["quit"]), sendOk) else (m, false)
  }

  /** The child hears "quit" as the quit request. */
  lemma QuitMessageQuitsSlave()
    ensures SlaveHandleMessage("quit") == QuitSlave
  {
    assert ':' !in "quit";
  }

  /** A full handshake: the child reports "ready", the master's update sends
      the scan request, and the child scans exactly the formats the scan
      was started with. */
  lemma ReadyHandshakeScansRequestedFormats(m: Master, names: seq<string>, progressOf: string -> real)
    requires !m.running
    requires forall i :: 0 <= i < |names| ==> PlainName(names[i])
    ensures var started := StartScanning(m, names, true).0;
      var ready := HandleMessageFromSlave(started, Frame("state", "ready"), progressOf);
      var updated := HandleAsyncUpdate(ready, true);
      |updated.outbox| == |m.outbox| + 1
      && SlaveHandleMessage(updated.outbox[|updated.outbox| - 1]) == ScanFormats(names)
  {
    var started := StartScanning(m, names, true).0;
    assert started.running && started.formatNames == names && started.outbox == m.outbox;
    var ready := HandleMessageFromSlave(started, Frame("state", "ready"), progressOf);
    ReadyStateArrives(started, progressOf);
    ReadyUpdateSendsRequest(ready);
    ScanRequestRoundTrip(names);
  }

  /** Recovery from a crash mid-scan: the lost connection makes the update
      relaunch the child, and once the new child reports "ready" the master
      sends the same scan request again. */
  lemma CrashedScanIsRequestedAgain(m: Master, progressOf: string -> real)
    requires m.slaveState == "scanning"
    ensures var lost := HandleConnectionLost(m);
      var relaunched := HandleAsyncUpdate(lost, true);
      var ready := HandleMessageFromSlave(relaunched, Frame("state", "ready"), progressOf);
      var updated := HandleAsyncUpdate(ready, true);
      updated.outbox == m.outbox + [ScanRequest(m.formatNames)]
  {
    var relaunched := HandleAsyncUpdate(HandleConnectionLost(m), true);
    assert relaunched.running && relaunched.formatNames == m.formatNames && relaunched.outbox == m.outbox;
    var ready := HandleMessageFromSlave(relaunched, Frame("state", "ready"), progressOf);
    ReadyStateArrives(relaunched, progressOf);
    ReadyUpdateSendsRequest(ready);
  }

  /** A "state:ready" frame leaves the master in state "ready". */
  lemma ReadyStateArrives(m: Master, progressOf: string -> real)
    ensures var r := HandleMessageFromSlave(m, Frame("state", "ready"), progressOf);
      r.slaveState == "ready" && r.running == m.running && r.formatNames == m.formatNames && r.outbox == m.outbox
  {
    assert NoWhitespace("ready");
    FrameParseRoundTrip("state", "ready");
  }

  /** In state "ready", a running master's update sends one scan request. */
  lemma ReadyUpdateSendsRequest(m: Master)
    requires m.slaveState == "ready" && m.running
    ensures HandleAsyncUpdate(m, true).outbox == m.outbox + [ScanRequest(m.formatNames)]
  {
  }

  // ------------------------------------------------- default scan formats

  /** A plugin format the host knows, with whether it can scan for plugins. */
  datatype Format = Format(name: string, canScan: bool)

  predicate DefaultScanned(f: Format)
  {
    f.name != InternalFormatName && f.canScan
  }

  /** The names of the formats a scan covers by default, in order. */
  function ScannableNames(formats: seq<Format>): (r: seq<string>)
    ensures forall i :: 0 <= i < |formats| && DefaultScanned(formats[i]) ==> formats[i].name in r
    ensures forall n :: n in r ==> exists i :: 0 <= i < |formats| && DefaultScanned(formats[i]) && formats[i].name == n
    ensures InternalFormatName !in r
  {
    if formats == [] then []
    else
      var rest := ScannableNames(formats[1..]);
      assert forall i :: 1 <= i < |formats| ==> formats[i] == formats[1..][i - 1];
      (if DefaultScanned(formats[0]) then [formats[0].name] else []) + rest
  }

  /** The formats a scan covers: the ones asked for, or by default every
      format except the internal one that can scan. */
  function FormatsToScan(names: seq<string>, formats: seq<Format>): (r: seq<string>)
    ensures names != [] ==> r == names
    ensures names == [] ==> InternalFormatName !in r
    ensures names == [] ==> forall i :: 0 <= i < |formats| && DefaultScanned(formats[i]) ==> formats[i].name in r
  {
    if names != [] then names else ScannableNames(formats)
  }

  // ---------------------------------------------------- unverified plugins

  /** The description of a found but not yet verified plugin file. */
  function UnverifiedDescription(format: string, file: string): (d: PluginDescription)
    ensures d.pluginFormatName == format && d.fileOrIdentifier == Named(file)
  {
    PluginDescription("", "", Named(file), format, "", "", 0, 0, false, false)
  }

  function Unknown(known: string -> bool): string -> bool
  {
    file => !known(file)
  }

  function UnverifiedDescriptions(format: string, files: seq<string>): (r: seq<PluginDescription>)
    ensures |r| == |files|
    ensures forall i :: 0 <= i < |files| ==> r[i] == UnverifiedDescription(format, files[i])
  {
    if files == [] then [] else [UnverifiedDescription(format, files[0])] + UnverifiedDescriptions(format, files[1..])
  }

  /** Appends the unverified plugins found for `format` (the background
      search's result `found`) whose files the known list (`known`) does not
      already hold; nothing when the format was not searched. */
  function GetPlugins(plugs: seq<PluginDescription>, format: string,
                      found: map<string, seq<string>>, known: string -> bool): (r: seq<PluginDescription>)
    ensures |r| >= |plugs| && r[..|plugs|] == plugs
    ensures format !in found ==> r == plugs
    ensures forall i :: |plugs| <= i < |r| ==> r[i].pluginFormatName == format
    ensures forall i :: |plugs| <= i < |r| ==> r[i].fileOrIdentifier.Named? && !known(r[i].fileOrIdentifier.text)
    ensures format in found ==> forall j :: 0 <= j < |found[format]| && !known(found[format][j]) ==>
              UnverifiedDescription(format, found[format][j]) in r[|plugs|..]
    ensures format in found ==> forall i :: |plugs| <= i < |r| ==>
              exists j :: 0 <= j < |found[format]| && r[i] == UnverifiedDescription(format, found[format][j])
  {
    if format !in found then plugs
    else
      var files := Filter(found[format], Unknown(known));
      FilterMembership(found[format], Unknown(known));
      var added := UnverifiedDescriptions(format, files);
      assert forall k :: 0 <= k < |files| ==> !known(files[k]);
      assert forall j :: 0 <= j < |found[format]| && !known(found[format][j]) ==>
        exists k :: 0 <= k < |files| && files[k] == found[format][j];
      assert (plugs + added)[|plugs|..] == added;
      assert forall k :: 0 <= k < |files| ==> files[k] in found[format];
      plugs + added
  }

  // ------------------------------------------------------ graph node factory

  /** The internal nodes the factory can build. */
  datatype InternalNode = MidiChannelSplitterNode | MidiProgramMapNode | MidiMonitorNode | AudioRouterNode

  /** Builds an internal node from a description. Anything not of the
      internal format is refused with "Invalid format"; the four internal
      nodes are built only in the builds that include them (`fullBuild`);
      everything else is "<name> not found.". */
  function CreateGraphNode(desc: PluginDescription, fullBuild: bool): (r: Result<InternalNode>)
    ensures desc.pluginFormatName != InternalFormatName <==> r == Err("Invalid format")
    ensures r.Ok? ==> fullBuild && desc.pluginFormatName == InternalFormatName
    ensures r.Ok? ==> (r.value == MidiMonitorNode <==> desc.fileOrIdentifier == MidiMonitorId)
    ensures desc.pluginFormatName == InternalFormatName && r.Err? ==> r.message == desc.name + " not found."
    ensures fullBuild && desc.pluginFormatName == InternalFormatName ==>
      && (desc.fileOrIdentifier == MidiChannelSplitterId ==> r == Ok(MidiChannelSplitterNode))
      && (desc.fileOrIdentifier == MidiProgramMapId ==> r == Ok(MidiProgramMapNode))
      && (desc.fileOrIdentifier == MidiMonitorId ==> r == Ok(MidiMonitorNode))
      && (desc.fileOrIdentifier == AudioRouterId ==> r == Ok(AudioRouterNode))
    ensures r.Ok? ==> desc.fileOrIdentifier in {MidiChannelSplitterId, MidiProgramMapId, MidiMonitorId, AudioRouterId}
  {
    if desc.pluginFormatName != InternalFormatName then Err("Invalid format")
    else if fullBuild && desc.fileOrIdentifier == MidiChannelSplitterId then Ok(MidiChannelSplitterNode)
    else if fullBuild && desc.fileOrIdentifier == MidiProgramMapId then Ok(MidiProgramMapNode)
    else if fullBuild && desc.fileOrIdentifier == MidiMonitorId then Ok(MidiMonitorNode)
    else if fullBuild && desc.fileOrIdentifier == AudioRouterId then Ok(AudioRouterNode)
    else
      assert desc.name + " not found." != "Invalid format" by {
        if |desc.name + " not found."| == |"Invalid format"| {
          assert (desc.name + " not found.")[|desc.name|] == ' ';
          assert "Invalid format"[|desc.name|] != ' ';
        }
      }
      Err(desc.name + " not found.")
  }

  // -------------------------------------------------- internal plugin purge

  function IsExternal(d: PluginDescription): bool
  {
    d.pluginFormatName != InternalFormatName
  }

  /** Removes every internal-format entry, walking the list from the back as
      the purge loop does. */
  method PurgeInternal(list: seq<PluginDescription>) returns (r: seq<PluginDescription>)
    ensures r == Filter(list, IsExternal)
    ensures forall i :: 0 <= i < |r| ==> r[i].pluginFormatName != InternalFormatName
  {
    r := list;
    var j := |list|;
    while j > 0
      invariant 0 <= j <= |list|
      invariant r == list[..j] + Filter(list[j..], IsExternal)
    {
      j := j - 1;
      BackwardRemoveStep(list, j, r, IsExternal);
      if list[j].pluginFormatName == InternalFormatName {
        r := r[..j] + r[j + 1..];
      }
    }
    assert list[0..] == list;
    FilterMembership(list, IsExternal);
  }

  /** Rescanning the internal plugins: when the internal format is
      registered, its entries are purged and the scanner's finds
      (`scanned`, each appended) replace them; otherwise nothing changes. */
  method ScanInternalPlugins(list: seq<PluginDescription>, formats: seq<Format>, scanned: seq<PluginDescription>)
    returns (r: seq<PluginDescription>)
    ensures (forall i :: 0 <= i < |formats| ==> formats[i].name != InternalFormatName) ==> r == list
    ensures (exists i :: 0 <= i < |formats| && formats[i].name == InternalFormatName) ==>
              r == Filter(list, IsExternal) + scanned
    ensures forall i :: 0 <= i < |list| && IsExternal(list[i]) ==> list[i] in r
  {
    r := list;
    var i := 0;
    while i < |formats|
      invariant 0 <= i <= |formats|
      invariant forall k :: 0 <= k < i ==> formats[k].name != InternalFormatName
      invariant r == list
    {
      if formats[i].name == InternalFormatName {
        r := PurgeInternal(list);
        FilterMembership(list, IsExternal);
        r := r + scanned;
        return;
      }
      i := i + 1;
    }
  }

  /** After a purge, the internal entries are exactly the scanner's. */
  lemma PurgeThenScanKeepsOnlyScannedInternals(list: seq<PluginDescription>, scanned: seq<PluginDescription>)
    ensures forall d :: d in Filter(list, IsExternal) + scanned && !IsExternal(d) ==> d in scanned
  {
    FilterMembership(list, IsExternal);
  }
}
